=== FILE: README.md ===
# chipboy-emu core, modelled in Dafny

This project models the core of the chipboy-emu Game Boy emulator. It covers:

- the processor loop: `cpu_init`, `cpu_fetch`, `cpu_tick`;
- the instruction handlers that have bodies, together with the 8-bit ALU and the flag helpers;
- the opcode-table generator, which expands bit filters such as `01xx_xyyy` into the 256-entry main table and the 256-entry CB-prefix table;
- the static priority queue and the device-event scheduler built on it;
- the interrupt controller;
- the address-space connections of the bus;
- the RAM regions with their echo RAM;
- the memory map;
- the cartridge-header reader.

Every operation is a pure function over immutable values:

- a `Machine` is the register file plus a total 64 KiB memory;
- a `Queue` is a sequence, a length bound and a comparator;
- the RAM buffers are sequences of bytes.

Calls that end the program (`emu_die`, `assert`) become `Result` or `Access` failures.

Quirks of the source are modelled as written and stated in the contracts:

- the inverted `CPU_STATUS_SET` helper, which clears a flag when given true;
- SBC adding its borrow instead of subtracting it;
- the ALU numbering, where 4 is OR, 5 is AND and 6 is XOR;
- RLCA and friends keeping the old flags apart from Z;
- SWAP on `[HL]` leaving F alone;
- `register_t` placing `hi` in the low byte of `full` on a little-endian host;
- the first fetch after reset reading address 1;
- the echo RAM overrunning WRAM0's buffer.

Three defects are logged under Findings. For each, the Dafny holds both the as-written definition, with a counterexample, and a corrected one with its property proved:

- the priority queue's sift-up: `Scheduler.ScheduleNextEventAsWritten` pushes as written and `Scheduler.ScheduleNextEvent` with the corrected sift-up, on which the scheduler's heap lemmas rest;
- the PUSH stack writes and the CALL stack writes: `CpuCore.Run`, and so `CpuCore.Tick`, runs the handlers as written, as `cpu_tick` does; `CpuCore.RunCorrected` runs the corrected CALL and PUSH.

Modules (one per file): `Errors`, `CpuState`, `Alu`, `Instructions`, `Optable`, `OpFilters`, `CpuCore`, `Interrupts`, `MemoryMap`, `EmuMemory`, `Bus`, `Cartridge`, `PQueue`, `Scheduler`.

## Model

| member | source | states |
|---|---|---|
| CpuState.RegFull | emu_core/include/core/cpu.h:9-11 | REGHIGH and REGLOW of REGFULL(hi, lo) give back hi and lo |
| CpuState.RegJoinSplit | emu_core/include/core/cpu.h:9-11 | joining REGHIGH(x) and REGLOW(x) gives x back: the two macros lose nothing |
| CpuState.PairOf | emu_core/include/core/cpu.h:16-25 | writing `full` fixes the byte members: `hi` is bits 7..0 and `lo` bits 15..8 of the written value |
| CpuState.PairOfFull | emu_core/include/core/cpu.h:16-25 | reading `full` back into a register gives the same two byte members |
| Alu.CarryBit | software_emu/src/cpu_instrs_new.c:27 | CPU_STATUS_C_TEST is 0 or 1, and 1 exactly when C is set |
| Alu.StatusSet | software_emu/src/cpu_instrs_new.c:31-32 | CPU_STATUS_SET keeps the bits outside the mask; a true value clears the masked bits and a false one sets them |
| Alu.FlagBits | software_emu/src/cpu_instrs_new.c:14-18 | the flags byte built from Z, N, H and C reads back those four flags and has a clear low nibble |
| Alu.FlagBitsOfByte | software_emu/src/cpu_instrs_new.c:14-18 | a flags byte with a clear low nibble is determined by its four flags |
| Alu.IsBranchTaken | software_emu/src/cpu_instrs_new.c:253-267 | codes 4-7 are always taken; below 4, bit 1 selects Z or C and bit 0 the required value |
| Alu.ConditionsComplement | software_emu/src/cpu_instrs_new.c:42-45 | NZ/Z and NC/C are complementary: exactly one of each pair is taken |
| Alu.AluAddSum | software_emu/src/cpu_instrs_new.c:207-213 | ADD/ADC leave A + operand + carry-in (mod 256) in A, Z iff that sum is 0, N clear |
| Alu.AluAddCarry | software_emu/src/cpu_instrs_new.c:207-213 | C after ADD/ADC is set iff the 8-bit sum wrapped past A |
| Alu.AluAddHalfCarry | software_emu/src/cpu_instrs_new.c:207-213 | H after ADD iff the low nibbles sum past 0xF |
| Alu.AdcHalfCarry | software_emu/src/cpu_instrs_new.c:207-213 | H after ADC with carry: the carry joins the operand first, so an operand nibble of 0xF never half-carries |
| Alu.AluSubDifference | software_emu/src/cpu_instrs_new.c:215-222 | SUB leaves A - b; SBC leaves A - b + borrow; CP keeps A; Z iff that difference is 0; N set |
| Alu.AluSubCarry | software_emu/src/cpu_instrs_new.c:215-222 | C after SUB/CP iff A < b; after SBC with carry iff b == 0 or A < b - 1 |
| Alu.AluSubHalfCarry | software_emu/src/cpu_instrs_new.c:215-222 | H after SUB/CP iff A's low nibble is below the operand's |
| Alu.SbcHalfCarry | software_emu/src/cpu_instrs_new.c:215-222 | H after SBC with carry: the nibble test is against the operand minus one, wrapping at 0 |
| Alu.Alu8 | software_emu/src/cpu_instrs_new.c:195-245 | `alu_op8`: A is kept by CP and by every code above 7, and only ADD, ADC, SUB, SBC and CP can set C; each code's exact result is stated by the three rows below |
| Alu.Alu8Arithmetic | software_emu/src/cpu_instrs_new.c:195-222 | codes 0-3 and 7 select ADD, ADC, SUB, SBC, CP, with the carry flag as carry-in/borrow |
| Alu.Alu8Logic | software_emu/src/cpu_instrs_new.c:224-240 | codes 4, 5, 6 are OR, AND, XOR with Z from the result and H set for AND only |
| Alu.Alu8Unknown | software_emu/src/cpu_instrs_new.c:232-244 | codes above 7 keep A and set only Z |
| Alu.CpIsSubWithoutWriteBack | software_emu/src/cpu_instrs_new.c:215-245 | CP keeps A, sets exactly SUB's flags, and Z iff A == operand |
| Alu.AddExamples | software_emu/src/cpu_instrs_new.c:207-241 | 0x0F+0x01 = 0x10 with only H; 0xFF+0x01 = 0x00 with Z, H and C |
| Alu.SbcAddsTheBorrow | software_emu/src/cpu_instrs_new.c:215-222 | with carry set SBC yields a - b + 1, never the borrowing a - b - 1 |
| Instructions.WriteReg8 | software_emu/src/cpu_instrs_new.c:112-138 | the written operand reads back the value; SP, PC, cycles, IME and F kept; memory kept unless the code is [HL] |
| Instructions.WriteReg8Frame | software_emu/src/cpu_instrs_new.c:81-138 | writing one operand leaves every other operand, except [HL] after writing H or L |
| Instructions.WriteReg16 | software_emu/src/cpu_instrs_new.c:164-180 | the written pair reads back the value, the other five 16-bit codes are unchanged |
| Instructions.AluOp8 | software_emu/src/cpu_instrs_new.c:195-247 | only A and F change, to the ALU's accumulator and flags byte |
| Instructions.RrR8 | software_emu/src/cpu_instrs_new.c:273-294 | rotate right through carry; C is the complement of old bit 0, Z is "result nonzero" |
| Instructions.RlR8 | software_emu/src/cpu_instrs_new.c:300-321 | rotate left through carry; C is the complement of old bit 7, Z is "result nonzero" |
| Instructions.RlcR8 | software_emu/src/cpu_instrs_new.c:328-339 | rotate left; C complement of old bit 7, Z "operand nonzero" |
| Instructions.RrcR8 | software_emu/src/cpu_instrs_new.c:345-356 | rotate right; C complement of old bit 0, Z "operand nonzero" |
| Instructions.Imm8 | software_emu/src/cpu_instrs_new.c:364-366 | the 8-bit immediate is the byte the 16-bit immediate at the same PC has as its low byte |
| Instructions.Imm16 | software_emu/src/cpu_instrs_new.c:358-362 | the 16-bit immediate is little-endian: low byte at PC, high byte at PC + 1 |
| Instructions.JumpRelative | software_emu/src/cpu_instrs_new.c:515-531 | the magnitude-add/subtract of JR equals adding the sign-extended offset (mod 2^16) |
| Instructions.InstrNop | software_emu/src/cpu_instrs_new.c:368-374 | one cycle, nothing else changes |
| Instructions.InstrLdR16Imm16 | software_emu/src/cpu_instrs_new.c:376-384 | the named pair holds the immediate; every other 16-bit register but PC, and IME, kept; PC + 2, 4 cycles, memory kept |
| Instructions.LdR16Imm16Layout | software_emu/src/cpu_instrs_new.c:358-384 | in BC, DE or HL the byte at PC becomes the `hi` member and the byte after it the `lo` member |
| Instructions.InstrLdImm16memSp | software_emu/src/cpu_instrs_new.c:392-401 | SP stored little-endian at the immediate address, every other byte kept, PC + 2, 5 cycles |
| Instructions.InstrIncR16 | software_emu/src/cpu_instrs_new.c:405-411 | the named pair + 1 (mod 2^16), other pairs, IME and memory kept, 2 cycles |
| Instructions.InstrDecR16 | software_emu/src/cpu_instrs_new.c:413-419 | the named pair - 1 (mod 2^16), other pairs, IME and memory kept, 2 cycles |
| Instructions.IncThenDecR16 | software_emu/src/cpu_instrs_new.c:405-419 | DEC after INC on the same pair restores the machine up to 4 cycles |
| Instructions.InstrLdR8Imm8 | software_emu/src/cpu_instrs_new.c:421-434 | destination holds the immediate; F, the other register halves, SP, IME and every byte but [HL]'s kept; PC + 1, 3 cycles for [HL] else 2 |
| Instructions.LdImmThenCopy | software_emu/src/cpu_instrs_new.c:421-434 | LD e, d after LD d, n leaves n in e |
| Instructions.InstrRlca | software_emu/src/cpu_instrs_new.c:436-445 | A rotated left, F keeps all but Z, which is cleared; 1 cycle |
| Instructions.InstrRrca | software_emu/src/cpu_instrs_new.c:447-456 | A rotated right, Z cleared, the rest of F kept |
| Instructions.InstrRla | software_emu/src/cpu_instrs_new.c:458-467 | A shifted left with old C in bit 0, Z cleared |
| Instructions.InstrRra | software_emu/src/cpu_instrs_new.c:469-478 | A shifted right with old C in bit 7, Z cleared |
| Instructions.RlcaThenRrca | software_emu/src/cpu_instrs_new.c:436-456 | RRCA undoes RLCA on A, and F ends with Z cleared |
| Instructions.InstrCpl | software_emu/src/cpu_instrs_new.c:482-489 | A complemented, F becomes exactly N and H |
| Instructions.CplTwice | software_emu/src/cpu_instrs_new.c:482-489 | CPL twice gives A back and leaves F at exactly N and H, whatever it held; nothing else but cycles changes |
| Instructions.InstrScf | software_emu/src/cpu_instrs_new.c:491-502 | C set, N and H clear, Z and A kept; every other register and memory kept; 1 cycle |
| Instructions.InstrCcf | software_emu/src/cpu_instrs_new.c:504-513 | C flipped, N and H clear, Z and A kept; every other register and memory kept; 1 cycle |
| Instructions.CcfTwice | software_emu/src/cpu_instrs_new.c:504-513 | CCF twice restores C; of the old flags only Z and C survive |
| Instructions.ScfThenCcf | software_emu/src/cpu_instrs_new.c:491-513 | CCF after SCF leaves C clear |
| Instructions.InstrJrImm8 | software_emu/src/cpu_instrs_new.c:515-531 | PC past the offset plus the sign-extended offset, 3 cycles, nothing else changes |
| Instructions.InstrJrCondImm8 | software_emu/src/cpu_instrs_new.c:533-554 | taken: relative jump, 3 cycles; not taken: PC past the offset, 2 cycles |
| Instructions.InstrLdR8R8 | software_emu/src/cpu_instrs_new.c:560-574 | destination holds the source; F, PC, the other register halves, SP, IME and every byte but [HL]'s kept; 2 cycles with [HL] else 1 |
| Instructions.LdSelfIsNop | software_emu/src/cpu_instrs_new.c:560-574 | LD r, r on a register changes nothing but the cycle counter |
| Instructions.LdCopyBack | software_emu/src/cpu_instrs_new.c:560-574 | LD d, s then LD s, d on registers leaves both holding the original s |
| Instructions.InstrAluOpR8 | software_emu/src/cpu_instrs_new.c:577-590 | A and F become the ALU result on the register operand, the rest of the context kept |
| Instructions.InstrAluOpImm8 | software_emu/src/cpu_instrs_new.c:592-600 | A and F become the ALU result on the immediate, PC + 1, 2 cycles |
| Instructions.PoppedWord | software_emu/src/cpu_instrs_new.c:620-632 | the word RET reads: low byte at SP, high byte at SP + 1 |
| Instructions.InstrRetCond | software_emu/src/cpu_instrs_new.c:602-618 | taken pops PC, SP + 2, 5 cycles; not taken only 2 cycles |
| Instructions.InstrRet | software_emu/src/cpu_instrs_new.c:620-632 | PC popped, SP + 2, 4 cycles |
| Instructions.InstrJpCond | software_emu/src/cpu_instrs_new.c:637-650 | taken: PC := immediate, 4 cycles; not taken: PC past it, 3 cycles |
| Instructions.InstrJpImm16 | software_emu/src/cpu_instrs_new.c:652-659 | PC := immediate, 4 cycles |
| Instructions.InstrJpHl | software_emu/src/cpu_instrs_new.c:662-668 | PC := HL, 1 cycle |
| Instructions.PushBytesAsWritten | software_emu/src/cpu_instrs_new.c:692-693 | the post-decrementing writes: REGHIGH at SP, REGLOW at SP - 1, nothing else |
| Instructions.InstrCallCondImm16AsWritten | software_emu/src/cpu_instrs_new.c:671-686 | as written: taken pushes the return address at SP and SP - 1, writes nothing else and jumps, 6 cycles; not taken 3 cycles, memory kept |
| Instructions.InstrCallImm16AsWritten | software_emu/src/cpu_instrs_new.c:688-697 | as written: return address bytes at SP and SP - 1, SP - 2, PC := immediate, 6 cycles |
| Instructions.CallThenRetAsWritten | software_emu/src/cpu_instrs_new.c:620-697 | as written, RET after CALL jumps to (low byte of return address, byte below the stack) |
| Instructions.CallRetLosesAddress | software_emu/src/cpu_instrs_new.c:688-697 | CALL from 0x0100 then RET lands on 0x0200, not 0x0102 |
| Instructions.PushBytes | software_emu/src/cpu_instrs_new.c:692-693 | corrected writes: the word lies low byte first at the new SP, nothing else written |
| Instructions.InstrCallCondImm16 | software_emu/src/cpu_instrs_new.c:671-686 | corrected CALL cc: taken leaves the return address at the new top of stack and writes nothing else; not taken as written |
| Instructions.InstrCallImm16 | software_emu/src/cpu_instrs_new.c:688-697 | corrected CALL: return address at the new top of stack, SP - 2, PC := immediate |
| Instructions.CallLeavesReturnOnTop | software_emu/src/cpu_instrs_new.c:688-697 | after the corrected CALL the word RET would pop is the return address |
| Instructions.CallThenRet | software_emu/src/cpu_instrs_new.c:620-697 | RET after the corrected CALL resumes just past the CALL's immediate |
| Instructions.CallThenRetSp | software_emu/src/cpu_instrs_new.c:620-697 | RET after CALL restores SP |
| Instructions.PoppedPair | software_emu/src/cpu_instrs_new.c:702-723 | POP's REGFULL assignment puts the byte at SP in `hi` and the byte at SP + 1 in `lo` |
| Instructions.InstrPopR16Stk | software_emu/src/cpu_instrs_new.c:702-723 | the named pair is popped; the other three pairs and IME kept; SP + 2, 3 cycles, memory kept |
| Instructions.PopReads | software_emu/src/cpu_instrs_new.c:702-723 | POP reads the two bytes at SP into the named pair and raises SP by 2 |
| Instructions.InstrPushR16StkAsWritten | software_emu/src/cpu_instrs_new.c:726-750 | as written: pair bytes at SP and SP - 1, nothing else written, SP - 2, 4 cycles |
| Instructions.PushThenPopAsWritten | software_emu/src/cpu_instrs_new.c:702-750 | as written, POP after PUSH gives (byte below the stack, pushed `hi`), not the pushed pair |
| Instructions.PushThenPopRestoresSp | software_emu/src/cpu_instrs_new.c:702-750 | POP after the as-written PUSH restores SP |
| Instructions.PushPopLosesValue | software_emu/src/cpu_instrs_new.c:702-750 | BC = 0x1234 pushed over a zero byte pops back as 0x3400 |
| Instructions.InstrPushR16Stk | software_emu/src/cpu_instrs_new.c:726-750 | corrected PUSH: the pair laid out at the new SP as POP reads it, nothing else written, SP - 2, 4 cycles |
| Instructions.LdImmThenPush | software_emu/src/cpu_instrs_new.c:376-384 | LD rr, nn then the corrected PUSH rr leaves the immediate at the new SP in instruction-stream byte order |
| Instructions.PushThenPop | software_emu/src/cpu_instrs_new.c:702-750 | POP after the corrected PUSH gives back the pushed pair |
| Instructions.PushThenPopSp | software_emu/src/cpu_instrs_new.c:702-750 | POP after the corrected PUSH restores SP |
| Instructions.InstrLdhCmemA | software_emu/src/cpu_instrs_new.c:754-760 | A stored at 0xFF00 + C, every other byte kept, 2 cycles |
| Instructions.InstrLdhImm8memA | software_emu/src/cpu_instrs_new.c:762-769 | A stored at 0xFF00 + immediate, every other byte kept, PC + 1, 3 cycles |
| Instructions.InstrLdImm16memA | software_emu/src/cpu_instrs_new.c:771-777 | A stored at the immediate address, every other byte kept, PC + 2, 4 cycles |
| Instructions.InstrLdhACmem | software_emu/src/cpu_instrs_new.c:779-785 | A loaded from 0xFF00 + C, F kept, 2 cycles |
| Instructions.InstrLdhAImm8mem | software_emu/src/cpu_instrs_new.c:787-794 | A loaded from 0xFF00 + immediate, PC + 1, 3 cycles |
| Instructions.InstrLdAImm16mem | software_emu/src/cpu_instrs_new.c:796-802 | A loaded from the immediate address, PC + 2, 4 cycles |
| Instructions.LdhStoreThenLoad | software_emu/src/cpu_instrs_new.c:754-785 | LDH A, [C] after LDH [C], A changes nothing but the cycle counter |
| Instructions.LdhLoadThenStore | software_emu/src/cpu_instrs_new.c:754-785 | LDH [C], A after LDH A, [C] leaves every memory byte as it was |
| Instructions.LdhImm8StoreThenLoad | software_emu/src/cpu_instrs_new.c:762-794 | LDH A, [n] naming the port LDH [n], A just wrote reads back A |
| Instructions.LdImm16StoreThenLoad | software_emu/src/cpu_instrs_new.c:771-802 | LD A, [nn] naming the address LD [nn], A just wrote reads back A |
| Instructions.InstrLdSpHl | software_emu/src/cpu_instrs_new.c:806-811 | SP := HL, 2 cycles |
| Instructions.InstrRlcR8 | software_emu/src/cpu_instrs_new.c:822-833 | operand rotated left; C complement of old bit 7, Z "operand nonzero", N and H clear; the other registers, SP, IME and every memory byte but the one at HL for [HL] kept; PC kept; 4 cycles on [HL], 2 on a register |
| Instructions.InstrRrcR8 | software_emu/src/cpu_instrs_new.c:835-846 | operand rotated right; C complement of old bit 0, Z "operand nonzero", N and H clear; the other registers, SP, IME and every memory byte but the one at HL for [HL] kept; PC kept; prefixed cycle cost |
| Instructions.InstrRlR8 | software_emu/src/cpu_instrs_new.c:848-859 | operand shifted left with old C in bit 0; C complement of old bit 7, Z "result nonzero"; the other registers, SP, IME and every memory byte but the one at HL for [HL] kept; PC kept |
| Instructions.InstrRrR8 | software_emu/src/cpu_instrs_new.c:861-872 | operand shifted right with old C in bit 7; C complement of old bit 0, Z "result nonzero"; the other registers, SP, IME and every memory byte but the one at HL for [HL] kept; PC kept |
| Instructions.RlcThenRrc | software_emu/src/cpu_instrs_new.c:822-846 | RRC undoes RLC on a register operand |
| Instructions.InstrSlaR8 | software_emu/src/cpu_instrs_new.c:874-897 | operand << 1; C complement of old bit 7; Z "result nonzero"; the other registers, SP, IME and every memory byte but the one at HL for [HL] kept; PC kept |
| Instructions.InstrSraR8 | software_emu/src/cpu_instrs_new.c:899-925 | operand >> 1 keeping bit 7; C complement of old bit 0; Z "result nonzero"; the other registers, SP, IME and every memory byte but the one at HL for [HL] kept; PC kept |
| Instructions.Swap8 | software_emu/src/cpu_instrs_new.c:933-934 | the two nibbles exchanged |
| Instructions.InstrSwapR8 | software_emu/src/cpu_instrs_new.c:927-947 | nibbles exchanged; on a register F is only Z = "operand nonzero"; on [HL] F untouched; the other registers, SP, IME and every memory byte but the one at HL for [HL] kept; PC kept |
| Instructions.SwapTwice | software_emu/src/cpu_instrs_new.c:927-947 | SWAP twice gives the operand back |
| Instructions.InstrSrlR8 | software_emu/src/cpu_instrs_new.c:949-972 | operand >> 1; C complement of old bit 0; Z "result nonzero"; the other registers, SP, IME and every memory byte but the one at HL for [HL] kept; PC kept |
| Instructions.SlaThenSrl | software_emu/src/cpu_instrs_new.c:874-972 | SRL after SLA on the same operand clears bit 7 and keeps the rest |
| Instructions.SrlThenSla | software_emu/src/cpu_instrs_new.c:874-972 | SLA after SRL on the same operand clears bit 0 and keeps the rest |
| Instructions.SraThenSla | software_emu/src/cpu_instrs_new.c:874-925 | SLA after SRA on the same operand clears bit 0 and keeps the rest |
| Instructions.BitTestResult | software_emu/src/cpu_instrs_new.c:974-999 | the value BIT tests is the operand itself, whatever the bit number |
| Instructions.InstrBitB3R8 | software_emu/src/cpu_instrs_new.c:974-999 | nothing but F changes; Z iff operand nonzero, N set, H clear, C and the low nibble of F kept; 3 cycles on [HL] else 2 |
| Instructions.InstrResB3R8 | software_emu/src/cpu_instrs_new.c:1001-1015 | bit b cleared, every other bit of the operand kept, F kept; the other registers, SP, IME and every memory byte but the one at HL for [HL] kept; PC kept |
| Instructions.InstrSetB3R8 | software_emu/src/cpu_instrs_new.c:1017-1032 | bit b set, every other bit of the operand kept, F kept; the other registers, SP, IME and every memory byte but the one at HL for [HL] kept; PC kept |
| Instructions.ResWrites | software_emu/src/cpu_instrs_new.c:1001-1015 | RES leaves the operand with bit b cleared |
| Instructions.SetWrites | software_emu/src/cpu_instrs_new.c:1017-1032 | SET leaves the operand with bit b set |
| Instructions.ResThenSet | software_emu/src/cpu_instrs_new.c:1001-1032 | SET b after RES b gives the operand with bit b set, so a set bit is restored |
| Instructions.SetThenRes | software_emu/src/cpu_instrs_new.c:1001-1032 | RES b after SET b gives the operand with bit b clear, so a clear bit is restored |
| Optable.Strip | software_emu/py_scripts/gen_optable.py:103 | no `_` remains and every other character keeps its count |
| Optable.StripWithoutSeparator | software_emu/py_scripts/gen_optable.py:103 | a filter without `_` is left as it is |
| Optable.GenerateExpansion | software_emu/py_scripts/gen_optable.py:90-100 | `generate_expansion` only adds to the set it is handed; which strings it adds is the next row |
| Optable.GenerateExpansionAdds | software_emu/py_scripts/gen_optable.py:90-100 | the recursion adds to the set exactly the prefix extended by every binary match of the rest of the filter |
| Optable.ExpandBitfilterMatches | software_emu/py_scripts/gen_optable.py:102-106 | w is in the expansion iff w is binary, as long as the stripped filter, and agrees with its every 0/1 |
| Optable.CompletionsAreMatches | software_emu/py_scripts/gen_optable.py:90-100 | the independent completion set holds exactly the matches |
| Optable.CompletionsCount | software_emu/py_scripts/gen_optable.py:90-100 | a filter has 2^(wildcards) completions |
| Optable.ExpandBitfilterCount | software_emu/py_scripts/gen_optable.py:102-106 | the expansion has 2^(wildcards) opcodes |
| Optable.ToBinary | software_emu/py_scripts/gen_optable.py:114 | the spelling has exactly n binary digits |
| Optable.BinaryRoundTrip | software_emu/py_scripts/gen_optable.py:114 | `int(w, 2)` is below 2^len and spelling it back gives w |
| Optable.ToBinaryRoundTrip | software_emu/py_scripts/gen_optable.py:114 | reading an n-digit spelling of k gives k |
| Optable.KeyMatches | software_emu/py_scripts/gen_optable.py:112-114 | k is a key a filter contributes iff k < 256 and its 8-bit spelling matches the filter |
| Optable.CreateOptableDomain | software_emu/py_scripts/gen_optable.py:108-116 | the table's keys are exactly the keys some filter contributes |
| Optable.CreateOptableValues | software_emu/py_scripts/gen_optable.py:108-116 | every value `create_optable` stores is the name of one of its filters; with the keys above and the last-wins row below this characterises the table |
| Optable.CreateOptableLastWins | software_emu/py_scripts/gen_optable.py:111-114 | a key maps to the name of the last filter that contributes it |
| Optable.TableEntries | software_emu/py_scripts/gen_optable.py:131-135 | 256 entries: the table's name where defined, `instr_unimplemented` elsewhere |
| Optable.LastMatchNameIs | software_emu/py_scripts/gen_optable.py:111-114 | the reference reading gives the name of a matching filter no later filter matches |
| Optable.NoMatchIsUnimplemented | software_emu/py_scripts/gen_optable.py:131-135 | with no matching filter the reference reading is `instr_unimplemented` |
| Optable.LastMatchNameSkips | software_emu/py_scripts/gen_optable.py:111-114 | trailing filters that do not match are irrelevant |
| Optable.LastMatchNameInSuffix | software_emu/py_scripts/gen_optable.py:111-114 | once a later block matches, the earlier filters are irrelevant |
| Optable.EntryIsLastMatch | software_emu/py_scripts/gen_optable.py:108-135 | entry k of the emitted table is the last filter matching k's 8-bit spelling, or `instr_unimplemented` |
| OpFilters.OptableFiltersShaped | software_emu/py_scripts/gen_optable.py:7-72 | every main-table filter is 9 characters with `_` at index 4 |
| OpFilters.FiltersHaveEightBits | software_emu/py_scripts/gen_optable.py:7-87 | every filter of both tables strips to 8 characters |
| OpFilters.HaltOverlapsLoad | software_emu/py_scripts/gen_optable.py:36-37 | both `01xx_xyyy` (LD r8, r8) and `0111_0110` (HALT) cover opcode 0x76 |
| OpFilters.HaltIsLastMatch | software_emu/py_scripts/gen_optable.py:35-72 | no filter after HALT's covers 0x76, so HALT is the last match |
| OpFilters.HaltWinsAt0x76 | software_emu/py_scripts/gen_optable.py:36-37 | the main table's entry 0x76 is `instr_halt` |
| OpFilters.LdImmAt0x06 | software_emu/py_scripts/gen_optable.py:20-72 | the main table's entry 0x06 is `instr_ld_r8_imm8`: no later filter covers it |
| OpFilters.CbPrefixIsLastMatch | software_emu/py_scripts/gen_optable.py:42-72 | the last filter covering 0xCB is the prefix filter |
| OpFilters.CbPrefixAt0xCB | software_emu/py_scripts/gen_optable.py:57 | the main table's entry 0xCB is `instr_cb_prefix` |
| OpFilters.PrefixIndexMatches | software_emu/py_scripts/gen_optable.py:74-87 | every 8-bit opcode matches the prefix filter PrefixIndex picks |
| OpFilters.PrefixMatchIsIndex | software_emu/py_scripts/gen_optable.py:74-87 | the prefix filters are disjoint: any match is the one PrefixIndex picks |
| OpFilters.PrefixReading | software_emu/py_scripts/gen_optable.py:74-87 | the prefix table's reference reading of any opcode is its unique filter's name |
| OpFilters.PrefixTableIsTotal | software_emu/py_scripts/gen_optable.py:121-135 | every CB-prefix entry names a handler, none is `instr_unimplemented` |
| CpuCore.Init | emu_core/src/core/cpu/cpu.c:23-28 | PC and cycles zero, every other field kept |
| CpuCore.Fetch | emu_core/src/core/cpu/cpu.c:17-21 | PC is incremented first (mod 2^16), then the opcode is read at the new PC; nothing else changes |
| CpuCore.FirstFetchReadsOne | emu_core/src/core/cpu/cpu.c:17-28 | after reset the first opcode comes from address 1 |
| CpuCore.Dispatch | emu_core/src/core/cpu/cpu.c:59-62 | a name runs a handler body iff it has one in this model, and then exactly `Run` of that handler, the as-written body; otherwise the machine is handed back unchanged with the name |
| CpuCore.Run | emu_core/src/core/cpu/cpu.c:59-62 | every handler with a body, as written, leaves IME as it was |
| CpuCore.RunCorrected | emu_core/src/core/cpu/cpu.c:59-62 | every handler with a body, CALL and PUSH corrected, leaves IME as it was |
| CpuCore.LdImmHasBody | emu_core/src/core/cpu/cpu.c:59-62 | `HandlerFor`: `instr_ld_r8_imm8` names the modelled immediate load |
| CpuCore.HaltHasNoBody | emu_core/src/core/cpu/cpu.c:59-62 | `HandlerFor`: `instr_halt` names no modelled body |
| CpuCore.CbPrefixHasNoBody | emu_core/src/core/cpu/cpu.c:59-62 | `HandlerFor`: `instr_cb_prefix` names no modelled body |
| CpuCore.UnimplementedHasNoBody | emu_core/src/core/cpu/cpu.c:59-62 | `HandlerFor`: the table's fallback `instr_unimplemented` names no modelled body |
| CpuCore.CorrectionOnlyMovesStackBytes | software_emu/src/cpu_instrs_new.c:671-750 | the corrected handlers agree with the written ones except CALL cc, CALL and PUSH, and there in every register |
| CpuCore.TickWithFlagOnlyClearsIt | emu_core/src/core/cpu/cpu.c:35-55 | with IME set the tick clears it and changes nothing else |
| CpuCore.TickFetchesThenDispatches | emu_core/src/core/cpu/cpu.c:58-62 | with IME clear the tick dispatches the table entry of the byte after PC, with PC advanced |
| CpuCore.Tick | emu_core/src/core/cpu/cpu.c:30-63 | `cpu_tick`: with IME clear it runs a body iff the table entry of the byte after PC has one; after any tick that runs a body IME is clear; a tick that reaches a bodiless handler has only advanced PC |
| CpuCore.DecodeIsTotal | emu_core/src/core/cpu/cpu.c:58-59 | every opcode has an entry, the name of its last matching filter |
| CpuCore.TickOnHalt | emu_core/src/core/cpu/cpu.c:58-62 | fetching 0x76 reaches `instr_halt`, which has no body: only PC moves |
| CpuCore.TickOnPrefix | emu_core/src/core/cpu/cpu.c:58-62 | fetching 0xCB reaches `instr_cb_prefix`, which has no body, so the prefix table is never consulted |
| CpuCore.TickLdImmReadsOpcode | emu_core/src/core/cpu/cpu.c:17-21 | fetch leaves PC on the opcode and `read_imm8` reads at PC, so a tick on 0x06 (LD B, imm8) loads 0x06 itself into B and leaves PC one byte short of the end of the instruction |
| Interrupts.Ordinal | emu_core/include/core/interrupt.h:11-20 | enum values lie below INTERRUPT_TYPE_COUNT |
| Interrupts.MasksAreDistinctBits | emu_core/include/core/interrupt.h:6-9 | each mask is a single bit in the low nibble, and distinct sources have disjoint masks |
| Interrupts.SetFlag | emu_core/src/core/interrupt.c:10-33 | raises exactly the source's IF bit, IE kept; STAT, UNKNOWN, NONE change nothing |
| Interrupts.ClearFlag | emu_core/src/core/interrupt.c:35-58 | lowers exactly the source's IF bit, IE kept; the other types change nothing |
| Interrupts.SetThenClear | emu_core/src/core/interrupt.c:10-58 | clearing after setting equals clearing |
| Interrupts.ClearThenSet | emu_core/src/core/interrupt.c:10-58 | setting after clearing equals setting |
| Interrupts.SetIdempotent | emu_core/src/core/interrupt.c:10-33 | setting twice equals setting once |
| Interrupts.ClearIdempotent | emu_core/src/core/interrupt.c:35-58 | clearing twice equals clearing once |
| Interrupts.GetTop | emu_core/src/core/interrupt.c:65-76 | the result is NONE or a source with a mask; NONE whenever ime is 0 |
| Interrupts.GetTopIsLowestPending | emu_core/src/core/interrupt.c:60-76 | the result is the enabled and pending source with the lowest bit, NONE iff there is none |
| Interrupts.StatNeverSelected | emu_core/src/core/interrupt.c:65-76 | STAT and UNKNOWN are never returned |
| Interrupts.NothingEnabledNothingSelected | emu_core/src/core/interrupt.c:67 | with IE zero nothing is selected |
| Interrupts.GetTopExample | emu_core/src/core/interrupt.c:65-76 | VBlank beats Serial; Serial wins when VBlank is disabled; ime 0 gives NONE |
| Interrupts.GetVectorAddr | emu_core/src/core/interrupt.c:82-85 | the vector is nonzero exactly for the five real sources, and is then a restart address from 0x40 to 0x60 on an 8-byte boundary |
| Interrupts.VectorLayout | emu_core/include/core/interrupt.h:22-30 | the five sources have vectors 0x40 + 8·n, UNKNOWN and NONE vector 0 |
| Interrupts.VectorsDistinct | emu_core/include/core/interrupt.h:22-30 | the five real vectors are distinct and nonzero |
| MemoryMap.RegionsContiguous | software_emu/include/machdep/memorymap.h:10-47 | twelve regions, each starting one past the previous end, from 0x0000 to 0xFFFF |
| MemoryMap.ContiguousCovers | software_emu/include/machdep/memorymap.h:10-47 | contiguous regions cover every address between the first base and the last end |
| MemoryMap.ContiguousDisjoint | software_emu/include/machdep/memorymap.h:10-47 | contiguous regions never overlap |
| MemoryMap.BasesIncrease | software_emu/include/machdep/memorymap.h:10-47 | a later region starts after an earlier one ends |
| MemoryMap.RegionsPartition | software_emu/include/machdep/memorymap.h:10-47 | every 16-bit address lies in exactly one region |
| MemoryMap.RegionSizes | software_emu/include/machdep/memorymap.h:23-47 | echo RAM is 0x1E00 bytes, each WRAM bank 0x1000, HRAM ends at 0xFFFE, IE is the single byte 0xFFFF |
| EmuMemory.InitialBuffers | emu_core/src/platform/pc/emu_memory.c:39-57 | each region's buffer holds end - start + 1 bytes |
| EmuMemory.MemoryRead | emu_core/src/platform/pc/emu_memory.c:13-19 | succeeds iff the offset passes the `<= end_addr` assert and lies in the buffer, and then returns that byte |
| EmuMemory.MemoryWrite | emu_core/src/platform/pc/emu_memory.c:21-27 | same success condition; then exactly that byte of that buffer changes |
| EmuMemory.WriteKeepsSizes | emu_core/src/platform/pc/emu_memory.c:21-27 | a write keeps every buffer's size |
| EmuMemory.OwnedRegionServesItsRange | emu_core/src/platform/pc/emu_memory.c:13-27 | a region reads and writes every address of its own range |
| EmuMemory.WriteThenRead | emu_core/src/platform/pc/emu_memory.c:13-27 | reading back a written address gives the written byte |
| EmuMemory.WriteThenReadElsewhere | emu_core/src/platform/pc/emu_memory.c:13-27 | a write is invisible to reads of other buffers or offsets |
| EmuMemory.EchoAliasesWram0 | emu_core/src/platform/pc/emu_memory.c:59-72 | echo address 0xE000 + k is WRAM0's 0xC000 + k, for k < 0x1000 |
| EmuMemory.EchoUpperPartOverruns | emu_core/src/platform/pc/emu_memory.c:59-72 | echo offsets 0x1000..0x1DFF pass the assert yet overrun WRAM0's buffer |
| Bus.FindFrom | emu_core/src/core/bus.c:10-22 | a result is a covering connection with no covering one before it from `from` on; none means none covers |
| Bus.FindPeripheral | emu_core/src/core/bus.c:10-22 | returns the first connection whose inclusive range holds the address; none iff no connection does |
| Bus.DisjointFindsTheCover | emu_core/src/core/bus.c:10-22 | with disjoint connections the covering one is found |
| Bus.EarlierConnectionWins | emu_core/src/core/bus.c:12-17 | of two overlapping connections the earlier registered wins |
| Bus.BusRead | emu_core/src/core/bus.c:30-41 | unmapped (-1) iff no connection covers the address; otherwise the first cover's slave read |
| Bus.BusWrite | emu_core/src/core/bus.c:48-57 | unmapped (-1) iff no connection covers the address; otherwise the first cover's slave write |
| Bus.ConnectionOf | emu_core/src/platform/pc/emu_memory.c:46-52 | a region's connection has the region's range and its context as slave |
| Bus.RamConnectionsDisjoint | emu_core/src/platform/pc/emu_memory.c:54-72 | the five RAM connections have pairwise disjoint ranges |
| Bus.EchoWriteVisibleInWram0 | emu_core/src/platform/pc/emu_memory.c:59-72 | a bus write to 0xE000 + k is read back at 0xC000 + k |
| Cartridge.ReadRomMeta | software_emu/src/cart.c:4-26 | fields copied from their header offsets with their sizes; rom/ram size and global checksum left as they were |
| Cartridge.OnlyHeaderIsRead | software_emu/src/cart.c:4-26 | the result depends only on the ROM's first 0x14E bytes |
| Cartridge.TitleOverlapsManufacturerAndCgb | software_emu/src/cart.c:7-9 | the 16-byte title copy includes the manufacturer code and the CGB flag |
| Cartridge.PlaceThenRead | software_emu/src/cart.c:4-26 | reading a header that was placed gives back the placed fields |
| PQueue.Create | emu_core/include/utils/static_pqueue.h:97-108 | an empty, valid queue with the given bound and comparator |
| PQueue.Capacity | emu_core/include/utils/static_pqueue.h:20-25 | `is_full` false on a valid queue means room for one more element; `is_empty` and `is_full` both hold only at capacity 0 |
| PQueue.Swap | emu_core/include/utils/static_pqueue.h:40-42 | two slots exchanged, the rest kept, same multiset |
| PQueue.SiftUpAsWritten | emu_core/include/utils/static_pqueue.h:34-45 | the as-written sift-up keeps length and contents |
| PQueue.SiftUp | emu_core/include/utils/static_pqueue.h:34-45 | the corrected sift-up keeps length and contents |
| PQueue.PushAsWritten | emu_core/include/utils/static_pqueue.h:27-46 | as written: fails with FULL_CONTAINER iff full, else adds exactly e |
| PQueue.Push | emu_core/include/utils/static_pqueue.h:27-46 | corrected: fails with FULL_CONTAINER iff full, else adds exactly e |
| PQueue.Front | emu_core/include/utils/static_pqueue.h:48-53 | fails with EMPTY_CONTAINER iff empty, else the root |
| PQueue.PickPriority | emu_core/include/utils/static_pqueue.h:55-71 | the slot or one of its in-range children |
| PQueue.PickPriorityIsTop | emu_core/include/utils/static_pqueue.h:55-71 | the picked slot ranks at least as high as the slot and its in-range children |
| PQueue.SiftDown | emu_core/include/utils/static_pqueue.h:84-93 | sift-down keeps length and contents |
| PQueue.Pop | emu_core/include/utils/static_pqueue.h:73-95 | fails with EMPTY_CONTAINER iff empty, else returns the root and removes exactly it |
| PQueue.IsHeapByRank | emu_core/include/utils/static_pqueue.h:15-16 | the comparator's heap order is "no parent ranks below its child" |
| PQueue.ChildSlots | emu_core/include/utils/static_pqueue.h:56-57 | the children of a slot are exactly slots 2i+1 and 2i+2 |
| PQueue.SiftDownStep | emu_core/include/utils/static_pqueue.h:87-92 | one swap with the top child moves the sift-down invariant down |
| PQueue.SiftDownDone | emu_core/include/utils/static_pqueue.h:87 | when no child outranks the slot the heap is whole |
| PQueue.SiftDownRestoresHeap | emu_core/include/utils/static_pqueue.h:84-93 | the sift-down turns an almost-heap into a heap |
| PQueue.PopKeepsHeap | emu_core/include/utils/static_pqueue.h:73-95 | pop keeps the heap order |
| PQueue.SiftUpRestoresHeap | emu_core/include/utils/static_pqueue.h:34-45 | the corrected sift-up turns an almost-heap into a heap |
| PQueue.PushKeepsHeap | emu_core/include/utils/static_pqueue.h:27-46 | the corrected push keeps the heap order |
| PQueue.FrontIsTop | emu_core/include/utils/static_pqueue.h:48-53 | in a heap the root ranks at least as high as every element |
| PQueue.PopReturnsTop | emu_core/include/utils/static_pqueue.h:73-95 | pop returns an element ranked at least as high as every element |
| PQueue.PushAsWrittenCounterexample | emu_core/include/utils/static_pqueue.h:37-38 | as written, pushing 5 then 2 under `e1 > e2` leaves [5, 2]: front 5, heap order broken |
| PQueue.PushCorrectedExample | emu_core/include/utils/static_pqueue.h:37-38 | corrected, the same pushes give [2, 5] |
| Scheduler.EventCompRanked | emu_core/src/core/schedule.c:9-12 | `dev_event_comp` ranks earlier timestamps higher, so the queue is a min-heap |
| Scheduler.PrepareSchedule | emu_core/src/core/schedule.c:45-60 | full: FULL_CONTAINER; below LOOPBACK the queue and event unchanged; above it on an empty queue EMPTY_CONTAINER; otherwise every timestamp shifted by the front one; a heap stays a heap |
| Scheduler.Rebase | emu_core/src/core/schedule.c:53-60 | every timestamp reduced by the minimum (mod 2^64), pairwise differences kept, order kept when the minimum is a lower bound |
| Scheduler.ScheduleNextEvent | emu_core/src/core/schedule.c:43-63 | with the corrected push: full gives FULL_CONTAINER; below LOOPBACK a plain push; above it on an empty queue EMPTY_CONTAINER; otherwise rebase then push; the heap order is kept |
| Scheduler.ScheduleNextEventAsWritten | emu_core/src/core/schedule.c:43-63 | as written: the same failures and rebase, then the as-written push of the queue header |
| Scheduler.ScheduleAsWrittenRunsLaterFirst | emu_core/include/utils/static_pqueue.h:37-38 | as written, an event at time 2 pushed behind one at time 5 leaves 5 at the front, breaking the heap order |
| Scheduler.RebaseOnFrontKeepsHeap | emu_core/src/core/schedule.c:53-60 | rebasing by the root timestamp keeps the heap order |
| Scheduler.ExecuteNextEvent | emu_core/src/core/schedule.c:33-37 | fails with EMPTY_CONTAINER iff empty, else pops the root |
| Scheduler.ExecutesEarliest | emu_core/src/core/schedule.c:33-37 | the executed event has the earliest timestamp in the queue |

## Left out

- EmuMemory.InitialBuffers: `MEM_REGION_SIZE`, which sizes every buffer at `emu_memory.c` line 40, is defined in no file of this model. The model reads it as the inclusive `end - start + 1`. OwnedRegionServesItsRange at `addr == end` and EchoAliasesWram0 at offset 0xFFF rest on that reading; an exclusive `end - start` would make those last bytes overrun too.
- CpuCore.HandlerFor: the name-to-body map is stated through the names the model relies on (LdImmHasBody, HaltHasNoBody, CbPrefixHasNoBody, UnimplementedHasNoBody), not as a round trip over all 45 names, because comparing that many string literals is beyond the proof budget.
- The instruction handlers that are only declared are named by the table but have no body to model. They surface as `Uninterpreted(name, machine)` outcomes:
  - `ld_a_r16mem`, `add_hl_r16`, `daa`, `stop`, `halt`;
  - `reti`, `rst_tgt3`, `cb_prefix`;
  - `add_sp_imm8`, `ld_hl_sp_imm8`, `di`, `ei`.
- `ld_r16mem_a` has an empty body and surfaces the same way, with the machine unchanged.
- `instr_inc_r8` and `instr_dec_r8` are named by the filter table but not defined in any source file. `instr_unimplemented` is not part of this model either. All three surface as `Uninterpreted`.
- The cycle counter is an unbounded `nat`; its 64-bit wrap-around is not modelled.
- The handlers read and write a total 64 KiB memory rather than the bus. They call a one-argument `bus_read` and a two-argument `bus_write` that `bus.c` does not define, and the peripherals behind the bus are not part of this model.
- The interrupt-service steps of `cpu_tick` are comments in the source. The model clears IME and nothing more.
- The generator's template reading and file writing are I/O and are left out, as is the text layout of the emitted header. The model stops at the 256 names per table.
- CpuCore.Dispatch: states which names run a modelled body, not what that body does. Each handler's own contract states its effect. Dispatch and Tick run CALL cc, CALL and PUSH as written, which is what `cpu_tick` reaches. The corrected forms are reached only through CpuCore.RunCorrected.
- Scheduler.ScheduleNextEvent: uses the corrected push, not the as-written push that `schedule_next_event` calls at line 62. The as-written method is Scheduler.ScheduleNextEventAsWritten. Its contract states no heap order, because the source's queue does not keep one. The heap lemmas, ExecutesEarliest among them, hold only for queues built with the corrected push.
- CpuCore.DecodeIsTotal: names the entry as the last matching filter for every opcode, but does not list which opcodes are `instr_unimplemented`. Only 0x76 and 0xCB are evaluated to concrete names, in TickOnHalt and TickOnPrefix.
- The mapping from a handler name string back to its handler constructor is not proved exhaustive.
- `msconn_master_read`/`msconn_master_write` are not part of this model. A connection's slave is a RAM region context, and the bus result records which connection served the access.
- The order in which connections are registered is a parameter; no code shown registers them.
- `MAX_EVENT_QUEUE_LEN` is a parameter of the queue, not a constant.
- An event's `exec_event` callback is an opaque value; running it is outside the model.
- `emu_die` becomes a `Fail(code)` result; the process exit itself is not modelled.
- EmuMemory.EchoAliasesWram0: `emu_memory.c` declares its banks with `WRAM0_BASE/END` and `WRAM1_BASE/END`, but the memory-map header defines only `WRAM1` (0xC000-0xCFFF) and `WRAM2` (0xD000-0xDFFF). The model assumes wram0 is 0xC000-0xCFFF and wram1 is 0xD000-0xDFFF. The echo alias and EchoUpperPartOverruns rest on that assumption; the overrun holds for any 0x1000-byte bank, since echo RAM spans 0x1E00 bytes.
- The `memory_buffer(name)` macro pastes `name_##buf` without expanding `name`. As written, all regions would share one buffer name. The model gives each region its own buffer, as the region declarations evidently intend.
- Cartridge.ReadRomMeta: requires a ROM of at least 0x14E bytes. `read_rom_meta` never looks at `rom_size`, and on a shorter image it reads past the buffer, which C leaves undefined.
- The test replay and the ROM-loading test program are left out.

## Findings

| source | as written | input that shows it | evidently intended | confidence | as-written member | corrected member |
|---|---|---|---|---|---|---|
| emu_core/include/utils/static_pqueue.h:37-38 | sift-up swaps while `comparator(child, parent)` holds, the opposite of the comment above it and of pop's sift-down | push 5 then 2 with the scheduler's comparator `e1 > e2`: the queue stays [5, 2] and the front is 5 | swap while `comparator(parent, child)` holds, so the front is the top-ranked element | not executed | PQueue.PushAsWrittenCounterexample | PQueue.PushKeepsHeap |
| software_emu/src/cpu_instrs_new.c:747-748 | PUSH writes with post-decrement (`sp--`) at SP and SP - 1, while POP reads at SP and SP + 1 | BC = 0x1234 pushed over a zero byte pops back as 0x3400 | pre-decrement (`--sp`), so POP reads back the pushed pair | not executed | Instructions.PushPopLosesValue | Instructions.PushThenPop |
| software_emu/src/cpu_instrs_new.c:692-693 | CALL (and CALL cc at lines 681-682) writes the return address with post-decrement, while RET reads at SP and SP + 1 | CALL from PC 0x0100 over a zero byte, then RET, resumes at 0x0200 | pre-decrement, so RET resumes at 0x0102 | not executed | Instructions.CallRetLosesAddress | Instructions.CallThenRet |

=== FILE: alu.dfy ===
/** The flags byte and the 8-bit arithmetic-logic unit. The unit works on a
    16-bit accumulator and a 16-bit operand and keeps the low byte, as the
    source's `alu_op8` does, so its carries, borrows and the SBC quirk come out
    of 16-bit wrap-around rather than being written down case by case. */
module Alu {
  import opened CpuState

  // ---------------------------------------------------------------------------
  // Flags byte

  const MaskZ: bv8 := 0x80
  const MaskN: bv8 := 0x40
  const MaskH: bv8 := 0x20
  const MaskC: bv8 := 0x10

  predicate ZSet(f: bv8) { f & MaskZ != 0 }
  predicate NSet(f: bv8) { f & MaskN != 0 }
  predicate HSet(f: bv8) { f & MaskH != 0 }
  predicate CSet(f: bv8) { f & MaskC != 0 }

  /** CPU_STATUS_C_TEST: the carry flag as 0 or 1. */
  function CarryBit(f: bv8): (r: bv8)
    ensures r == 0 || r == 1
    ensures r == 1 <==> CSet(f)
  {
    (f & MaskC) >> 4
  }

  /** CPU_STATUS_SET as written: a true `value` CLEARS the masked bits and a false
      one SETS them. Bits outside the mask are kept. */
  function StatusSet(reg: bv8, mask: bv8, value: bool): (r: bv8)
    ensures r & !mask == reg & !mask
    ensures value ==> r & mask == 0
    ensures !value ==> r & mask == mask
  {
    if value then reg & !mask else reg | mask
  }

  /** A flags byte with the four flags given and the low nibble clear. */
  function FlagBits(z: bool, n: bool, h: bool, c: bool): (f: bv8)
    ensures ZSet(f) == z && NSet(f) == n && HSet(f) == h && CSet(f) == c
    ensures f & 0x0F == 0
  {
    (if z then MaskZ else 0) | (if n then MaskN else 0) | (if h then MaskH else 0) | (if c then MaskC else 0)
  }

  /** A flags byte is determined by its four flags once its low nibble is clear. */
  lemma FlagBitsOfByte(f: bv8)
    requires f & 0x0F == 0
    ensures FlagBits(ZSet(f), NSet(f), HSet(f), CSet(f)) == f
  {
  }

  // ---------------------------------------------------------------------------
  // Branch conditions

  const CondNZ: bv8 := 0
  const CondZ: bv8 := 1
  const CondNC: bv8 := 2
  const CondC: bv8 := 3

  /** is_branch_taken: bit 1 of the code picks Z or C, bit 0 the required value;
      codes 4 to 7 (COND_ALWAYS among them) are always taken. */
  function IsBranchTaken(f: bv8, condition: bv8): (r: bool)
    ensures condition & 7 >= 4 ==> r
    ensures condition & 7 < 4 ==>
      (r <==> ((f & (if condition & 2 == 0 then MaskZ else MaskC)) != 0) == (condition & 1 == 1))
  {
    var cond := condition & 7;
    if cond == CondC then CSet(f)
    else if cond == CondNC then !CSet(f)
    else if cond == CondZ then ZSet(f)
    else if cond == CondNZ then !ZSet(f)
    else true
  }

  /** A condition and its partner with bit 0 flipped are never both taken and never
      both skipped. */
  lemma ConditionsComplement(f: bv8, cond: bv8)
    requires cond < 4
    ensures IsBranchTaken(f, cond) != IsBranchTaken(f, cond ^ 1)
  {
  }

  // ---------------------------------------------------------------------------
  // 8-bit ALU

  const AluAdd: bv8 := 0
  const AluAddC: bv8 := 1
  const AluSub: bv8 := 2
  const AluSubC: bv8 := 3
  const AluOr: bv8 := 4
  const AluAnd: bv8 := 5
  const AluXor: bv8 := 6
  const AluCp: bv8 := 7

  /** New accumulator and new flags of one ALU operation. */
  datatype AluResult = AluResult(acc: bv8, zero: bool, subtract: bool, halfCarry: bool, carry: bool)
  {
    /** The flags byte `alu_op8` stores: built from zero, so the low nibble is clear. */
    function Flags(): (f: bv8)
      ensures ZSet(f) == zero && NSet(f) == subtract && HSet(f) == halfCarry && CSet(f) == carry
      ensures f & 0x0F == 0
    {
      FlagBits(zero, subtract, halfCarry, carry)
    }
  }

  function Bit16(b: bool): bv16 { if b then 1 else 0 }
  function Bit8(b: bool): bv8 { if b then 1 else 0 }

  /** ADD (no carry in) and ADC (carry in), computed as the source does: the
      carry is added to the 16-bit operand, then C and H are tested on the
      16-bit accumulator and operand, and the low byte is kept. */
  function AluAddWith(a: bv8, b: bv8, carryIn: bool): AluResult
  {
    var acc := a as bv16;
    var w := b as bv16 + Bit16(carryIn);
    var sum := acc + w;
    AluResult(RegLow(sum), sum & 0xFF == 0, false, (acc & 0x0F) + (w & 0x0F) > 0x0F, sum > 0xFF)
  }

  /** ADD and ADC leave the 8-bit sum of A, the operand and the carry in A, and
      set Z exactly when that sum is zero; N is always clear. */
  lemma AluAddSum(a: bv8, b: bv8, carryIn: bool)
    ensures AluAddWith(a, b, carryIn).acc == a + b + Bit8(carryIn)
    ensures AluAddWith(a, b, carryIn).zero <==> a + b + Bit8(carryIn) == 0
    ensures !AluAddWith(a, b, carryIn).subtract
  {
    if carryIn {
    } else {
    }
  }

  /** C after ADD and ADC: the 8-bit sum wrapped past A (with a carry in, reached
      or wrapped past it). */
  lemma AluAddCarry(a: bv8, b: bv8, carryIn: bool)
    ensures AluAddWith(a, b, carryIn).carry <==> if carryIn then a + b + 1 <= a else a + b < a
  {
    if carryIn {
    } else {
    }
  }

  /** H after ADD: a carry out of the low nibble. */
  lemma AluAddHalfCarry(a: bv8, b: bv8)
    ensures AluAddWith(a, b, false).halfCarry <==> (a & 0xF) + (b & 0xF) > 0xF
  {
  }

  /** H after ADC with the carry set: the carry is added to the operand before the
      nibble test, so an operand whose low nibble is 0xF never half-carries. */
  lemma AdcHalfCarry(a: bv8, b: bv8)
    ensures AluAddWith(a, b, true).halfCarry <==> b & 0xF != 0xF && (a & 0xF) + (b & 0xF) + 1 > 0xF
  {
  }

  /** SUB and CP (no borrow in) and SBC (borrow in), computed as the source does:
      the borrow is subtracted from the 16-bit operand, which wraps to 0xFFFF for
      operand 0, then C and H are tested and the low byte of the difference is
      kept unless the operation is CP. */
  function AluSubWith(a: bv8, b: bv8, borrowIn: bool, keepA: bool): AluResult
  {
    var acc := a as bv16;
    var w := b as bv16 - Bit16(borrowIn);
    var diff := acc - w;
    AluResult(if keepA then a else RegLow(diff), diff & 0xFF == 0, true, (acc & 0x0F) < (w & 0x0F), acc < w)
  }

  /** SUB and SBC leave the 8-bit difference in A -- SBC adding its borrow back
      rather than taking it away -- and CP leaves A unchanged; Z tells whether
      that difference is zero in all three, and N is always set. */
  lemma AluSubDifference(a: bv8, b: bv8, borrowIn: bool, keepA: bool)
    ensures AluSubWith(a, b, borrowIn, keepA).acc == if keepA then a else a - b + Bit8(borrowIn)
    ensures AluSubWith(a, b, borrowIn, keepA).zero <==> a - b + Bit8(borrowIn) == 0
    ensures AluSubWith(a, b, borrowIn, keepA).subtract
  {
    if borrowIn {
    } else {
    }
  }

  /** C after SUB and CP: A is below the operand. After SBC with the carry set:
      the operand is 0 (the 16-bit operand wraps to 0xFFFF), or A is below the
      operand minus one. */
  lemma AluSubCarry(a: bv8, b: bv8, borrowIn: bool, keepA: bool)
    ensures AluSubWith(a, b, borrowIn, keepA).carry <==> if borrowIn then b == 0 || a < b - 1 else a < b
  {
    if borrowIn {
    } else {
    }
  }

  /** H after SUB and CP: a borrow into the low nibble. */
  lemma AluSubHalfCarry(a: bv8, b: bv8, keepA: bool)
    ensures AluSubWith(a, b, false, keepA).halfCarry <==> a & 0xF < b & 0xF
  {
  }

  /** H after SBC with the carry set: the nibble test is against the operand minus
      one, which wraps to 0xF when the operand's low nibble is 0. */
  lemma SbcHalfCarry(a: bv8, b: bv8, keepA: bool)
    ensures AluSubWith(a, b, true, keepA).halfCarry <==> if b & 0xF == 0 then a & 0xF < 0xF else a & 0xF < (b & 0xF) - 1
  {
  }

  /** AND, OR, XOR and the operation codes above 7: the 16-bit result of the
      bitwise operation, H set for AND only, N and C clear. */
  function AluBitwise(value: bv16, isAnd: bool): AluResult
  {
    AluResult(RegLow(value), value & 0xFF == 0, false, isAnd, false)
  }

  /** alu_op8 on accumulator `a`, previous flags `f` and operand `b`. Operation
      code 4 is OR and 5 is AND, as the source numbers them; codes above 7 leave
      A as it is and set only Z. */
  function Alu8(op: bv8, a: bv8, f: bv8, b: bv8): (r: AluResult)
    ensures op >= AluCp ==> r.acc == a
    ensures r.carry ==> op <= AluSubC || op == AluCp
  {
    var acc := a as bv16;
    var wide := b as bv16;
    var carryIn := CarryBit(f) == 1;
    if op == AluAdd || op == AluAddC then AluAddWith(a, b, op == AluAddC && carryIn)
    else if op == AluSub || op == AluSubC || op == AluCp then AluSubWith(a, b, op == AluSubC && carryIn, op == AluCp)
    else if op == AluAnd then AluBitwise(acc & wide, true)
    else if op == AluOr then AluBitwise(acc | wide, false)
    else if op == AluXor then AluBitwise(acc ^ wide, false)
    else AluBitwise(acc, false)
  }

  /** The arithmetic codes select ADD, ADC, SUB, SBC and CP, the latter two
      taking the carry flag of `f` as borrow and keeping A respectively. */
  lemma Alu8Arithmetic(op: bv8, a: bv8, f: bv8, b: bv8)
    ensures op == AluAdd ==> Alu8(op, a, f, b) == AluAddWith(a, b, false)
    ensures op == AluAddC ==> Alu8(op, a, f, b) == AluAddWith(a, b, CSet(f))
    ensures op == AluSub ==> Alu8(op, a, f, b) == AluSubWith(a, b, false, false)
    ensures op == AluSubC ==> Alu8(op, a, f, b) == AluSubWith(a, b, CSet(f), false)
    ensures op == AluCp ==> Alu8(op, a, f, b) == AluSubWith(a, b, false, true)
  {
  }

  /** OR (code 4), AND (code 5) and XOR (code 6) combine A with the operand, set Z
      from the result and H for AND only. */
  lemma Alu8Logic(op: bv8, a: bv8, f: bv8, b: bv8)
    ensures op == AluOr ==> Alu8(op, a, f, b) == AluResult(a | b, a | b == 0, false, false, false)
    ensures op == AluAnd ==> Alu8(op, a, f, b) == AluResult(a & b, a & b == 0, false, true, false)
    ensures op == AluXor ==> Alu8(op, a, f, b) == AluResult(a ^ b, a ^ b == 0, false, false, false)
  {
    if op == AluOr {
    } else if op == AluAnd {
    } else {
    }
  }

  /** Operation codes above 7 leave A as it is and set only Z. */
  lemma Alu8Unknown(op: bv8, a: bv8, f: bv8, b: bv8)
    requires op > AluCp
    ensures Alu8(op, a, f, b) == AluResult(a, a == 0, false, false, false)
  {
  }

  /** CP leaves A alone and sets the flags SUB would set. */
  lemma CpIsSubWithoutWriteBack(a: bv8, f: bv8, b: bv8)
    ensures Alu8(AluCp, a, f, b).acc == a
    ensures Alu8(AluCp, a, f, b).Flags() == Alu8(AluSub, a, f, b).Flags()
    ensures Alu8(AluCp, a, f, b).zero <==> a == b
  {
    Alu8Arithmetic(AluCp, a, f, b);
    Alu8Arithmetic(AluSub, a, f, b);
    AluSubDifference(a, b, false, true);
  }

  /** Worked additions: 0x0F + 0x01 gives 0x10 with only H set; 0xFF + 0x01 gives
      0x00 with Z, H and C set. */
  lemma AddExamples(f: bv8)
    ensures Alu8(AluAdd, 0x0F, f, 0x01).acc == 0x10
    ensures Alu8(AluAdd, 0x0F, f, 0x01).Flags() == MaskH
    ensures Alu8(AluAdd, 0xFF, f, 0x01).acc == 0x00
    ensures Alu8(AluAdd, 0xFF, f, 0x01).Flags() == MaskZ | MaskH | MaskC
  {
  }

  /** With the carry set, SBC as written never yields the borrowing difference
      a - b - 1: it yields a - b + 1. */
  lemma SbcAddsTheBorrow(a: bv8, f: bv8, b: bv8)
    requires CSet(f)
    ensures Alu8(AluSubC, a, f, b).acc == a - b + 1
    ensures Alu8(AluSubC, a, f, b).acc != a - b - 1
  {
    Alu8Arithmetic(AluSubC, a, f, b);
    AluSubDifference(a, b, true, false);
  }
}

=== FILE: bus.dfy ===
/** The system bus: a list of master/slave connections, each serving an
    inclusive address range, searched in order for the first one that covers
    an address. The slave behind every connection shown is a RAM region. */
module Bus {
  import opened Errors
  import opened EmuMemory

  /** `master_slave_conn_t`: its read/write function pointers and context are
      the region context they are called with. */
  datatype Connection = Connection(start: Addr, end: Addr, slave: MemCtx)
  {
    predicate Covers(addr: Addr) { start <= addr <= end }
  }

  /** The first connection at index `from` or later that covers `addr`, as the
      loop in `find_peripheral` scans them. */
  function FindFrom(conns: seq<Connection>, addr: Addr, from: nat): (r: Option<nat>)
    requires from <= |conns|
    ensures r.Some? ==>
      && from <= r.value < |conns| && conns[r.value].Covers(addr)
      && forall j :: from <= j < r.value ==> !conns[j].Covers(addr)
    ensures r.None? ==> forall j :: from <= j < |conns| ==> !conns[j].Covers(addr)
    decreases |conns| - from
  {
    if from == |conns| then None
    else if conns[from].Covers(addr) then Some(from)
    else FindFrom(conns, addr, from + 1)
  }

  /** `find_peripheral`: the lowest-index connection covering the address, or
      none (NULL). */
  function FindPeripheral(conns: seq<Connection>, addr: Addr): (r: Option<nat>)
    ensures r.Some? ==>
      && r.value < |conns| && conns[r.value].Covers(addr)
      && forall j :: 0 <= j < r.value ==> !conns[j].Covers(addr)
    ensures r.None? <==> forall j :: 0 <= j < |conns| ==> !conns[j].Covers(addr)
  {
    FindFrom(conns, addr, 0)
  }

  /** With pairwise disjoint ranges the match is the one connection covering
      the address, whatever its position. */
  lemma DisjointFindsTheCover(conns: seq<Connection>, addr: Addr, i: nat)
    requires forall j, k :: 0 <= j < k < |conns| ==>
      conns[j].end < conns[k].start || conns[k].end < conns[j].start
    requires i < |conns| && conns[i].Covers(addr)
    ensures FindPeripheral(conns, addr) == Some(i)
  {
  }

  /** What the bus returns: -1 when nothing is mapped, otherwise whatever the
      slave access comes to. */
  datatype BusResult<T> = Unmapped | Served(conn: nat, access: Access<T>)

  /** `bus_read`: the found slave's read at the unmodified address. */
  function BusRead(conns: seq<Connection>, b: Buffers, addr: Addr): (r: BusResult<bv8>)
    ensures r.Unmapped? <==> forall j :: 0 <= j < |conns| ==> !conns[j].Covers(addr)
    ensures r.Served? ==>
      FindPeripheral(conns, addr) == Some(r.conn) && r.access == MemoryRead(b, conns[r.conn].slave, addr)
  {
    match FindPeripheral(conns, addr)
    case None => Unmapped
    case Some(i) => Served(i, MemoryRead(b, conns[i].slave, addr))
  }

  /** `bus_write`: the found slave's write at the unmodified address; an
      unmapped address reaches no slave and so changes no buffer. */
  function BusWrite(conns: seq<Connection>, b: Buffers, addr: Addr, v: bv8): (r: BusResult<Buffers>)
    ensures r.Unmapped? <==> forall j :: 0 <= j < |conns| ==> !conns[j].Covers(addr)
    ensures r.Served? ==>
      FindPeripheral(conns, addr) == Some(r.conn) && r.access == MemoryWrite(b, conns[r.conn].slave, addr, v)
  {
    match FindPeripheral(conns, addr)
    case None => Unmapped
    case Some(i) => Served(i, MemoryWrite(b, conns[i].slave, addr, v))
  }

  /** Overlapping connections: the earlier one shadows the later one. */
  lemma EarlierConnectionWins(c1: Connection, c2: Connection, addr: Addr)
    requires c1.Covers(addr) && c2.Covers(addr)
    ensures FindPeripheral([c1, c2], addr) == Some(0)
  {
  }

  /** The memory connections: each connection's range is its context's. */
  function ConnectionOf(ctx: MemCtx): (c: Connection)
    ensures c.start == ctx.start && c.end == ctx.end && c.slave == ctx
  {
    Connection(ctx.start, ctx.end, ctx)
  }

  const VramConn: Connection := ConnectionOf(VramCtx)
  const Wram0Conn: Connection := ConnectionOf(Wram0Ctx)
  const Wram1Conn: Connection := ConnectionOf(Wram1Ctx)
  const EchoConn: Connection := ConnectionOf(EchoCtx)
  const HramConn: Connection := ConnectionOf(HramCtx)

  /** The five RAM connections, in the order their getters are declared. The
      code that registers them with the bus is not part of this model. */
  const RamConnections: seq<Connection> := [VramConn, Wram0Conn, Wram1Conn, EchoConn, HramConn]

  /** The RAM connections do not overlap, so any registration order dispatches
      an address to the same region. */
  lemma RamConnectionsDisjoint()
    ensures forall j, k :: 0 <= j < k < |RamConnections| ==>
      RamConnections[j].end < RamConnections[k].start || RamConnections[k].end < RamConnections[j].start
  {
  }

  /** Through the bus, a write to echo RAM below 0xF000 is read back at the
      matching wram0 address. */
  lemma EchoWriteVisibleInWram0(b: Buffers, k: nat, v: bv8)
    requires WellSized(b) && k < 0x1000
    ensures var w := BusWrite(RamConnections, b, 0xE000 + k, v);
      && w.Served? && w.access.Done?
      && BusRead(RamConnections, w.access.value, 0xC000 + k) == Served(1, Done(v))
  {
    RamConnectionsDisjoint();
    DisjointFindsTheCover(RamConnections, 0xE000 + k, 3);
    DisjointFindsTheCover(RamConnections, 0xC000 + k, 1);
    EchoAliasesWram0(b, k, v);
    OwnedRegionServesItsRange(b, Wram0Ctx, 0xC000 + k, v);
    WriteThenRead(b, Wram0Ctx, 0xC000 + k, v);
  }
}

=== FILE: cartridge.dfy ===
/** The cartridge header fields `read_rom_meta` copies out of a ROM image, at
    the fixed offsets of "The Cartridge Header" in the Pan Docs. */
module Cartridge {

  /** `cart_meta_t`. Byte arrays and `char` arrays are both byte sequences. */
  datatype CartMeta = CartMeta(
    nintendoLogo: seq<bv8>,
    title: seq<bv8>,
    manuCode: seq<bv8>,
    romSize: bv32,
    ramSize: bv32,
    destinationCode: bv8,
    cartType: bv8,
    oldLicenseeCode: bv8,
    newLicenseeCode: seq<bv8>,
    version: bv8,
    headerChecksum: bv8,
    globalChecksum: bv16,
    cgbFlag: bv8,
    sgbFlag: bv8)

  /** One past the last header byte read (the header checksum at 0x14D). */
  const HeaderEnd: nat := 0x14E

  /** `read_rom_meta`: copies each header field from its offset and leaves ROM
      size, RAM size and the global checksum as they were. The ROM size
      argument is never consulted, so the caller must supply a ROM that reaches
      the header checksum. */
  function ReadRomMeta(meta: CartMeta, rom: seq<bv8>): (r: CartMeta)
    requires |rom| >= HeaderEnd
    ensures |r.nintendoLogo| == 0x30 && |r.title| == 0x10 && |r.manuCode| == 4 && |r.newLicenseeCode| == 2
    ensures r.romSize == meta.romSize && r.ramSize == meta.ramSize && r.globalChecksum == meta.globalChecksum
  {
    meta.(
      nintendoLogo := rom[0x104..0x134],
      title := rom[0x134..0x144],
      manuCode := rom[0x13F..0x143],
      cgbFlag := rom[0x143],
      newLicenseeCode := rom[0x144..0x146],
      sgbFlag := rom[0x146],
      cartType := rom[0x147],
      destinationCode := rom[0x14A],
      oldLicenseeCode := rom[0x14B],
      version := rom[0x14C],
      headerChecksum := rom[0x14D])
  }

  /** No byte past the header checksum is read: the fields depend only on the
      first 0x14E bytes. */
  lemma OnlyHeaderIsRead(meta: CartMeta, rom: seq<bv8>, rom2: seq<bv8>)
    requires |rom| >= HeaderEnd && |rom2| >= HeaderEnd
    requires rom[..HeaderEnd] == rom2[..HeaderEnd]
    ensures ReadRomMeta(meta, rom) == ReadRomMeta(meta, rom2)
  {
    assert rom[0x104..0x134] == rom[..HeaderEnd][0x104..0x134] == rom2[0x104..0x134];
    assert rom[0x134..0x144] == rom[..HeaderEnd][0x134..0x144] == rom2[0x134..0x144];
    assert rom[0x13F..0x143] == rom[..HeaderEnd][0x13F..0x143] == rom2[0x13F..0x143];
    assert rom[0x144..0x146] == rom[..HeaderEnd][0x144..0x146] == rom2[0x144..0x146];
    assert rom[0x143] == rom[..HeaderEnd][0x143] == rom2[0x143];
    assert rom[0x146] == rom[..HeaderEnd][0x146] == rom2[0x146];
    assert rom[0x147] == rom[..HeaderEnd][0x147] == rom2[0x147];
    assert rom[0x14A] == rom[..HeaderEnd][0x14A] == rom2[0x14A];
    assert rom[0x14B] == rom[..HeaderEnd][0x14B] == rom2[0x14B];
    assert rom[0x14C] == rom[..HeaderEnd][0x14C] == rom2[0x14C];
    assert rom[0x14D] == rom[..HeaderEnd][0x14D] == rom2[0x14D];
  }

  /** The 16-byte title copy runs over the manufacturer code and the CGB flag:
      both reappear as its last five bytes. */
  lemma TitleOverlapsManufacturerAndCgb(meta: CartMeta, rom: seq<bv8>)
    requires |rom| >= HeaderEnd
    ensures var r := ReadRomMeta(meta, rom);
      r.manuCode == r.title[11..15] && r.cgbFlag == r.title[15]
  {
  }

  /** A header laid out field by field at the documented offsets. */
  function PlaceHeader(rom: seq<bv8>, m: CartMeta): (r: seq<bv8>)
    requires |rom| >= HeaderEnd
    requires |m.nintendoLogo| == 0x30 && |m.title| == 0x10 && |m.newLicenseeCode| == 2
    ensures |r| == |rom|
  {
    rom[..0x104] + m.nintendoLogo + m.title + m.newLicenseeCode
      + [m.sgbFlag, m.cartType] + rom[0x148..0x14A]
      + [m.destinationCode, m.oldLicenseeCode, m.version, m.headerChecksum] + rom[HeaderEnd..]
  }

  /** Reading back a placed header gives the placed fields. The manufacturer
      code and CGB flag come back as title bytes 11..15 and 15, since the title
      covers them. */
  lemma PlaceThenRead(meta: CartMeta, rom: seq<bv8>, m: CartMeta)
    requires |rom| >= HeaderEnd
    requires |m.nintendoLogo| == 0x30 && |m.title| == 0x10 && |m.newLicenseeCode| == 2
    ensures var r := ReadRomMeta(meta, PlaceHeader(rom, m));
      && r.nintendoLogo == m.nintendoLogo && r.title == m.title
      && r.manuCode == m.title[11..15] && r.cgbFlag == m.title[15]
      && r.newLicenseeCode == m.newLicenseeCode
      && r.sgbFlag == m.sgbFlag && r.cartType == m.cartType
      && r.destinationCode == m.destinationCode && r.oldLicenseeCode == m.oldLicenseeCode
      && r.version == m.version && r.headerChecksum == m.headerChecksum
  {
    var p := PlaceHeader(rom, m);
    assert p[0x104..0x134] == m.nintendoLogo;
    assert p[0x134..0x144] == m.title;
    assert p[0x144..0x146] == m.newLicenseeCode;
  }
}

=== FILE: cpu_core.dfy ===
/** The processor loop: reset, instruction fetch and one tick, which either
    consumes the interrupt-enable flag or fetches an opcode and runs the handler
    the generated opcode table names for it. */
module CpuCore {
  import opened CpuState
  import opened Instructions
  import opened Optable
  import opened OpFilters
  import opened Errors

  /** The generated `optable`: the 256 entries of the main filter table. */
  const MainTable: seq<string> := TableEntries(CreateOptable(OptableFilters))

  /** `cpu_init`: PC and the cycle counter go to zero, everything else is left
      as it was. */
  function Init(c: Context): (r: Context)
    ensures r.pc == 0 && r.cycles == 0
    ensures r.(pc := c.pc, cycles := c.cycles) == c
  {
    c.(pc := 0, cycles := 0)
  }

  /** What `cpu_fetch` leaves behind: the context with PC advanced, and the
      byte read. */
  datatype Fetched = Fetched(ctx: Context, opcode: bv8)

  /** `cpu_fetch`: PC is incremented (modulo 2^16) before the read, so the byte
      comes from the address after the old PC. */
  function Fetch(c: Context, mem: Memory): (r: Fetched)
    ensures r.ctx.pc - 1 == c.pc && r.ctx.(pc := c.pc) == c
    ensures r.opcode == Load(mem, r.ctx.pc)
  {
    var ctx := c.(pc := c.pc + 1);
    Fetched(ctx, Load(mem, ctx.pc))
  }

  /** Right after `cpu_init`, the first fetch reads address 0x0001, not 0. */
  lemma FirstFetchReadsOne(c: Context, mem: Memory)
    ensures Fetch(Init(c), mem).ctx.pc == 1
    ensures Fetch(Init(c), mem).opcode == Load(mem, 1)
  {
  }

  /** The result of running a handler: its effect when its body is part of
      this model, or the machine as the handler found it with the handler's
      name when the handler is only declared or has an empty body. */
  datatype Outcome = Ran(m: Machine) | Uninterpreted(name: string, m: Machine)

  /** The handlers whose bodies are part of this model. */
  datatype Handler =
      Nop
    | LdR16Imm16
    | LdImm16memSp
    | IncR16
    | DecR16
    | LdR8Imm8
    | Rlca
    | Rrca
    | Rla
    | Rra
    | Cpl
    | Scf
    | Ccf
    | JrImm8
    | JrCondImm8
    | LdR8R8
    | AluOpR8
    | AluOpImm8
    | RetCond
    | Ret
    | JpCond
    | JpImm16
    | JpHl
    | CallCondImm16
    | CallImm16
    | PopR16Stk
    | PushR16Stk
    | LdhCmemA
    | LdhImm8memA
    | LdImm16memA
    | LdhACmem
    | LdhAImm8mem
    | LdAImm16mem
    | LdSpHl
    | RlcR8
    | RrcR8
    | RlR8
    | RrR8
    | SlaR8
    | SraR8
    | SwapR8
    | SrlR8
    | BitB3R8
    | ResB3R8
    | SetB3R8

  /** The handler a table entry names, if its body is part of this model;
      `None` for the handlers that are only declared or have an empty body,
      and for `instr_unimplemented`. */
  function HandlerFor(name: string): Option<Handler>
  {
    match name
    case "instr_nop" => Some(Nop)
    case "instr_ld_r16_imm16" => Some(LdR16Imm16)
    case "instr_ld_imm16mem_sp" => Some(LdImm16memSp)
    case "instr_inc_r16" => Some(IncR16)
    case "instr_dec_r16" => Some(DecR16)
    case "instr_ld_r8_imm8" => Some(LdR8Imm8)
    case "instr_rlca" => Some(Rlca)
    case "instr_rrca" => Some(Rrca)
    case "instr_rla" => Some(Rla)
    case "instr_rra" => Some(Rra)
    case "instr_cpl" => Some(Cpl)
    case "instr_scf" => Some(Scf)
    case "instr_ccf" => Some(Ccf)
    case "instr_jr_imm8" => Some(JrImm8)
    case "instr_jr_cond_imm8" => Some(JrCondImm8)
    case "instr_ld_r8_r8" => Some(LdR8R8)
    case "instr_alu_op_r8" => Some(AluOpR8)
    case "instr_alu_op_imm8" => Some(AluOpImm8)
    case "instr_ret_cond" => Some(RetCond)
    case "instr_ret" => Some(Ret)
    case "instr_jp_cond" => Some(JpCond)
    case "instr_jp_imm16" => Some(JpImm16)
    case "instr_jp_hl" => Some(JpHl)
    case "instr_call_cond_imm16" => Some(CallCondImm16)
    case "instr_call_imm16" => Some(CallImm16)
    case "instr_pop_r16stk" => Some(PopR16Stk)
    case "instr_push_r16stk" => Some(PushR16Stk)
    case "instr_ldh_cmem_a" => Some(LdhCmemA)
    case "instr_ldh_imm8mem_a" => Some(LdhImm8memA)
    case "instr_ld_imm16mem_a" => Some(LdImm16memA)
    case "instr_ldh_a_cmem" => Some(LdhACmem)
    case "instr_ldh_a_imm8mem" => Some(LdhAImm8mem)
    case "instr_ld_a_imm16mem" => Some(LdAImm16mem)
    case "instr_ld_sp_hl" => Some(LdSpHl)
    case "instr_rlc_r8" => Some(RlcR8)
    case "instr_rrc_r8" => Some(RrcR8)
    case "instr_rl_r8" => Some(RlR8)
    case "instr_rr_r8" => Some(RrR8)
    case "instr_sla_r8" => Some(SlaR8)
    case "instr_sra_r8" => Some(SraR8)
    case "instr_swap_r8" => Some(SwapR8)
    case "instr_srl_r8" => Some(SrlR8)
    case "instr_bit_b3_r8" => Some(BitB3R8)
    case "instr_res_b3_r8" => Some(ResB3R8)
    case "instr_set_b3_r8" => Some(SetB3R8)
    case _ => None
  }


  /** The effect of a handler with a body, as the handlers are written: CALL and
      PUSH store with the post-decrementing writes. */
  function Run(h: Handler, m: Machine, opcode: bv8): (r: Machine)
    ensures r.ctx.ime == m.ctx.ime
  {
    match h
    case Nop => InstrNop(m, opcode)
    case LdR16Imm16 => InstrLdR16Imm16(m, opcode)
    case LdImm16memSp => InstrLdImm16memSp(m, opcode)
    case IncR16 => InstrIncR16(m, opcode)
    case DecR16 => InstrDecR16(m, opcode)
    case LdR8Imm8 => InstrLdR8Imm8(m, opcode)
    case Rlca => InstrRlca(m, opcode)
    case Rrca => InstrRrca(m, opcode)
    case Rla => InstrRla(m, opcode)
    case Rra => InstrRra(m, opcode)
    case Cpl => InstrCpl(m, opcode)
    case Scf => InstrScf(m, opcode)
    case Ccf => InstrCcf(m, opcode)
    case JrImm8 => InstrJrImm8(m, opcode)
    case JrCondImm8 => InstrJrCondImm8(m, opcode)
    case LdR8R8 => InstrLdR8R8(m, opcode)
    case AluOpR8 => InstrAluOpR8(m, opcode)
    case AluOpImm8 => InstrAluOpImm8(m, opcode)
    case RetCond => InstrRetCond(m, opcode)
    case Ret => InstrRet(m, opcode)
    case JpCond => InstrJpCond(m, opcode)
    case JpImm16 => InstrJpImm16(m, opcode)
    case JpHl => InstrJpHl(m, opcode)
    case CallCondImm16 => InstrCallCondImm16AsWritten(m, opcode)
    case CallImm16 => InstrCallImm16AsWritten(m, opcode)
    case PopR16Stk => InstrPopR16Stk(m, opcode)
    case PushR16Stk => InstrPushR16StkAsWritten(m, opcode)
    case LdhCmemA => InstrLdhCmemA(m, opcode)
    case LdhImm8memA => InstrLdhImm8memA(m, opcode)
    case LdImm16memA => InstrLdImm16memA(m, opcode)
    case LdhACmem => InstrLdhACmem(m, opcode)
    case LdhAImm8mem => InstrLdhAImm8mem(m, opcode)
    case LdAImm16mem => InstrLdAImm16mem(m, opcode)
    case LdSpHl => InstrLdSpHl(m, opcode)
    case RlcR8 => InstrRlcR8(m, opcode)
    case RrcR8 => InstrRrcR8(m, opcode)
    case RlR8 => InstrRlR8(m, opcode)
    case RrR8 => InstrRrR8(m, opcode)
    case SlaR8 => InstrSlaR8(m, opcode)
    case SraR8 => InstrSraR8(m, opcode)
    case SwapR8 => InstrSwapR8(m, opcode)
    case SrlR8 => InstrSrlR8(m, opcode)
    case BitB3R8 => InstrBitB3R8(m, opcode)
    case ResB3R8 => InstrResB3R8(m, opcode)
    case SetB3R8 => InstrSetB3R8(m, opcode)
  }

  /** The handlers with the pre-decrementing stack writes of CALL and PUSH, so
      that RET and POP read back what they stored; every other handler as written. */
  function RunCorrected(h: Handler, m: Machine, opcode: bv8): (r: Machine)
    ensures r.ctx.ime == m.ctx.ime
  {
    match h
    case CallCondImm16 => InstrCallCondImm16(m, opcode)
    case CallImm16 => InstrCallImm16(m, opcode)
    case PushR16Stk => InstrPushR16Stk(m, opcode)
    case _ => Run(h, m, opcode)
  }

  /** The corrected handlers differ from the written ones only in CALL cc, CALL
      and PUSH, and there only in where the two stack bytes go: the resulting
      registers are the same. */
  lemma CorrectionOnlyMovesStackBytes(h: Handler, m: Machine, opcode: bv8)
    ensures !(h.CallCondImm16? || h.CallImm16? || h.PushR16Stk?) ==> RunCorrected(h, m, opcode) == Run(h, m, opcode)
    ensures RunCorrected(h, m, opcode).ctx == Run(h, m, opcode).ctx
  {
  }

  /** A call through an `INSTR_FUNC` pointer, by the name the table holds. */
  function Dispatch(name: string, m: Machine, opcode: bv8): (r: Outcome)
    ensures r.Ran? <==> HandlerFor(name).Some?
    ensures r.Uninterpreted? ==> r == Uninterpreted(name, m)
    ensures r.Ran? ==> r.m == Run(HandlerFor(name).value, m, opcode)
  {
    match HandlerFor(name)
    case Some(h) => Ran(Run(h, m, opcode))
    case None => Uninterpreted(name, m)
  }

  /** `cpu_tick`. With the enable flag set the tick only clears it; otherwise
      it fetches an opcode and calls the handler the table names for it. */
  function Tick(m: Machine): (r: Outcome)
    ensures !m.ctx.ime ==> (r.Ran? <==> HandlerFor(MainTable[Load(m.mem, m.ctx.pc + 1)]).Some?)
    ensures r.Ran? ==> !r.m.ctx.ime
    ensures r.Uninterpreted? ==> !m.ctx.ime && r.m == m.(ctx := m.ctx.(pc := m.ctx.pc + 1))
  {
    if m.ctx.ime then Ran(m.(ctx := m.ctx.(ime := false)))
    else
      var f := Fetch(m.ctx, m.mem);
      Dispatch(MainTable[f.opcode], m.(ctx := f.ctx), f.opcode)
  }

  /** A tick with the enable flag set clears it and changes nothing else: no
      fetch, same PC, cycles, registers and memory. */
  lemma TickWithFlagOnlyClearsIt(m: Machine)
    requires m.ctx.ime
    ensures Tick(m) == Ran(Machine(m.ctx.(ime := false), m.mem))
  {
  }

  /** A tick with the flag clear calls the handler named at the opcode after
      PC, on the machine whose PC has moved on by one. */
  lemma TickFetchesThenDispatches(m: Machine)
    requires !m.ctx.ime
    ensures var op := Load(m.mem, m.ctx.pc + 1);
      Tick(m) == Dispatch(MainTable[op], m.(ctx := m.ctx.(pc := m.ctx.pc + 1)), op)
  {
  }

  /** Decoding is total: every opcode has an entry, and it is the name of the
      last filter covering the opcode, or `instr_unimplemented` when none does. */
  lemma DecodeIsTotal(op: bv8)
    ensures |MainTable| == 256
    ensures MainTable[op] == LastMatchName(OptableFilters, ToBinary(op as nat, 8))
  {
    FiltersHaveEightBits();
    EntryIsLastMatch(OptableFilters, op as nat);
  }

  /** HALT at the next address reaches the halt handler, which has no body. */
  lemma TickOnHalt(m: Machine)
    requires !m.ctx.ime && Load(m.mem, m.ctx.pc + 1) == 0x76
    ensures Tick(m) == Uninterpreted("instr_halt", m.(ctx := m.ctx.(pc := m.ctx.pc + 1)))
  {
    HaltWinsAt0x76();
    TickFetchesThenDispatches(m);
    HaltHasNoBody();
  }

  /** Fetch moves PC onto the opcode before the handler reads its immediate at
      PC, so LD B, imm8 (0x06) loads its own opcode byte into B and leaves PC on
      the byte that was meant as the immediate. */
  lemma TickLdImmReadsOpcode(m: Machine)
    requires !m.ctx.ime && Load(m.mem, m.ctx.pc + 1) == 0x06
    ensures Tick(m).Ran?
    ensures Tick(m).m.ctx.bc.hi == 0x06
    ensures Tick(m).m.ctx.pc == m.ctx.pc + 2
  {
    var m1 := m.(ctx := m.ctx.(pc := m.ctx.pc + 1));
    TickFetchesThenDispatches(m);
    LdImmAt0x06();
    assert MainTable[0x06] == "instr_ld_r8_imm8";
    LdImmHasBody();
    var d := Dispatch("instr_ld_r8_imm8", m1, 0x06);
    assert d == Ran(Run(LdR8Imm8, m1, 0x06));
    LdBImmReadsAtPc(m1);
  }

  /** LD B, imm8 run on its own opcode position reads the opcode byte back. */
  lemma LdBImmReadsAtPc(m: Machine)
    requires Load(m.mem, m.ctx.pc) == 0x06
    ensures Run(LdR8Imm8, m, 0x06).ctx.bc.hi == 0x06
    ensures Run(LdR8Imm8, m, 0x06).ctx.pc == m.ctx.pc + 1
  {
    assert OpMid3(0x06) == R8B;
    assert Run(LdR8Imm8, m, 0x06) == InstrLdR8Imm8(m, 0x06);
  }

  /** The immediate load is one of the modelled handlers. */
  lemma LdImmHasBody()
    ensures HandlerFor("instr_ld_r8_imm8") == Some(LdR8Imm8)
  {
  }

  lemma HaltHasNoBody()
    ensures HandlerFor("instr_halt") == None
  {
  }

  /** The fallback entry of the table has no body either. */
  lemma UnimplementedHasNoBody()
    ensures HandlerFor(Unimplemented) == None
  {
  }

  lemma CbPrefixHasNoBody()
    ensures HandlerFor("instr_cb_prefix") == None
  {
  }

  /** The 0xCB prefix reaches `instr_cb_prefix`, which has no body, so the
      prefixed table is never consulted from a tick. */
  lemma TickOnPrefix(m: Machine)
    requires !m.ctx.ime && Load(m.mem, m.ctx.pc + 1) == 0xCB
    ensures Tick(m) == Uninterpreted("instr_cb_prefix", m.(ctx := m.ctx.(pc := m.ctx.pc + 1)))
  {
    CbPrefixAt0xCB();
    TickFetchesThenDispatches(m);
    CbPrefixHasNoBody();
  }
}

=== FILE: cpu_state.dfy ===
/** The processor's architectural state: register pairs with their 8-bit halves,
    SP, PC, the M-cycle counter, the interrupt-enable bit, and the 64 KiB address
    space the instruction handlers read and write. */
module CpuState {

  /** REGHIGH: bits 15..8 of a 16-bit value. */
  function RegHigh(x: bv16): bv8
  {
    ((x >> 8) & 0xFF) as bv8
  }

  /** REGLOW: bits 7..0 of a 16-bit value. */
  function RegLow(x: bv16): bv8
  {
    (x & 0xFF) as bv8
  }

  /** REGFULL: joins a high and a low byte; splitting the result gives the two bytes back. */
  function RegFull(hi: bv8, lo: bv8): (r: bv16)
    ensures RegHigh(r) == hi && RegLow(r) == lo
  {
    ((lo as bv16) & 0xFF) | (((hi as bv16) & 0xFF) << 8)
  }

  /** Splitting a 16-bit value and joining the halves gives the value back. */
  lemma RegJoinSplit(x: bv16)
    ensures RegFull(RegHigh(x), RegLow(x)) == x
  {
  }

  /** A `register_t`: one 16-bit cell viewed either whole or as two byte members.
      The struct lists `hi` first, so on a little-endian host `hi` is bits 7..0 of
      `full` and `lo` is bits 15..8 -- the opposite of RegHigh/RegLow. */
  datatype Pair = Pair(hi: bv8, lo: bv8)
  {
    /** The `full` member. */
    function Full(): (r: bv16)
      ensures RegLow(r) == hi && RegHigh(r) == lo
    {
      RegFull(lo, hi)
    }
  }

  /** Assigning the `full` member fixes both byte members. */
  function PairOf(x: bv16): (p: Pair)
    ensures p.Full() == x
    ensures p.hi == RegLow(x) && p.lo == RegHigh(x)
  {
    RegJoinSplit(x);
    Pair(RegLow(x), RegHigh(x))
  }

  /** Reading the `full` member back into a pair gives the same pair. */
  lemma PairOfFull(p: Pair)
    ensures PairOf(p.Full()) == p
  {
  }

  /** `cpu_context_t`. The header names the enable flag `ie`, the CPU code `ime`;
      it is one flag here. */
  datatype Context = Context(
    af: Pair, bc: Pair, de: Pair, hl: Pair,
    sp: bv16, pc: bv16,
    cycles: nat,
    ime: bool)

  /** The 16-bit address space seen by the instruction handlers: a total map from
      addresses to bytes. */
  type Memory = bv16 -> bv8

  function Load(m: Memory, a: bv16): bv8 { m(a) }

  /** One byte written; every other address keeps its byte. */
  function Store(m: Memory, a: bv16, v: bv8): (r: Memory)
    ensures Load(r, a) == v
    ensures forall b: bv16 {:trigger Load(r, b)} :: b != a ==> Load(r, b) == Load(m, b)
  {
    x => if x == a then v else m(x)
  }

  datatype Machine = Machine(ctx: Context, mem: Memory)

  /** The accumulator is the `hi` member of AF, the flags byte its `lo` member. */
  function A(c: Context): bv8 { c.af.hi }
  function F(c: Context): bv8 { c.af.lo }
}

=== FILE: emu_memory.dfy ===
/** RAM regions as bus slaves: each region context holds an inclusive
    [start, end] address range and the buffer it indexes with `addr - start`.
    Echo RAM has a context of its own that points at wram0's buffer. */
module EmuMemory {

  /** `addr_t`: a 16-bit unsigned address. */
  type Addr = a: int | 0 <= a <= 0xFFFF

  /** The static buffers: one per declared region. */
  datatype BufferId = VramBuf | Wram0Buf | Wram1Buf | HramBuf

  datatype Buffers = Buffers(vram: seq<bv8>, wram0: seq<bv8>, wram1: seq<bv8>, hram: seq<bv8>)
  {
    function Get(id: BufferId): seq<bv8>
    {
      match id
      case VramBuf => vram
      case Wram0Buf => wram0
      case Wram1Buf => wram1
      case HramBuf => hram
    }

    /** Replaces one buffer; the others are kept. */
    function Set(id: BufferId, s: seq<bv8>): (r: Buffers)
      ensures r.Get(id) == s
      ensures forall other: BufferId {:trigger r.Get(other)} :: other != id ==> r.Get(other) == Get(other)
    {
      match id
      case VramBuf => this.(vram := s)
      case Wram0Buf => this.(wram0 := s)
      case Wram1Buf => this.(wram1 := s)
      case HramBuf => this.(hram := s)
    }
  }

  /** `memory_ctx_t`: the buffer pointer is the buffer's identity. */
  datatype MemCtx = MemCtx(start: Addr, end: Addr, buffer: BufferId)

  /** MEM_REGION_SIZE(start, end) for an inclusive range. */
  function RegionSize(start: Addr, end: Addr): int
  {
    end - start + 1
  }

  const VramCtx: MemCtx := MemCtx(0x8000, 0x9FFF, VramBuf)
  const Wram0Ctx: MemCtx := MemCtx(0xC000, 0xCFFF, Wram0Buf)
  const Wram1Ctx: MemCtx := MemCtx(0xD000, 0xDFFF, Wram1Buf)
  const HramCtx: MemCtx := MemCtx(0xFF80, 0xFFFE, HramBuf)
  /** Echo RAM spans 0xE000-0xFDFF but reuses wram0's 0x1000-byte buffer. */
  const EchoCtx: MemCtx := MemCtx(0xE000, 0xFDFF, Wram0Buf)

  /** The context whose buffer a region declares. */
  function OwnerCtx(id: BufferId): MemCtx
  {
    match id
    case VramBuf => VramCtx
    case Wram0Buf => Wram0Ctx
    case Wram1Buf => Wram1Ctx
    case HramBuf => HramCtx
  }

  /** Each buffer is as long as its owning region. */
  predicate WellSized(b: Buffers)
  {
    forall id: BufferId {:trigger b.Get(id)} :: |b.Get(id)| == RegionSize(OwnerCtx(id).start, OwnerCtx(id).end)
  }

  /** The zero-initialised static buffers. */
  function InitialBuffers(): (b: Buffers)
    ensures WellSized(b)
  {
    Buffers(Zeros(0x2000), Zeros(0x1000), Zeros(0x1000), Zeros(0x7F))
  }

  function Zeros(n: nat): (s: seq<bv8>)
    ensures |s| == n && forall i :: 0 <= i < n ==> s[i] == 0
  {
    seq(n, _ => 0)
  }

  /** What a slave access comes to: a value, the `assert` aborting, or an index
      past the end of the buffer, which C leaves undefined. */
  datatype Access<T> = Done(value: T) | GuardFails | Overrun

  /** The offset into the buffer, in 16-bit arithmetic: `addr - start` wraps
      when addr is below start. */
  function Offset(ctx: MemCtx, addr: Addr): Addr
  {
    (addr - ctx.start) % 0x10000
  }

  /** `memory_read`. The guard compares the offset with the absolute end
      address, so it does not bound the index into the buffer. */
  function MemoryRead(b: Buffers, ctx: MemCtx, addr: Addr): (r: Access<bv8>)
    ensures r.Done? <==> Offset(ctx, addr) <= ctx.end && Offset(ctx, addr) < |b.Get(ctx.buffer)|
    ensures r.Done? ==> r.value == b.Get(ctx.buffer)[Offset(ctx, addr)]
  {
    var offset := Offset(ctx, addr);
    if offset > ctx.end then GuardFails
    else if offset >= |b.Get(ctx.buffer)| then Overrun
    else Done(b.Get(ctx.buffer)[offset])
  }

  /** `memory_write`: changes exactly one byte of the context's buffer. */
  function MemoryWrite(b: Buffers, ctx: MemCtx, addr: Addr, v: bv8): (r: Access<Buffers>)
    ensures r.Done? <==> Offset(ctx, addr) <= ctx.end && Offset(ctx, addr) < |b.Get(ctx.buffer)|
    ensures r.Done? ==>
      && r.value.Get(ctx.buffer) == b.Get(ctx.buffer)[Offset(ctx, addr) := v]
      && forall id: BufferId {:trigger r.value.Get(id)} :: id != ctx.buffer ==> r.value.Get(id) == b.Get(id)
  {
    var offset := Offset(ctx, addr);
    var buf := b.Get(ctx.buffer);
    if offset > ctx.end then GuardFails
    else if offset >= |buf| then Overrun
    else Done(b.Set(ctx.buffer, buf[offset := v]))
  }

  /** A write keeps buffer sizes. */
  lemma WriteKeepsSizes(b: Buffers, ctx: MemCtx, addr: Addr, v: bv8)
    requires WellSized(b) && MemoryWrite(b, ctx, addr, v).Done?
    ensures WellSized(MemoryWrite(b, ctx, addr, v).value)
  {
    var r := MemoryWrite(b, ctx, addr, v).value;
    forall id: BufferId ensures |r.Get(id)| == RegionSize(OwnerCtx(id).start, OwnerCtx(id).end) {
      assert |b.Get(id)| == RegionSize(OwnerCtx(id).start, OwnerCtx(id).end);
    }
  }

  /** A region that indexes its own buffer. */
  predicate IsOwner(ctx: MemCtx)
  {
    ctx == OwnerCtx(ctx.buffer)
  }

  /** For the four declared regions every address of [start, end] is served,
      from the byte at `addr - start`. */
  lemma OwnedRegionServesItsRange(b: Buffers, ctx: MemCtx, addr: Addr, v: bv8)
    requires WellSized(b) && IsOwner(ctx) && ctx.start <= addr <= ctx.end
    ensures MemoryRead(b, ctx, addr) == Done(b.Get(ctx.buffer)[addr - ctx.start])
    ensures MemoryWrite(b, ctx, addr, v).Done?
  {
    assert |b.Get(ctx.buffer)| == RegionSize(OwnerCtx(ctx.buffer).start, OwnerCtx(ctx.buffer).end);
  }

  /** Writing then reading the same address of a context gives the value back. */
  lemma WriteThenRead(b: Buffers, ctx: MemCtx, addr: Addr, v: bv8)
    requires MemoryWrite(b, ctx, addr, v).Done?
    ensures MemoryRead(MemoryWrite(b, ctx, addr, v).value, ctx, addr) == Done(v)
  {
  }

  /** A write is invisible to a read of any other buffer byte, through any
      context. */
  lemma WriteThenReadElsewhere(b: Buffers, ctx: MemCtx, addr: Addr, v: bv8, ctx2: MemCtx, addr2: Addr)
    requires MemoryWrite(b, ctx, addr, v).Done?
    requires ctx2.buffer != ctx.buffer || Offset(ctx2, addr2) != Offset(ctx, addr)
    ensures MemoryRead(MemoryWrite(b, ctx, addr, v).value, ctx2, addr2) == MemoryRead(b, ctx2, addr2)
  {
  }

  /** Echo RAM below 0xF000 is wram0 under another name: an access at
      0xE000 + k through the echo context is the access at 0xC000 + k through
      wram0's, for writes and reads alike. */
  lemma EchoAliasesWram0(b: Buffers, k: nat, v: bv8)
    requires k < 0x1000
    ensures MemoryWrite(b, EchoCtx, 0xE000 + k, v) == MemoryWrite(b, Wram0Ctx, 0xC000 + k, v)
    ensures MemoryRead(b, EchoCtx, 0xE000 + k) == MemoryRead(b, Wram0Ctx, 0xC000 + k)
  {
  }

  /** The rest of echo RAM passes the guard (the offset is below 0xFDFF) yet
      indexes past the end of wram0's buffer. */
  lemma EchoUpperPartOverruns(b: Buffers, k: nat, v: bv8)
    requires WellSized(b) && 0x1000 <= k < 0x1E00
    ensures Offset(EchoCtx, 0xE000 + k) <= EchoCtx.end
    ensures MemoryRead(b, EchoCtx, 0xE000 + k) == Overrun
    ensures MemoryWrite(b, EchoCtx, 0xE000 + k, v) == Overrun
  {
    assert |b.Get(Wram0Buf)| == RegionSize(OwnerCtx(Wram0Buf).start, OwnerCtx(Wram0Buf).end);
  }
}

=== FILE: errors.dfy ===
/** The fatal status codes of `emu_die`, and the result type the model uses in
    place of a call that never returns. */
module Errors {

  /** `error_code_t`, plus STATUS_FULL_CONTAINER, which the queue code raises but
      the enum does not list. */
  datatype ErrorCode = StatusOk | BusError | SegFault | EmptyContainer | FullContainer

  /** Either the value an operation returns, or the status `emu_die` would exit
      with. */
  datatype Result<+T> = Ok(value: T) | Fail(code: ErrorCode)
  {
    predicate IsFailure() { Fail? }

    function PropagateFailure<U>(): Result<U>
      requires Fail?
    {
      Fail(code)
    }

    function Extract(): T
      requires Ok?
    {
      value
    }
  }

  /** The conventional optional value. */
  datatype Option<+T> = None | Some(value: T)
}

=== FILE: instructions.dfy ===
/** Instruction handlers of the processor, each a state transformer over the
    register file and the address space, as the handlers with bodies define them.
    Flag updates are reproduced as written, including the inverted status-set
    helper, the carry handling of SBC, the flag write-back of the accumulator
    rotates and the missing flag update of SWAP on [HL]. */
module Instructions {
  import opened CpuState
  import opened Alu

  // ---------------------------------------------------------------------------
  // Opcode fields

  /** Bits 2..0: the source, or only, 8-bit operand. */
  function OpLow3(opcode: bv8): (r: bv8)
    ensures r <= 7
  {
    opcode & 7
  }

  /** Bits 5..3: destination operand, ALU operation or bit number. */
  function OpMid3(opcode: bv8): (r: bv8)
    ensures r <= 7
  {
    (opcode >> 3) & 7
  }

  /** Bits 4..3: the condition of a conditional jump, call or return. */
  function OpCond(opcode: bv8): (r: bv8)
    ensures r <= 3
  {
    (opcode >> 3) & 3
  }

  /** Bits 5..4: a 16-bit register code. */
  function OpPair(opcode: bv8): (r: bv8)
    ensures r <= 3
  {
    (opcode >> 4) & 3
  }

  // ---------------------------------------------------------------------------
  // Register access by operand code

  const R8B: bv8 := 0
  const R8C: bv8 := 1
  const R8D: bv8 := 2
  const R8E: bv8 := 3
  const R8H: bv8 := 4
  const R8L: bv8 := 5
  const R8HLMem: bv8 := 6
  const R8A: bv8 := 7

  /** read_reg8: a register half, or the byte at HL for code 6; 0 for codes above 7. */
  function ReadReg8(m: Machine, code: bv8): bv8
  {
    var c := m.ctx;
    if code == R8A then c.af.hi
    else if code == R8B then c.bc.hi
    else if code == R8C then c.bc.lo
    else if code == R8D then c.de.hi
    else if code == R8E then c.de.lo
    else if code == R8H then c.hl.hi
    else if code == R8L then c.hl.lo
    else if code == R8HLMem then Load(m.mem, c.hl.Full())
    else 0
  }

  /** write_reg8: codes above 7 hit an assertion in the source. */
  function WriteReg8(m: Machine, code: bv8, v: bv8): (r: Machine)
    requires code <= 7
    ensures ReadReg8(r, code) == v
    ensures r.ctx.sp == m.ctx.sp && r.ctx.pc == m.ctx.pc && r.ctx.cycles == m.ctx.cycles
    ensures r.ctx.ime == m.ctx.ime && F(r.ctx) == F(m.ctx)
    ensures code != R8HLMem ==> r.mem == m.mem
    ensures Keeps8(m, r, code)
  {
    var c := m.ctx;
    if code == R8A then m.(ctx := c.(af := c.af.(hi := v)))
    else if code == R8B then m.(ctx := c.(bc := c.bc.(hi := v)))
    else if code == R8C then m.(ctx := c.(bc := c.bc.(lo := v)))
    else if code == R8D then m.(ctx := c.(de := c.de.(hi := v)))
    else if code == R8E then m.(ctx := c.(de := c.de.(lo := v)))
    else if code == R8H then m.(ctx := c.(hl := c.hl.(hi := v)))
    else if code == R8L then m.(ctx := c.(hl := c.hl.(lo := v)))
    else m.(mem := Store(m.mem, c.hl.Full(), v))
  }

  /** The frame of a handler that writes the 8-bit operand `code`: every other
      register half, SP and IME are as in `m`, memory is untouched unless `code`
      is [HL], and then only the byte at the old HL may differ. F, PC and the
      cycle counter are left for each handler to state. */
  ghost predicate Keeps8(m: Machine, r: Machine, code: bv8)
  {
    var c, d := m.ctx, r.ctx;
    && (code != R8A ==> d.af.hi == c.af.hi)
    && (code != R8B ==> d.bc.hi == c.bc.hi)
    && (code != R8C ==> d.bc.lo == c.bc.lo)
    && (code != R8D ==> d.de.hi == c.de.hi)
    && (code != R8E ==> d.de.lo == c.de.lo)
    && (code != R8H ==> d.hl.hi == c.hl.hi)
    && (code != R8L ==> d.hl.lo == c.hl.lo)
    && d.sp == c.sp && d.ime == c.ime
    && (code != R8HLMem ==> r.mem == m.mem)
    && (forall x: bv16 {:trigger Load(r.mem, x)} :: x != c.hl.Full() ==> Load(r.mem, x) == Load(m.mem, x))
  }

  /** Writing one 8-bit operand leaves every other operand alone, except that
      writing H or L moves the [HL] operand. */
  lemma WriteReg8Frame(m: Machine, code: bv8, other: bv8, v: bv8)
    requires code <= 7 && other <= 7 && other != code
    requires !(other == R8HLMem && (code == R8H || code == R8L))
    ensures ReadReg8(WriteReg8(m, code, v), other) == ReadReg8(m, other)
  {
  }

  const R16BC: bv8 := 0
  const R16DE: bv8 := 1
  const R16HL: bv8 := 2
  const R16SP: bv8 := 3
  const R16PC: bv8 := 4
  const R16AF: bv8 := 5

  /** read_reg16: codes above 5 hit an assertion in the source. */
  function ReadReg16(c: Context, code: bv8): bv16
    requires code <= 5
  {
    if code == R16BC then c.bc.Full()
    else if code == R16DE then c.de.Full()
    else if code == R16HL then c.hl.Full()
    else if code == R16AF then c.af.Full()
    else if code == R16SP then c.sp
    else c.pc
  }

  /** write_reg16: codes above 5 hit an assertion in the source. */
  function WriteReg16(c: Context, code: bv8, v: bv16): (r: Context)
    requires code <= 5
    ensures ReadReg16(r, code) == v
    ensures forall k: bv8 {:trigger ReadReg16(r, k)} :: k <= 5 && k != code ==> ReadReg16(r, k) == ReadReg16(c, k)
    ensures r.cycles == c.cycles && r.ime == c.ime
  {
    if code == R16BC then c.(bc := PairOf(v))
    else if code == R16DE then c.(de := PairOf(v))
    else if code == R16HL then c.(hl := PairOf(v))
    else if code == R16AF then c.(af := PairOf(v))
    else if code == R16SP then c.(sp := v)
    else c.(pc := v)
  }

  /** set_status */
  function SetStatus(m: Machine, flags: bv8): Machine
  {
    m.(ctx := m.ctx.(af := m.ctx.af.(lo := flags)))
  }

  function AddCycles(m: Machine, n: nat): Machine
  {
    m.(ctx := m.ctx.(cycles := m.ctx.cycles + n))
  }

  /** alu_op8 on the register file: only A and F change. */
  function AluOp8(c: Context, op: bv8, operand: bv8): (r: Context)
    ensures A(r) == Alu8(op, A(c), F(c), operand).acc
    ensures F(r) == Alu8(op, A(c), F(c), operand).Flags()
    ensures r.(af := c.af) == c
  {
    var res := Alu8(op, A(c), F(c), operand);
    c.(af := Pair(res.acc, res.Flags()))
  }

  // ---------------------------------------------------------------------------
  // Rotates through the operand code

  /** rr_r8: rotate right through carry. The inverted status helper makes C the
      complement of the old bit 0 and Z the test "result is nonzero". */
  function RrR8(m: Machine, code: bv8): (r: Machine)
    requires code <= 7
    ensures var v := ReadReg8(m, code);
      && ReadReg8(r, code) == (v >> 1) | (CarryBit(F(m.ctx)) << 7)
      && (CSet(F(r.ctx)) <==> v & 1 == 0)
      && (ZSet(F(r.ctx)) <==> ReadReg8(r, code) != 0)
      && F(r.ctx) & 0x6F == 0
    ensures r.ctx.pc == m.ctx.pc && r.ctx.sp == m.ctx.sp && r.ctx.cycles == m.ctx.cycles
    ensures Keeps8(m, r, code)
  {
    var v := ReadReg8(m, code);
    var newVal := (v >> 1) | (CarryBit(F(m.ctx)) << 7);
    var status := StatusSet(StatusSet(0, MaskC, v & 1 != 0), MaskZ, newVal == 0);
    SetStatus(WriteReg8(m, code, newVal), status)
  }

  /** rl_r8: rotate left through carry, with the same inverted flags. */
  function RlR8(m: Machine, code: bv8): (r: Machine)
    requires code <= 7
    ensures var v := ReadReg8(m, code);
      && ReadReg8(r, code) == (v << 1) | CarryBit(F(m.ctx))
      && (CSet(F(r.ctx)) <==> v & 0x80 == 0)
      && (ZSet(F(r.ctx)) <==> ReadReg8(r, code) != 0)
      && F(r.ctx) & 0x6F == 0
    ensures r.ctx.pc == m.ctx.pc && r.ctx.sp == m.ctx.sp && r.ctx.cycles == m.ctx.cycles
    ensures Keeps8(m, r, code)
  {
    var v := ReadReg8(m, code);
    var newVal := (v << 1) | CarryBit(F(m.ctx));
    var status := StatusSet(StatusSet(0, MaskC, v >> 7 != 0), MaskZ, newVal == 0);
    WriteReg8(SetStatus(m, status), code, newVal)
  }

  /** rlc_r8: rotate left by one bit. */
  function RlcR8(m: Machine, code: bv8): (r: Machine)
    requires code <= 7
    ensures var v := ReadReg8(m, code);
      && ReadReg8(r, code) == v.RotateLeft(1)
      && (CSet(F(r.ctx)) <==> v & 0x80 == 0)
      && (ZSet(F(r.ctx)) <==> v != 0)
      && F(r.ctx) & 0x6F == 0
    ensures r.ctx.pc == m.ctx.pc && r.ctx.sp == m.ctx.sp && r.ctx.cycles == m.ctx.cycles
    ensures Keeps8(m, r, code)
  {
    var v := ReadReg8(m, code);
    var msb := v >> 7;
    var result := (v << 1) | msb;
    var status := StatusSet(StatusSet(0, MaskZ, result == 0), MaskC, msb != 0);
    SetStatus(WriteReg8(m, code, result), status)
  }

  /** rrc_r8: rotate right by one bit. */
  function RrcR8(m: Machine, code: bv8): (r: Machine)
    requires code <= 7
    ensures var v := ReadReg8(m, code);
      && ReadReg8(r, code) == v.RotateRight(1)
      && (CSet(F(r.ctx)) <==> v & 1 == 0)
      && (ZSet(F(r.ctx)) <==> v != 0)
      && F(r.ctx) & 0x6F == 0
    ensures r.ctx.pc == m.ctx.pc && r.ctx.sp == m.ctx.sp && r.ctx.cycles == m.ctx.cycles
    ensures Keeps8(m, r, code)
  {
    var v := ReadReg8(m, code);
    var lsb := v & 1;
    var result := (v >> 1) | (lsb << 7);
    var status := StatusSet(StatusSet(0, MaskZ, result == 0), MaskC, lsb != 0);
    SetStatus(WriteReg8(m, code, result), status)
  }

  // ---------------------------------------------------------------------------
  // Immediates: read at PC, after which the handler moves PC past them

  /** read_imm8: the byte at PC. */
  function Imm8(m: Machine): (r: bv8)
    ensures r == RegLow(Imm16(m))
  {
    Load(m.mem, m.ctx.pc)
  }

  /** read_imm16: little-endian, the low byte at PC and the high byte after it. */
  function Imm16(m: Machine): (r: bv16)
    ensures RegLow(r) == Load(m.mem, m.ctx.pc) && RegHigh(r) == Load(m.mem, m.ctx.pc + 1)
  {
    RegFull(Load(m.mem, m.ctx.pc + 1), Load(m.mem, m.ctx.pc))
  }

  /** The post-increments of PC that read `n` immediate bytes. */
  function SkipImm(m: Machine, n: bv16): Machine
  {
    m.(ctx := m.ctx.(pc := m.ctx.pc + n))
  }

  /** Two's-complement widening of a signed 8-bit offset. */
  function SignExtend(b: bv8): bv16
  {
    if b < 0x80 then b as bv16 else (b as bv16) | 0xFF00
  }

  /** The relative jump as written: add the magnitude for a positive offset,
      subtract it (negated in 8 bits) otherwise. The result is the 16-bit
      sum with the sign-extended offset, so -128 reaches back 128 bytes. */
  function JumpRelative(pc: bv16, offset: bv8): (r: bv16)
    ensures r == pc + SignExtend(offset)
  {
    var positive := offset != 0 && offset < 0x80;
    var magnitude: bv8 := if positive then offset else 0 - offset;
    if positive then pc + magnitude as bv16 else pc - magnitude as bv16
  }

  // ---------------------------------------------------------------------------
  // Block 0

  function InstrNop(m: Machine, opcode: bv8): (r: Machine)
    ensures r.ctx == m.ctx.(cycles := m.ctx.cycles + 1) && r.mem == m.mem
  {
    AddCycles(m, 1)
  }

  /** LD r16, imm16 for BC, DE, HL, SP (opcode bits 5..4). */
  function InstrLdR16Imm16(m: Machine, opcode: bv8): (r: Machine)
    ensures ReadReg16(r.ctx, OpPair(opcode)) == Imm16(m)
    ensures r.ctx.pc == m.ctx.pc + 2 && r.ctx.cycles == m.ctx.cycles + 4 && r.mem == m.mem
    ensures forall k: bv8 {:trigger ReadReg16(r.ctx, k)} :: k <= 5 && k != OpPair(opcode) && k != R16PC ==> ReadReg16(r.ctx, k) == ReadReg16(m.ctx, k)
    ensures r.ctx.ime == m.ctx.ime
  {
    var m1 := SkipImm(m, 2);
    AddCycles(m1.(ctx := WriteReg16(m1.ctx, OpPair(opcode), Imm16(m))), 4)
  }

  /** The immediate lands in BC, DE or HL in instruction-stream order: the byte at
      PC becomes the `hi` member and the byte after it the `lo` member. */
  lemma LdR16Imm16Layout(m: Machine, opcode: bv8)
    requires OpPair(opcode) < R16SP
    ensures StackPair(InstrLdR16Imm16(m, opcode).ctx, OpPair(opcode)) == Pair(Load(m.mem, m.ctx.pc), Load(m.mem, m.ctx.pc + 1))
  {
    var r := InstrLdR16Imm16(m, opcode);
    var p := StackPair(r.ctx, OpPair(opcode));
    assert p.Full() == Imm16(m);
    PairOfFull(p);
  }

  /** LD [imm16], SP: low byte of SP at the address, high byte at the next one. */
  function InstrLdImm16memSp(m: Machine, opcode: bv8): (r: Machine)
    ensures Load(r.mem, Imm16(m)) == RegLow(m.ctx.sp)
    ensures Load(r.mem, Imm16(m) + 1) == RegHigh(m.ctx.sp)
    ensures forall x: bv16 {:trigger Load(r.mem, x)} :: x != Imm16(m) && x != Imm16(m) + 1 ==> Load(r.mem, x) == Load(m.mem, x)
    ensures r.ctx == m.ctx.(pc := m.ctx.pc + 2, cycles := m.ctx.cycles + 5)
  {
    var addr := Imm16(m);
    var m1 := SkipImm(m, 2);
    var sp := ReadReg16(m1.ctx, R16SP);
    AddCycles(m1.(mem := Store(Store(m1.mem, addr, RegLow(sp)), addr + 1, RegHigh(sp))), 5)
  }

  /** INC r16 (opcode bits 5..4): adds one modulo 2^16, no flags. */
  function InstrIncR16(m: Machine, opcode: bv8): (r: Machine)
    ensures ReadReg16(r.ctx, OpPair(opcode)) == ReadReg16(m.ctx, OpPair(opcode)) + 1
    ensures forall k: bv8 {:trigger ReadReg16(r.ctx, k)} :: k <= 5 && k != OpPair(opcode) ==> ReadReg16(r.ctx, k) == ReadReg16(m.ctx, k)
    ensures r.ctx.ime == m.ctx.ime
    ensures r.ctx.cycles == m.ctx.cycles + 2 && r.mem == m.mem
  {
    var code := OpPair(opcode);
    AddCycles(m.(ctx := WriteReg16(m.ctx, code, ReadReg16(m.ctx, code) + 1)), 2)
  }

  /** DEC r16 (opcode bits 5..4): subtracts one modulo 2^16, no flags. */
  function InstrDecR16(m: Machine, opcode: bv8): (r: Machine)
    ensures ReadReg16(r.ctx, OpPair(opcode)) == ReadReg16(m.ctx, OpPair(opcode)) - 1
    ensures forall k: bv8 {:trigger ReadReg16(r.ctx, k)} :: k <= 5 && k != OpPair(opcode) ==> ReadReg16(r.ctx, k) == ReadReg16(m.ctx, k)
    ensures r.ctx.ime == m.ctx.ime
    ensures r.ctx.cycles == m.ctx.cycles + 2 && r.mem == m.mem
  {
    var code := OpPair(opcode);
    AddCycles(m.(ctx := WriteReg16(m.ctx, code, ReadReg16(m.ctx, code) - 1)), 2)
  }

  /** DEC r16 undoes INC r16 on the same register, apart from the cycles spent:
      the whole machine comes back, byte members included. */
  lemma IncThenDecR16(m: Machine, inc: bv8, dec: bv8)
    requires OpPair(inc) == OpPair(dec)
    ensures InstrDecR16(InstrIncR16(m, inc), dec) == AddCycles(m, 4)
  {
    var c := m.ctx;
    var code := OpPair(inc);
    if code == R16BC {
      PairOfFull(c.bc);
      assert PairOf(c.bc.Full() + 1).Full() - 1 == c.bc.Full();
    } else if code == R16DE {
      PairOfFull(c.de);
      assert PairOf(c.de.Full() + 1).Full() - 1 == c.de.Full();
    } else if code == R16HL {
      PairOfFull(c.hl);
      assert PairOf(c.hl.Full() + 1).Full() - 1 == c.hl.Full();
    } else {
      assert code == R16SP;
    }
  }

  /** LD r8, imm8 (destination in opcode bits 5..3). */
  function InstrLdR8Imm8(m: Machine, opcode: bv8): (r: Machine)
    ensures ReadReg8(r, OpMid3(opcode)) == Imm8(m)
    ensures Keeps8(m, r, OpMid3(opcode)) && F(r.ctx) == F(m.ctx)
    ensures r.ctx.pc == m.ctx.pc + 1
    ensures r.ctx.cycles == m.ctx.cycles + (if OpMid3(opcode) == R8HLMem then 3 else 2)
  {
    var dest := OpMid3(opcode);
    var m2 := WriteReg8(SkipImm(m, 1), dest, Imm8(m));
    if dest == R8HLMem then AddCycles(m2, 3) else AddCycles(m2, 2)
  }

  /** The loaded byte can be copied on: LD e, d after LD d, n leaves n in e. */
  lemma LdImmThenCopy(m: Machine, load: bv8, copy: bv8)
    requires OpLow3(copy) == OpMid3(load)
    ensures ReadReg8(InstrLdR8R8(InstrLdR8Imm8(m, load), copy), OpMid3(copy)) == Imm8(m)
  {
  }

  /** RLCA: A rotated left; F ends as the old F with Z cleared, the rotate's own
      flags being overwritten. */
  function InstrRlca(m: Machine, opcode: bv8): (r: Machine)
    ensures A(r.ctx) == A(m.ctx).RotateLeft(1)
    ensures F(r.ctx) == F(m.ctx) & !MaskZ
    ensures r.ctx.(af := m.ctx.af) == m.ctx.(cycles := m.ctx.cycles + 1) && r.mem == m.mem
  {
    var status := F(m.ctx);
    var m1 := RlcR8(m, R8A);
    AddCycles(SetStatus(m1, status & !MaskZ), 1)
  }

  /** RRCA: A rotated right; F ends as the old F with Z cleared. */
  function InstrRrca(m: Machine, opcode: bv8): (r: Machine)
    ensures A(r.ctx) == A(m.ctx).RotateRight(1)
    ensures F(r.ctx) == F(m.ctx) & !MaskZ
    ensures r.ctx.(af := m.ctx.af) == m.ctx.(cycles := m.ctx.cycles + 1) && r.mem == m.mem
  {
    var status := F(m.ctx);
    var m1 := RrcR8(m, R8A);
    AddCycles(SetStatus(m1, status & !MaskZ), 1)
  }

  /** RLA: A rotated left through the old carry; F ends as the old F with Z cleared. */
  function InstrRla(m: Machine, opcode: bv8): (r: Machine)
    ensures A(r.ctx) == (A(m.ctx) << 1) | CarryBit(F(m.ctx))
    ensures F(r.ctx) == F(m.ctx) & !MaskZ
    ensures r.ctx.(af := m.ctx.af) == m.ctx.(cycles := m.ctx.cycles + 1) && r.mem == m.mem
  {
    var status := F(m.ctx);
    var m1 := RlR8(m, R8A);
    AddCycles(SetStatus(m1, status & !MaskZ), 1)
  }

  /** RRA: A rotated right through the old carry; F ends as the old F with Z cleared. */
  function InstrRra(m: Machine, opcode: bv8): (r: Machine)
    ensures A(r.ctx) == (A(m.ctx) >> 1) | (CarryBit(F(m.ctx)) << 7)
    ensures F(r.ctx) == F(m.ctx) & !MaskZ
    ensures r.ctx.(af := m.ctx.af) == m.ctx.(cycles := m.ctx.cycles + 1) && r.mem == m.mem
  {
    var status := F(m.ctx);
    var m1 := RrR8(m, R8A);
    AddCycles(SetStatus(m1, status & !MaskZ), 1)
  }

  /** RRCA undoes RLCA on A; the flags lose only Z. */
  lemma RlcaThenRrca(m: Machine, op1: bv8, op2: bv8)
    ensures A(InstrRrca(InstrRlca(m, op1), op2).ctx) == A(m.ctx)
    ensures F(InstrRrca(InstrRlca(m, op1), op2).ctx) == F(m.ctx) & !MaskZ
  {
    var v := A(m.ctx);
    assert v.RotateLeft(1).RotateRight(1) == v;
  }

  /** CPL: complements A and leaves exactly N and H set. */
  function InstrCpl(m: Machine, opcode: bv8): (r: Machine)
    ensures A(r.ctx) == !A(m.ctx)
    ensures F(r.ctx) == MaskN | MaskH
    ensures r.ctx.(af := m.ctx.af) == m.ctx.(cycles := m.ctx.cycles + 1) && r.mem == m.mem
  {
    var c := m.ctx;
    var m1 := m.(ctx := c.(af := c.af.(hi := !A(c))));
    AddCycles(SetStatus(m1, MaskN | MaskH), 1)
  }

  /** CPL undoes itself on A; the flags stay at N and H, whatever they were. */
  lemma CplTwice(m: Machine, op1: bv8, op2: bv8)
    ensures var r := InstrCpl(InstrCpl(m, op1), op2);
      r.ctx == m.ctx.(af := m.ctx.af.(lo := MaskN | MaskH), cycles := m.ctx.cycles + 2) && r.mem == m.mem
  {
  }

  /** SCF: keeps Z, sets C, clears N and H. */
  function InstrScf(m: Machine, opcode: bv8): (r: Machine)
    ensures CSet(F(r.ctx)) && !NSet(F(r.ctx)) && !HSet(F(r.ctx))
    ensures ZSet(F(r.ctx)) == ZSet(F(m.ctx)) && A(r.ctx) == A(m.ctx)
    ensures F(r.ctx) & 0x0F == 0
    ensures r.ctx.(af := m.ctx.af) == m.ctx.(cycles := m.ctx.cycles + 1) && r.mem == m.mem
  {
    var prev := F(m.ctx);
    AddCycles(SetStatus(m, (prev & MaskZ) | MaskC), 1)
  }

  /** CCF: keeps Z, complements C, clears N and H. */
  function InstrCcf(m: Machine, opcode: bv8): (r: Machine)
    ensures CSet(F(r.ctx)) == !CSet(F(m.ctx)) && !NSet(F(r.ctx)) && !HSet(F(r.ctx))
    ensures ZSet(F(r.ctx)) == ZSet(F(m.ctx)) && A(r.ctx) == A(m.ctx)
    ensures F(r.ctx) & 0x0F == 0
    ensures r.ctx.(af := m.ctx.af) == m.ctx.(cycles := m.ctx.cycles + 1) && r.mem == m.mem
  {
    var prev := F(m.ctx);
    AddCycles(SetStatus(m, (prev & MaskZ) | (!prev & MaskC)), 1)
  }

  /** CCF twice gives C back; of the old flags only Z and C survive. */
  lemma CcfTwice(m: Machine, op1: bv8, op2: bv8)
    ensures F(InstrCcf(InstrCcf(m, op1), op2).ctx) == F(m.ctx) & (MaskZ | MaskC)
  {
  }

  /** CCF after SCF leaves C clear, whatever C was before. */
  lemma ScfThenCcf(m: Machine, op1: bv8, op2: bv8)
    ensures !CSet(F(InstrCcf(InstrScf(m, op1), op2).ctx))
  {
  }

  /** JR imm8: PC moves by the signed offset from just past the immediate. */
  function InstrJrImm8(m: Machine, opcode: bv8): (r: Machine)
    ensures r.ctx.pc == m.ctx.pc + 1 + SignExtend(Imm8(m))
    ensures r.ctx.cycles == m.ctx.cycles + 3
    ensures r.ctx.(pc := m.ctx.pc, cycles := m.ctx.cycles) == m.ctx && r.mem == m.mem
  {
    var m1 := SkipImm(m, 1);
    var target := JumpRelative(m1.ctx.pc, Imm8(m));
    assert target == m.ctx.pc + 1 + SignExtend(Imm8(m));
    AddCycles(m1.(ctx := m1.ctx.(pc := target)), 3)
  }

  /** JR cc, imm8: taken costs 3 cycles, not taken 2 and leaves PC past the immediate. */
  function InstrJrCondImm8(m: Machine, opcode: bv8): (r: Machine)
    ensures IsBranchTaken(F(m.ctx), OpCond(opcode)) ==> r.ctx.pc == m.ctx.pc + 1 + SignExtend(Imm8(m)) && r.ctx.cycles == m.ctx.cycles + 3
    ensures !IsBranchTaken(F(m.ctx), OpCond(opcode)) ==> r.ctx.pc == m.ctx.pc + 1 && r.ctx.cycles == m.ctx.cycles + 2
    ensures r.ctx.(pc := m.ctx.pc, cycles := m.ctx.cycles) == m.ctx && r.mem == m.mem
  {
    var m1 := SkipImm(m, 1);
    if !IsBranchTaken(F(m1.ctx), OpCond(opcode)) then AddCycles(m1, 2)
    else
      var target := JumpRelative(m1.ctx.pc, Imm8(m));
      assert target == m.ctx.pc + 1 + SignExtend(Imm8(m));
      AddCycles(m1.(ctx := m1.ctx.(pc := target)), 3)
  }

  // ---------------------------------------------------------------------------
  // Blocks 1 and 2

  /** LD r8, r8: source in bits 2..0, destination in bits 5..3. */
  function InstrLdR8R8(m: Machine, opcode: bv8): (r: Machine)
    ensures ReadReg8(r, OpMid3(opcode)) == ReadReg8(m, OpLow3(opcode))
    ensures r.ctx.pc == m.ctx.pc && F(r.ctx) == F(m.ctx)
    ensures Keeps8(m, r, OpMid3(opcode))
    ensures r.ctx.cycles == m.ctx.cycles + (if OpMid3(opcode) == R8HLMem then 2 else 1)
  {
    var v := ReadReg8(m, OpLow3(opcode));
    var dest := OpMid3(opcode);
    var m1 := WriteReg8(m, dest, v);
    if dest == R8HLMem then AddCycles(m1, 2) else AddCycles(m1, 1)
  }

  /** LD r, r on a register is a no-op apart from the cycle it costs. (The one
      same-operand encoding on [HL], 0x76, is HALT in the table.) */
  lemma LdSelfIsNop(m: Machine, opcode: bv8)
    requires OpMid3(opcode) == OpLow3(opcode) && OpLow3(opcode) != R8HLMem
    ensures InstrLdR8R8(m, opcode) == AddCycles(m, 1)
  {
  }

  /** LD d, s followed by LD s, d on two registers: both end up holding the
      original value of s. */
  lemma LdCopyBack(m: Machine, there: bv8, back: bv8)
    requires OpMid3(back) == OpLow3(there) && OpLow3(back) == OpMid3(there)
    requires OpLow3(there) != R8HLMem && OpMid3(there) != R8HLMem
    ensures var r := InstrLdR8R8(InstrLdR8R8(m, there), back);
      && ReadReg8(r, OpLow3(there)) == ReadReg8(m, OpLow3(there))
      && ReadReg8(r, OpMid3(there)) == ReadReg8(m, OpLow3(there))
  {
  }

  /** ALU A, r8: operation in bits 5..3, operand in bits 2..0. */
  function InstrAluOpR8(m: Machine, opcode: bv8): (r: Machine)
    ensures var res := Alu8(OpMid3(opcode), A(m.ctx), F(m.ctx), ReadReg8(m, OpLow3(opcode)));
      A(r.ctx) == res.acc && F(r.ctx) == res.Flags()
    ensures r.ctx.(af := m.ctx.af, cycles := m.ctx.cycles) == m.ctx && r.mem == m.mem
    ensures r.ctx.cycles == m.ctx.cycles + (if OpLow3(opcode) == R8HLMem then 2 else 1)
  {
    var v := ReadReg8(m, OpLow3(opcode));
    var m1 := m.(ctx := AluOp8(m.ctx, OpMid3(opcode), v));
    if OpLow3(opcode) == R8HLMem then AddCycles(m1, 2) else AddCycles(m1, 1)
  }

  /** ALU A, imm8: always two cycles. */
  function InstrAluOpImm8(m: Machine, opcode: bv8): (r: Machine)
    ensures var res := Alu8(OpMid3(opcode), A(m.ctx), F(m.ctx), Imm8(m));
      A(r.ctx) == res.acc && F(r.ctx) == res.Flags()
    ensures r.ctx.(af := m.ctx.af) == m.ctx.(pc := m.ctx.pc + 1, cycles := m.ctx.cycles + 2)
    ensures r.mem == m.mem
  {
    var m1 := SkipImm(m, 1);
    AddCycles(m1.(ctx := AluOp8(m1.ctx, OpMid3(opcode), Imm8(m))), 2)
  }

  // ---------------------------------------------------------------------------
  // Block 3: returns, jumps, calls, stack

  /** The word a return or POP reads: low byte at SP, high byte at SP + 1. */
  function PoppedWord(m: Machine): (r: bv16)
    ensures RegLow(r) == Load(m.mem, m.ctx.sp) && RegHigh(r) == Load(m.mem, m.ctx.sp + 1)
  {
    RegFull(Load(m.mem, m.ctx.sp + 1), Load(m.mem, m.ctx.sp))
  }

  /** RET cc: taken pops PC and costs 5 cycles, not taken costs 2. */
  function InstrRetCond(m: Machine, opcode: bv8): (r: Machine)
    ensures IsBranchTaken(F(m.ctx), OpCond(opcode)) ==>
      r.ctx.pc == PoppedWord(m) && r.ctx.sp == m.ctx.sp + 2 && r.ctx.cycles == m.ctx.cycles + 5
    ensures !IsBranchTaken(F(m.ctx), OpCond(opcode)) ==> r.ctx == m.ctx.(cycles := m.ctx.cycles + 2)
    ensures r.ctx.(pc := m.ctx.pc, sp := m.ctx.sp, cycles := m.ctx.cycles) == m.ctx && r.mem == m.mem
  {
    if !IsBranchTaken(F(m.ctx), OpCond(opcode)) then AddCycles(m, 2)
    else AddCycles(m.(ctx := m.ctx.(sp := m.ctx.sp + 2, pc := PoppedWord(m))), 5)
  }

  /** RET: POP PC, 4 cycles. */
  function InstrRet(m: Machine, opcode: bv8): (r: Machine)
    ensures r.ctx == m.ctx.(pc := PoppedWord(m), sp := m.ctx.sp + 2, cycles := m.ctx.cycles + 4)
    ensures r.mem == m.mem
  {
    AddCycles(m.(ctx := m.ctx.(sp := m.ctx.sp + 2, pc := PoppedWord(m))), 4)
  }

  /** JP cc, imm16: the immediate is read either way; taken costs 4 cycles, not
      taken 3. */
  function InstrJpCond(m: Machine, opcode: bv8): (r: Machine)
    ensures IsBranchTaken(F(m.ctx), OpCond(opcode)) ==> r.ctx.pc == Imm16(m) && r.ctx.cycles == m.ctx.cycles + 4
    ensures !IsBranchTaken(F(m.ctx), OpCond(opcode)) ==> r.ctx.pc == m.ctx.pc + 2 && r.ctx.cycles == m.ctx.cycles + 3
    ensures r.ctx.(pc := m.ctx.pc, cycles := m.ctx.cycles) == m.ctx && r.mem == m.mem
  {
    var m1 := SkipImm(m, 2);
    if !IsBranchTaken(F(m1.ctx), OpCond(opcode)) then AddCycles(m1, 3)
    else AddCycles(m1.(ctx := m1.ctx.(pc := Imm16(m))), 4)
  }

  /** JP imm16 */
  function InstrJpImm16(m: Machine, opcode: bv8): (r: Machine)
    ensures r.ctx == m.ctx.(pc := Imm16(m), cycles := m.ctx.cycles + 4)
    ensures r.mem == m.mem
  {
    var m1 := SkipImm(m, 2);
    AddCycles(m1.(ctx := m1.ctx.(pc := Imm16(m))), 4)
  }

  /** JP HL */
  function InstrJpHl(m: Machine, opcode: bv8): (r: Machine)
    ensures r.ctx == m.ctx.(pc := m.ctx.hl.Full(), cycles := m.ctx.cycles + 1) && r.mem == m.mem
  {
    AddCycles(m.(ctx := m.ctx.(pc := m.ctx.hl.Full())), 1)
  }

  /** The two stack writes of CALL and PUSH as written: REGHIGH(v) at SP, then
      REGLOW(v) at SP - 1 (post-decrement), so the top of stack afterwards, SP - 2,
      sits one byte below the pushed word. */
  function PushBytesAsWritten(mem: Memory, sp: bv16, v: bv16): (r: Memory)
    ensures Load(r, sp) == RegHigh(v) && Load(r, sp - 1) == RegLow(v)
    ensures forall x: bv16 {:trigger Load(r, x)} :: x != sp && x != sp - 1 ==> Load(r, x) == Load(mem, x)
  {
    Store(Store(mem, sp, RegHigh(v)), sp - 1, RegLow(v))
  }

  /** CALL cc, imm16: taken pushes the address past the immediate and costs 6
      cycles, not taken costs 3 and leaves memory alone. */
  function InstrCallCondImm16AsWritten(m: Machine, opcode: bv8): (r: Machine)
    ensures IsBranchTaken(F(m.ctx), OpCond(opcode)) ==>
      && r.ctx == m.ctx.(pc := Imm16(m), sp := m.ctx.sp - 2, cycles := m.ctx.cycles + 6)
      && Load(r.mem, m.ctx.sp) == RegHigh(m.ctx.pc + 2)
      && Load(r.mem, m.ctx.sp - 1) == RegLow(m.ctx.pc + 2)
    ensures IsBranchTaken(F(m.ctx), OpCond(opcode)) ==>
      forall x: bv16 {:trigger Load(r.mem, x)} :: x != m.ctx.sp && x != m.ctx.sp - 1 ==> Load(r.mem, x) == Load(m.mem, x)
    ensures !IsBranchTaken(F(m.ctx), OpCond(opcode)) ==>
      r.ctx == m.ctx.(pc := m.ctx.pc + 2, cycles := m.ctx.cycles + 3) && r.mem == m.mem
  {
    if !IsBranchTaken(F(m.ctx), OpCond(opcode)) then AddCycles(SkipImm(m, 2), 3)
    else
      // read_imm16 has moved PC past the immediate when PC is pushed
      Machine(m.ctx.(pc := Imm16(m), sp := m.ctx.sp - 2, cycles := m.ctx.cycles + 6), PushBytesAsWritten(m.mem, m.ctx.sp, m.ctx.pc + 2))
  }

  /** CALL imm16: pushes the address past the immediate, 6 cycles. */
  function InstrCallImm16AsWritten(m: Machine, opcode: bv8): (r: Machine)
    ensures r.ctx == m.ctx.(pc := Imm16(m), sp := m.ctx.sp - 2, cycles := m.ctx.cycles + 6)
    ensures Load(r.mem, m.ctx.sp) == RegHigh(m.ctx.pc + 2) && Load(r.mem, m.ctx.sp - 1) == RegLow(m.ctx.pc + 2)
    ensures forall x: bv16 {:trigger Load(r.mem, x)} :: x != m.ctx.sp && x != m.ctx.sp - 1 ==> Load(r.mem, x) == Load(m.mem, x)
  {
    // read_imm16 has moved PC past the immediate when PC is pushed
    Machine(m.ctx.(pc := Imm16(m), sp := m.ctx.sp - 2, cycles := m.ctx.cycles + 6), PushBytesAsWritten(m.mem, m.ctx.sp, m.ctx.pc + 2))
  }

  /** The two stack writes with SP decremented BEFORE each write: REGHIGH(v) at
      the old SP - 1, then REGLOW(v) at the new SP (`top`, the old SP - 2), so the
      word lies low byte first at the new top of stack -- where POP and RET read it. */
  function PushBytes(mem: Memory, top: bv16, v: bv16): (r: Memory)
    ensures Load(r, top) == RegLow(v) && Load(r, top + 1) == RegHigh(v)
    ensures forall x: bv16 {:trigger Load(r, x)} :: x != top && x != top + 1 ==> Load(r, x) == Load(mem, x)
  {
    Store(Store(mem, top + 1, RegHigh(v)), top, RegLow(v))
  }

  /** CALL cc, imm16 with the pre-decrementing push. */
  function InstrCallCondImm16(m: Machine, opcode: bv8): (r: Machine)
    ensures IsBranchTaken(F(m.ctx), OpCond(opcode)) ==>
      && r.ctx == m.ctx.(pc := Imm16(m), sp := m.ctx.sp - 2, cycles := m.ctx.cycles + 6)
      && Load(r.mem, r.ctx.sp) == RegLow(m.ctx.pc + 2)
      && Load(r.mem, r.ctx.sp + 1) == RegHigh(m.ctx.pc + 2)
    ensures IsBranchTaken(F(m.ctx), OpCond(opcode)) ==>
      forall x: bv16 {:trigger Load(r.mem, x)} :: x != m.ctx.sp - 2 && x != m.ctx.sp - 1 ==> Load(r.mem, x) == Load(m.mem, x)
    ensures !IsBranchTaken(F(m.ctx), OpCond(opcode)) ==>
      r.ctx == m.ctx.(pc := m.ctx.pc + 2, cycles := m.ctx.cycles + 3) && r.mem == m.mem
  {
    if !IsBranchTaken(F(m.ctx), OpCond(opcode)) then AddCycles(SkipImm(m, 2), 3)
    else Machine(m.ctx.(pc := Imm16(m), sp := m.ctx.sp - 2, cycles := m.ctx.cycles + 6), PushBytes(m.mem, m.ctx.sp - 2, m.ctx.pc + 2))
  }

  /** CALL imm16 with the pre-decrementing push. */
  function InstrCallImm16(m: Machine, opcode: bv8): (r: Machine)
    ensures r.ctx == m.ctx.(pc := Imm16(m), sp := m.ctx.sp - 2, cycles := m.ctx.cycles + 6)
    ensures Load(r.mem, r.ctx.sp) == RegLow(m.ctx.pc + 2) && Load(r.mem, r.ctx.sp + 1) == RegHigh(m.ctx.pc + 2)
    ensures forall x: bv16 {:trigger Load(r.mem, x)} :: x != r.ctx.sp && x != r.ctx.sp + 1 ==> Load(r.mem, x) == Load(m.mem, x)
  {
    Machine(m.ctx.(pc := Imm16(m), sp := m.ctx.sp - 2, cycles := m.ctx.cycles + 6), PushBytes(m.mem, m.ctx.sp - 2, m.ctx.pc + 2))
  }

  /** With the pre-decrementing push, RET after CALL resumes just past the CALL's
      immediate. */
  lemma CallThenRet(m: Machine, call: bv8, ret: bv8)
    ensures InstrRet(InstrCallImm16(m, call), ret).ctx.pc == m.ctx.pc + 2
  {
    CallLeavesReturnOnTop(m, call);
  }

  /** After the pre-decrementing CALL the word at the top of the stack is the
      return address. */
  lemma CallLeavesReturnOnTop(m: Machine, call: bv8)
    ensures PoppedWord(InstrCallImm16(m, call)) == m.ctx.pc + 2
  {
    CallTopLow(m, call);
    CallTopHigh(m, call);
    HalvesDetermine(PoppedWord(InstrCallImm16(m, call)), m.ctx.pc + 2);
  }

  lemma CallTopLow(m: Machine, call: bv8)
    ensures RegLow(PoppedWord(InstrCallImm16(m, call))) == RegLow(m.ctx.pc + 2)
  {
  }

  lemma CallTopHigh(m: Machine, call: bv8)
    ensures RegHigh(PoppedWord(InstrCallImm16(m, call))) == RegHigh(m.ctx.pc + 2)
  {
  }

  /** With the pre-decrementing push, RET after CALL restores SP. */
  lemma CallThenRetSp(m: Machine, call: bv8, ret: bv8)
    ensures InstrRet(InstrCallImm16(m, call), ret).ctx.sp == m.ctx.sp
  {
    var m1 := InstrCallImm16(m, call);
    assert m1.ctx.sp == m.ctx.sp - 2;
    PushReturnsSp(m.ctx.sp);
  }

  /** A 16-bit value is determined by its two bytes. */
  lemma HalvesDetermine(x: bv16, y: bv16)
    requires RegLow(x) == RegLow(y) && RegHigh(x) == RegHigh(y)
    ensures x == y
  {
    RegJoinSplit(x);
    RegJoinSplit(y);
  }

  /** As written, RET after CALL resumes at the address whose high byte is the low
      byte of the return address and whose low byte is whatever lay two below SP. */
  lemma CallThenRetAsWritten(m: Machine, call: bv8, ret: bv8)
    ensures InstrRet(InstrCallImm16AsWritten(m, call), ret).ctx.pc
         == RegFull(RegLow(m.ctx.pc + 2), Load(m.mem, m.ctx.sp - 2))
  {
    var w := PoppedWord(InstrCallImm16AsWritten(m, call));
    CallAsWrittenTopLow(m, call);
    CallAsWrittenTopHigh(m, call);
    HalvesDetermine(w, RegFull(RegLow(m.ctx.pc + 2), Load(m.mem, m.ctx.sp - 2)));
  }

  /** As written, the low byte RET reads after CALL was never written by it. */
  lemma CallAsWrittenTopLow(m: Machine, call: bv8)
    ensures RegLow(PoppedWord(InstrCallImm16AsWritten(m, call))) == Load(m.mem, m.ctx.sp - 2)
  {
    var sp := m.ctx.sp;
    assert sp - 2 != sp && sp - 2 != sp - 1;
  }

  /** As written, the high byte RET reads after CALL is the return address's low byte. */
  lemma CallAsWrittenTopHigh(m: Machine, call: bv8)
    ensures RegHigh(PoppedWord(InstrCallImm16AsWritten(m, call))) == RegLow(m.ctx.pc + 2)
  {
    CallAsWrittenLowersSp(m, call);
    CallAsWrittenStoresLow(m, call);
    OneAboveTop(m.ctx.sp);
  }

  lemma CallAsWrittenLowersSp(m: Machine, call: bv8)
    ensures InstrCallImm16AsWritten(m, call).ctx.sp == m.ctx.sp - 2
  {
  }

  lemma CallAsWrittenStoresLow(m: Machine, call: bv8)
    ensures Load(InstrCallImm16AsWritten(m, call).mem, m.ctx.sp - 1) == RegLow(m.ctx.pc + 2)
  {
  }

  /** A concrete case: CALL 0x0000 from PC 0x0100 over a zero byte returns to
      0x0200 instead of 0x0102. */
  lemma CallRetLosesAddress(m: Machine)
    requires m.ctx.pc == 0x0100 && Load(m.mem, m.ctx.sp - 2) == 0
    ensures InstrRet(InstrCallImm16AsWritten(m, 0xCD), 0xC9).ctx.pc == 0x0200
  {
    CallThenRetAsWritten(m, 0xCD, 0xC9);
  }

  const R16StkBC: bv8 := 0
  const R16StkDE: bv8 := 1
  const R16StkHL: bv8 := 2
  const R16StkAF: bv8 := 3

  /** The pair a stack instruction names (opcode bits 5..4); AF for code 3. */
  function StackPair(c: Context, code: bv8): Pair
  {
    if code == R16StkBC then c.bc
    else if code == R16StkDE then c.de
    else if code == R16StkHL then c.hl
    else c.af
  }

  /** Replaces the named pair; everything else is kept. */
  function SetStackPair(c: Context, code: bv8, p: Pair): (r: Context)
    requires code <= 3
    ensures StackPair(r, code) == p
    ensures forall k: bv8 {:trigger StackPair(r, k)} :: k <= 3 && k != code ==> StackPair(r, k) == StackPair(c, k)
    ensures r.sp == c.sp && r.pc == c.pc && r.cycles == c.cycles && r.ime == c.ime
  {
    if code == R16StkBC then c.(bc := p)
    else if code == R16StkDE then c.(de := p)
    else if code == R16StkHL then c.(hl := p)
    else c.(af := p)
  }

  /** The pair POP assigns: `full` := REGFULL(byte at SP + 1, byte at SP). On a
      little-endian host the byte at SP lands in the `hi` member. */
  function PoppedPair(m: Machine): (p: Pair)
    ensures p == Pair(Load(m.mem, m.ctx.sp), Load(m.mem, m.ctx.sp + 1))
  {
    var p := PairOf(PoppedWord(m));
    PairOfFull(p);
    p
  }

  /** POP r16: the popped pair, SP two higher, 3 cycles. */
  function InstrPopR16Stk(m: Machine, opcode: bv8): (r: Machine)
    ensures StackPair(r.ctx, OpPair(opcode)) == Pair(Load(m.mem, m.ctx.sp), Load(m.mem, m.ctx.sp + 1))
    ensures r.ctx.sp == m.ctx.sp + 2 && r.ctx.pc == m.ctx.pc
    ensures r.ctx.cycles == m.ctx.cycles + 3 && r.mem == m.mem
    ensures forall k: bv8 {:trigger StackPair(r.ctx, k)} :: k <= 3 && k != OpPair(opcode) ==> StackPair(r.ctx, k) == StackPair(m.ctx, k)
    ensures r.ctx.ime == m.ctx.ime
  {
    var c1 := m.ctx.(sp := m.ctx.sp + 2);
    AddCycles(m.(ctx := SetStackPair(c1, OpPair(opcode), PoppedPair(m))), 3)
  }

  /** The stack bytes PUSH writes for a pair: REGHIGH of `full` is the `lo`
      member and REGLOW the `hi` member. */
  function PushPairBytesAsWritten(mem: Memory, sp: bv16, p: Pair): (r: Memory)
    ensures Load(r, sp) == p.lo && Load(r, sp - 1) == p.hi
    ensures forall x: bv16 {:trigger Load(r, x)} :: x != sp && x != sp - 1 ==> Load(r, x) == Load(mem, x)
  {
    PushBytesAsWritten(mem, sp, p.Full())
  }

  /** PUSH r16: the pair's high byte at SP, its low byte at SP - 1, SP two lower,
      4 cycles. */
  function InstrPushR16StkAsWritten(m: Machine, opcode: bv8): (r: Machine)
    ensures Load(r.mem, m.ctx.sp) == StackPair(m.ctx, OpPair(opcode)).lo
    ensures Load(r.mem, m.ctx.sp - 1) == StackPair(m.ctx, OpPair(opcode)).hi
    ensures forall x: bv16 {:trigger Load(r.mem, x)} :: x != m.ctx.sp && x != m.ctx.sp - 1 ==> Load(r.mem, x) == Load(m.mem, x)
    ensures r.ctx == m.ctx.(sp := m.ctx.sp - 2, cycles := m.ctx.cycles + 4)
  {
    Machine(m.ctx.(sp := m.ctx.sp - 2, cycles := m.ctx.cycles + 4), PushPairBytesAsWritten(m.mem, m.ctx.sp, StackPair(m.ctx, OpPair(opcode))))
  }

  /** PUSH then POP restores SP. */
  lemma PushThenPopRestoresSp(m: Machine, push: bv8, pop: bv8)
    ensures InstrPopR16Stk(InstrPushR16StkAsWritten(m, push), pop).ctx.sp == m.ctx.sp
  {
    PushLowersSp(m, push);
    PopReads(InstrPushR16StkAsWritten(m, push), pop);
  }

  /** PUSH then POP does not give the value back: the popped pair's `hi` member
      is the pushed `hi` member, stored one below SP, and its `lo` member is
      whatever lay two below SP. */
  lemma PushThenPopAsWritten(m: Machine, push: bv8, pop: bv8)
    ensures StackPair(InstrPopR16Stk(InstrPushR16StkAsWritten(m, push), pop).ctx, OpPair(pop))
         == Pair(Load(m.mem, m.ctx.sp - 2), StackPair(m.ctx, OpPair(push)).hi)
  {
    PushLowersSp(m, push);
    PushKeepsBelow(m, push);
    PushStoresHi(m, push);
    PopReads(InstrPushR16StkAsWritten(m, push), pop);
    assert m.ctx.sp - 2 + 1 == m.ctx.sp - 1;
  }

  /** PUSH lowers SP by two. */
  lemma PushLowersSp(m: Machine, push: bv8)
    ensures InstrPushR16StkAsWritten(m, push).ctx.sp == m.ctx.sp - 2
  {
  }

  /** PUSH leaves the byte two below SP alone: it becomes the new top of stack. */
  lemma PushKeepsBelow(m: Machine, push: bv8)
    ensures Load(InstrPushR16StkAsWritten(m, push).mem, m.ctx.sp - 2) == Load(m.mem, m.ctx.sp - 2)
  {
    var sp := m.ctx.sp;
    assert sp - 2 != sp && sp - 2 != sp - 1;
  }

  /** PUSH stores the pair's `hi` member one below SP. */
  lemma PushStoresHi(m: Machine, push: bv8)
    ensures Load(InstrPushR16StkAsWritten(m, push).mem, m.ctx.sp - 1) == StackPair(m.ctx, OpPair(push)).hi
  {
  }

  /** POP reads the pair from the two bytes at SP, whatever the machine. */
  lemma PopReads(m: Machine, pop: bv8)
    ensures var m2 := InstrPopR16Stk(m, pop);
      && m2.ctx.sp == m.ctx.sp + 2
      && StackPair(m2.ctx, OpPair(pop)) == Pair(Load(m.mem, m.ctx.sp), Load(m.mem, m.ctx.sp + 1))
  {
  }

  /** A concrete case: BC = 0x1234 pushed over a zero byte pops back as 0x3400. */
  lemma PushPopLosesValue(m: Machine)
    requires m.ctx.bc == PairOf(0x1234) && Load(m.mem, m.ctx.sp - 2) == 0
    ensures StackPair(InstrPopR16Stk(InstrPushR16StkAsWritten(m, 0xC5), 0xC1).ctx, R16StkBC).Full() == 0x3400
  {
    PushThenPopAsWritten(m, 0xC5, 0xC1);
  }

  /** The stack bytes of PUSH with the pre-decrementing write order. */
  function PushPairBytes(mem: Memory, top: bv16, p: Pair): (r: Memory)
    ensures Load(r, top) == p.hi && Load(r, top + 1) == p.lo
    ensures forall x: bv16 {:trigger Load(r, x)} :: x != top && x != top + 1 ==> Load(r, x) == Load(mem, x)
  {
    PushBytes(mem, top, p.Full())
  }

  /** PUSH r16 with the pre-decrementing write order: SP two lower, the pair laid
      out from the new SP up exactly as POP reads it, nothing else written, 4 cycles. */
  function InstrPushR16Stk(m: Machine, opcode: bv8): (r: Machine)
    ensures r.ctx == m.ctx.(sp := m.ctx.sp - 2, cycles := m.ctx.cycles + 4)
    ensures Load(r.mem, r.ctx.sp) == StackPair(m.ctx, OpPair(opcode)).hi
    ensures Load(r.mem, r.ctx.sp + 1) == StackPair(m.ctx, OpPair(opcode)).lo
    ensures forall x: bv16 {:trigger Load(r.mem, x)} :: x != r.ctx.sp && x != r.ctx.sp + 1 ==> Load(r.mem, x) == Load(m.mem, x)
  {
    Machine(m.ctx.(sp := m.ctx.sp - 2, cycles := m.ctx.cycles + 4), PushPairBytes(m.mem, m.ctx.sp - 2, StackPair(m.ctx, OpPair(opcode))))
  }

  /** LD rr, nn then PUSH rr puts the immediate on the stack in the byte order it
      had in the instruction stream: the byte at the old PC at the new SP. */
  lemma LdImmThenPush(m: Machine, load: bv8, push: bv8)
    requires OpPair(load) == OpPair(push) && OpPair(load) < R16SP
    ensures var r := InstrPushR16Stk(InstrLdR16Imm16(m, load), push);
      && Load(r.mem, r.ctx.sp) == Load(m.mem, m.ctx.pc)
      && Load(r.mem, r.ctx.sp + 1) == Load(m.mem, m.ctx.pc + 1)
  {
    LdR16Imm16Layout(m, load);
  }

  /** With the pre-decrementing push, POP gives back the pushed pair, into the
      pair POP names. */
  lemma PushThenPop(m: Machine, push: bv8, pop: bv8)
    ensures StackPair(InstrPopR16Stk(InstrPushR16Stk(m, push), pop).ctx, OpPair(pop)) == StackPair(m.ctx, OpPair(push))
  {
    var m1 := InstrPushR16Stk(m, push);
    var p := StackPair(m.ctx, OpPair(push));
    PopReads(m1, pop);
    assert Load(m1.mem, m1.ctx.sp) == p.hi;
    assert Load(m1.mem, m1.ctx.sp + 1) == p.lo;
  }

  /** With the pre-decrementing push, POP after PUSH restores SP. */
  lemma PushThenPopSp(m: Machine, push: bv8, pop: bv8)
    ensures InstrPopR16Stk(InstrPushR16Stk(m, push), pop).ctx.sp == m.ctx.sp
  {
    var m1 := InstrPushR16Stk(m, push);
    assert m1.ctx.sp == m.ctx.sp - 2;
    PopReads(m1, pop);
    PushReturnsSp(m.ctx.sp);
  }

  /** One byte above the top of a two-byte push is one below the old SP. */
  lemma OneAboveTop(sp: bv16)
    ensures sp - 2 + 1 == sp - 1
  {
  }

  /** Two bytes down and two bytes up is where the stack pointer started. */
  lemma PushReturnsSp(sp: bv16)
    ensures sp - 2 + 2 == sp
  {
  }

  /** LDH [C], A: store A at 0xFF00 + C. */
  function InstrLdhCmemA(m: Machine, opcode: bv8): (r: Machine)
    ensures Load(r.mem, 0xFF00 + m.ctx.bc.lo as bv16) == A(m.ctx)
    ensures forall x: bv16 {:trigger Load(r.mem, x)} :: x != 0xFF00 + m.ctx.bc.lo as bv16 ==> Load(r.mem, x) == Load(m.mem, x)
    ensures r.ctx == m.ctx.(cycles := m.ctx.cycles + 2)
  {
    var addr := 0xFF00 + ReadReg8(m, R8C) as bv16;
    AddCycles(m.(mem := Store(m.mem, addr, ReadReg8(m, R8A))), 2)
  }

  /** LDH [imm8], A: store A at 0xFF00 + imm8. */
  function InstrLdhImm8memA(m: Machine, opcode: bv8): (r: Machine)
    ensures Load(r.mem, 0xFF00 + Imm8(m) as bv16) == A(m.ctx)
    ensures forall x: bv16 {:trigger Load(r.mem, x)} :: x != 0xFF00 + Imm8(m) as bv16 ==> Load(r.mem, x) == Load(m.mem, x)
    ensures r.ctx == m.ctx.(pc := m.ctx.pc + 1, cycles := m.ctx.cycles + 3)
  {
    var m1 := SkipImm(m, 1);
    var addr := 0xFF00 + Imm8(m) as bv16;
    AddCycles(m1.(mem := Store(m1.mem, addr, ReadReg8(m1, R8A))), 3)
  }

  /** LD [imm16], A */
  function InstrLdImm16memA(m: Machine, opcode: bv8): (r: Machine)
    ensures Load(r.mem, Imm16(m)) == A(m.ctx)
    ensures forall x: bv16 {:trigger Load(r.mem, x)} :: x != Imm16(m) ==> Load(r.mem, x) == Load(m.mem, x)
    ensures r.ctx == m.ctx.(pc := m.ctx.pc + 2, cycles := m.ctx.cycles + 4)
  {
    var m1 := SkipImm(m, 2);
    AddCycles(m1.(mem := Store(m1.mem, Imm16(m), ReadReg8(m1, R8A))), 4)
  }

  /** LDH A, [C] */
  function InstrLdhACmem(m: Machine, opcode: bv8): (r: Machine)
    ensures A(r.ctx) == Load(m.mem, 0xFF00 + m.ctx.bc.lo as bv16)
    ensures r.ctx.(af := m.ctx.af) == m.ctx.(cycles := m.ctx.cycles + 2) && F(r.ctx) == F(m.ctx)
    ensures r.mem == m.mem
  {
    var addr := 0xFF00 + ReadReg8(m, R8C) as bv16;
    AddCycles(WriteReg8(m, R8A, Load(m.mem, addr)), 2)
  }

  /** LDH A, [imm8] */
  function InstrLdhAImm8mem(m: Machine, opcode: bv8): (r: Machine)
    ensures A(r.ctx) == Load(m.mem, 0xFF00 + Imm8(m) as bv16)
    ensures r.ctx.(af := m.ctx.af) == m.ctx.(pc := m.ctx.pc + 1, cycles := m.ctx.cycles + 3)
    ensures F(r.ctx) == F(m.ctx) && r.mem == m.mem
  {
    var m1 := SkipImm(m, 1);
    AddCycles(WriteReg8(m1, R8A, Load(m1.mem, 0xFF00 + Imm8(m) as bv16)), 3)
  }

  /** LD A, [imm16] */
  function InstrLdAImm16mem(m: Machine, opcode: bv8): (r: Machine)
    ensures A(r.ctx) == Load(m.mem, Imm16(m))
    ensures r.ctx.(af := m.ctx.af) == m.ctx.(pc := m.ctx.pc + 2, cycles := m.ctx.cycles + 4)
    ensures F(r.ctx) == F(m.ctx) && r.mem == m.mem
  {
    var m1 := SkipImm(m, 2);
    AddCycles(WriteReg8(m1, R8A, Load(m1.mem, Imm16(m))), 4)
  }

  /** LDH A, [C] right after LDH [C], A reads back A: the load changes nothing
      but the cycle counter. */
  lemma LdhStoreThenLoad(m: Machine, store: bv8, load: bv8)
    ensures var m1 := InstrLdhCmemA(m, store);
      InstrLdhACmem(m1, load) == AddCycles(m1, 2)
  {
  }

  /** LDH [C], A right after LDH A, [C] writes back the byte it read: memory is
      as it was. */
  lemma LdhLoadThenStore(m: Machine, load: bv8, store: bv8)
    ensures forall x: bv16 {:trigger Load(m.mem, x)} ::
      Load(InstrLdhCmemA(InstrLdhACmem(m, load), store).mem, x) == Load(m.mem, x)
  {
  }

  /** LDH A, [n] naming the port LDH [n], A just wrote reads back A. */
  lemma LdhImm8StoreThenLoad(m: Machine, store: bv8, load: bv8)
    requires Imm8(InstrLdhImm8memA(m, store)) == Imm8(m)
    ensures A(InstrLdhAImm8mem(InstrLdhImm8memA(m, store), load).ctx) == A(m.ctx)
  {
  }

  /** LD A, [nn] naming the address LD [nn], A just wrote reads back A. */
  lemma LdImm16StoreThenLoad(m: Machine, store: bv8, load: bv8)
    requires Imm16(InstrLdImm16memA(m, store)) == Imm16(m)
    ensures A(InstrLdAImm16mem(InstrLdImm16memA(m, store), load).ctx) == A(m.ctx)
  {
  }

  function InstrLdSpHl(m: Machine, opcode: bv8): (r: Machine)
    ensures r.ctx == m.ctx.(sp := m.ctx.hl.Full(), cycles := m.ctx.cycles + 2) && r.mem == m.mem
  {
    AddCycles(m.(ctx := WriteReg16(m.ctx, R16SP, ReadReg16(m.ctx, R16HL))), 2)
  }

  // ---------------------------------------------------------------------------
  // Prefixed (second-table) handlers; operand code in bits 2..0

  /** Cycle cost of a prefixed operation: 4 on [HL], 2 on a register. */
  function PrefixCost(code: bv8): nat { if code == R8HLMem then 4 else 2 }

  function InstrRlcR8(m: Machine, opcode: bv8): (r: Machine)
    ensures ReadReg8(r, OpLow3(opcode)) == ReadReg8(m, OpLow3(opcode)).RotateLeft(1)
    ensures var v := ReadReg8(m, OpLow3(opcode));
      && (CSet(F(r.ctx)) <==> v & 0x80 == 0)
      && (ZSet(F(r.ctx)) <==> v != 0)
      && F(r.ctx) & 0x6F == 0
    ensures Keeps8(m, r, OpLow3(opcode)) && r.ctx.pc == m.ctx.pc
    ensures r.ctx.cycles == m.ctx.cycles + PrefixCost(OpLow3(opcode))
  {
    AddCycles(RlcR8(m, OpLow3(opcode)), PrefixCost(OpLow3(opcode)))
  }

  function InstrRrcR8(m: Machine, opcode: bv8): (r: Machine)
    ensures ReadReg8(r, OpLow3(opcode)) == ReadReg8(m, OpLow3(opcode)).RotateRight(1)
    ensures var v := ReadReg8(m, OpLow3(opcode));
      && (CSet(F(r.ctx)) <==> v & 1 == 0)
      && (ZSet(F(r.ctx)) <==> v != 0)
      && F(r.ctx) & 0x6F == 0
    ensures Keeps8(m, r, OpLow3(opcode)) && r.ctx.pc == m.ctx.pc
    ensures r.ctx.cycles == m.ctx.cycles + PrefixCost(OpLow3(opcode))
  {
    AddCycles(RrcR8(m, OpLow3(opcode)), PrefixCost(OpLow3(opcode)))
  }

  function InstrRlR8(m: Machine, opcode: bv8): (r: Machine)
    ensures ReadReg8(r, OpLow3(opcode)) == (ReadReg8(m, OpLow3(opcode)) << 1) | CarryBit(F(m.ctx))
    ensures var v := ReadReg8(m, OpLow3(opcode));
      && (CSet(F(r.ctx)) <==> v & 0x80 == 0)
      && (ZSet(F(r.ctx)) <==> ReadReg8(r, OpLow3(opcode)) != 0)
      && F(r.ctx) & 0x6F == 0
    ensures Keeps8(m, r, OpLow3(opcode)) && r.ctx.pc == m.ctx.pc
    ensures r.ctx.cycles == m.ctx.cycles + PrefixCost(OpLow3(opcode))
  {
    AddCycles(RlR8(m, OpLow3(opcode)), PrefixCost(OpLow3(opcode)))
  }

  function InstrRrR8(m: Machine, opcode: bv8): (r: Machine)
    ensures ReadReg8(r, OpLow3(opcode)) == (ReadReg8(m, OpLow3(opcode)) >> 1) | (CarryBit(F(m.ctx)) << 7)
    ensures var v := ReadReg8(m, OpLow3(opcode));
      && (CSet(F(r.ctx)) <==> v & 1 == 0)
      && (ZSet(F(r.ctx)) <==> ReadReg8(r, OpLow3(opcode)) != 0)
      && F(r.ctx) & 0x6F == 0
    ensures Keeps8(m, r, OpLow3(opcode)) && r.ctx.pc == m.ctx.pc
    ensures r.ctx.cycles == m.ctx.cycles + PrefixCost(OpLow3(opcode))
  {
    AddCycles(RrR8(m, OpLow3(opcode)), PrefixCost(OpLow3(opcode)))
  }

  /** RRC undoes RLC on a register operand. */
  lemma RlcThenRrc(m: Machine, op1: bv8, op2: bv8)
    requires OpLow3(op1) == OpLow3(op2) && OpLow3(op1) != R8HLMem
    ensures ReadReg8(InstrRrcR8(InstrRlcR8(m, op1), op2), OpLow3(op1)) == ReadReg8(m, OpLow3(op1))
  {
    var v := ReadReg8(m, OpLow3(op1));
    assert v.RotateLeft(1).RotateRight(1) == v;
  }

  /** SLA: shift left, C from the old bit 7 (inverted), Z inverted. */
  function InstrSlaR8(m: Machine, opcode: bv8): (r: Machine)
    ensures var v := ReadReg8(m, OpLow3(opcode));
      && ReadReg8(r, OpLow3(opcode)) == v << 1
      && (CSet(F(r.ctx)) <==> v & 0x80 == 0)
      && (ZSet(F(r.ctx)) <==> v << 1 != 0)
      && F(r.ctx) & 0x6F == 0
    ensures Keeps8(m, r, OpLow3(opcode)) && r.ctx.pc == m.ctx.pc
    ensures r.ctx.cycles == m.ctx.cycles + PrefixCost(OpLow3(opcode))
  {
    var code := OpLow3(opcode);
    var v := ReadReg8(m, code);
    var res := v << 1;
    var m1 := WriteReg8(m, code, res);
    var status := StatusSet(StatusSet(0, MaskZ, res == 0), MaskC, v >> 7 != 0);
    AddCycles(SetStatus(m1, status), PrefixCost(code))
  }

  /** SRA: shift right keeping bit 7, C from the old bit 0 (inverted), Z inverted. */
  function InstrSraR8(m: Machine, opcode: bv8): (r: Machine)
    ensures var v := ReadReg8(m, OpLow3(opcode));
      && ReadReg8(r, OpLow3(opcode)) == (v >> 1) | (v & 0x80)
      && (CSet(F(r.ctx)) <==> v & 1 == 0)
      && (ZSet(F(r.ctx)) <==> v & 0xFE != 0)
      && F(r.ctx) & 0x6F == 0
    ensures Keeps8(m, r, OpLow3(opcode)) && r.ctx.pc == m.ctx.pc
    ensures r.ctx.cycles == m.ctx.cycles + PrefixCost(OpLow3(opcode))
  {
    var code := OpLow3(opcode);
    var v := ReadReg8(m, code);
    var res := (v >> 1) | (v & 0x80);
    var m1 := WriteReg8(m, code, res);
    var status := StatusSet(StatusSet(0, MaskZ, res == 0), MaskC, v & 1 != 0);
    AddCycles(SetStatus(m1, status), PrefixCost(code))
  }

  /** Exchange of the two nibbles of a byte. */
  function Swap8(v: bv8): (r: bv8)
    ensures r & 0x0F == (v >> 4) && r >> 4 == v & 0x0F
  {
    (v >> 4) | ((v & 0x0F) << 4)
  }

  /** SWAP: exchanges nibbles; on a register Z is set iff the result is nonzero
      (inverted helper) and the rest of F cleared; on [HL] F is not touched. */
  function InstrSwapR8(m: Machine, opcode: bv8): (r: Machine)
    ensures ReadReg8(r, OpLow3(opcode)) == Swap8(ReadReg8(m, OpLow3(opcode)))
    ensures OpLow3(opcode) == R8HLMem ==> F(r.ctx) == F(m.ctx)
    ensures OpLow3(opcode) != R8HLMem ==>
      (ZSet(F(r.ctx)) <==> ReadReg8(m, OpLow3(opcode)) != 0) && F(r.ctx) & 0x7F == 0
    ensures Keeps8(m, r, OpLow3(opcode)) && r.ctx.pc == m.ctx.pc
    ensures r.ctx.cycles == m.ctx.cycles + PrefixCost(OpLow3(opcode))
  {
    var code := OpLow3(opcode);
    var swapped := Swap8(ReadReg8(m, code));
    var m1 := WriteReg8(m, code, swapped);
    if code == R8HLMem then AddCycles(m1, 4)
    else
      var status := StatusSet(0, MaskZ, swapped == 0);
      AddCycles(SetStatus(m1, status), 2)
  }

  /** SWAP applied twice gives the operand back. */
  lemma SwapTwice(m: Machine, opcode: bv8)
    ensures ReadReg8(InstrSwapR8(InstrSwapR8(m, opcode), opcode), OpLow3(opcode)) == ReadReg8(m, OpLow3(opcode))
  {
    var v := ReadReg8(m, OpLow3(opcode));
    assert Swap8(Swap8(v)) == v;
  }

  /** SRL: logical shift right, C from the old bit 0 (inverted), Z inverted. */
  function InstrSrlR8(m: Machine, opcode: bv8): (r: Machine)
    ensures var v := ReadReg8(m, OpLow3(opcode));
      && ReadReg8(r, OpLow3(opcode)) == v >> 1
      && (CSet(F(r.ctx)) <==> v & 1 == 0)
      && (ZSet(F(r.ctx)) <==> v >> 1 != 0)
      && F(r.ctx) & 0x6F == 0
    ensures Keeps8(m, r, OpLow3(opcode)) && r.ctx.pc == m.ctx.pc
    ensures r.ctx.cycles == m.ctx.cycles + PrefixCost(OpLow3(opcode))
  {
    var code := OpLow3(opcode);
    var v := ReadReg8(m, code);
    var res := v >> 1;
    var m1 := WriteReg8(m, code, res);
    var status := StatusSet(StatusSet(0, MaskZ, res == 0), MaskC, v & 1 != 0);
    AddCycles(SetStatus(m1, status), PrefixCost(code))
  }

  /** SRL after SLA on the same operand clears bit 7 and keeps the rest. */
  lemma SlaThenSrl(m: Machine, op1: bv8, op2: bv8)
    requires OpLow3(op1) == OpLow3(op2)
    ensures ReadReg8(InstrSrlR8(InstrSlaR8(m, op1), op2), OpLow3(op1)) == ReadReg8(m, OpLow3(op1)) & 0x7F
  {
    var v := ReadReg8(m, OpLow3(op1));
    assert (v << 1) >> 1 == v & 0x7F;
  }

  /** SLA after SRL on the same operand clears bit 0 and keeps the rest. */
  lemma SrlThenSla(m: Machine, op1: bv8, op2: bv8)
    requires OpLow3(op1) == OpLow3(op2)
    ensures ReadReg8(InstrSlaR8(InstrSrlR8(m, op1), op2), OpLow3(op1)) == ReadReg8(m, OpLow3(op1)) & 0xFE
  {
    var v := ReadReg8(m, OpLow3(op1));
    assert (v >> 1) << 1 == v & 0xFE;
  }

  /** SLA after SRA on the same operand also clears only bit 0: the copied sign
      bit is shifted out again. */
  lemma SraThenSla(m: Machine, op1: bv8, op2: bv8)
    requires OpLow3(op1) == OpLow3(op2)
    ensures ReadReg8(InstrSlaR8(InstrSraR8(m, op1), op2), OpLow3(op1)) == ReadReg8(m, OpLow3(op1)) & 0xFE
  {
    var v := ReadReg8(m, OpLow3(op1));
    assert ((v >> 1) | (v & 0x80)) << 1 == v & 0xFE;
  }

  /** BIT b, r8: never writes its operand. Its `res` is the operand itself, so Z
      follows the whole operand (set iff nonzero, inverted helper), N is set and
      H cleared (both inverted), C kept. [HL] costs 3 cycles, a register 2. */
  function InstrBitB3R8(m: Machine, opcode: bv8): (r: Machine)
    ensures r.mem == m.mem
    ensures r.ctx.(af := m.ctx.af, cycles := m.ctx.cycles) == m.ctx && A(r.ctx) == A(m.ctx)
    ensures var f := F(r.ctx);
      && (ZSet(f) <==> ReadReg8(m, OpLow3(opcode)) != 0)
      && NSet(f) && !HSet(f) && CSet(f) == CSet(F(m.ctx))
      && f & 0x0F == F(m.ctx) & 0x0F
    ensures r.ctx.cycles == m.ctx.cycles + (if OpLow3(opcode) == R8HLMem then 3 else 2)
  {
    var status := F(m.ctx);
    var code := OpLow3(opcode);
    var bitSelect := OpMid3(opcode);
    var v := ReadReg8(m, code);
    var res := BitTestResult(v, bitSelect);
    var s1 := StatusSet(status, MaskZ, res == 0);
    var s2 := StatusSet(s1, MaskN, false);
    var s3 := StatusSet(s2, MaskH, true);
    var m1 := SetStatus(m, s3);
    if code == R8HLMem then AddCycles(m1, 3) else AddCycles(m1, 2)
  }

  /** The value BIT computes before setting Z: the operand with the tested bit
      forced to its own value, which is the operand unchanged. */
  function BitTestResult(v: bv8, b: bv8): (res: bv8)
    requires b <= 7
    ensures res == v
  {
    var selectMask: bv8 := 1 << b;
    var bitSet := (v >> b) & 1;
    if bitSet != 0 then v | selectMask else v & !selectMask
  }

  /** RES b, r8: clears bit b and nothing else; F untouched. */
  function InstrResB3R8(m: Machine, opcode: bv8): (r: Machine)
    ensures var b := OpMid3(opcode); var v := ReadReg8(m, OpLow3(opcode)); var w := ReadReg8(r, OpLow3(opcode));
      && (w >> b) & 1 == 0
      && w & !(1 << b) == v & !(1 << b)
    ensures F(r.ctx) == F(m.ctx)
    ensures Keeps8(m, r, OpLow3(opcode)) && r.ctx.pc == m.ctx.pc
    ensures r.ctx.cycles == m.ctx.cycles + PrefixCost(OpLow3(opcode))
  {
    var code := OpLow3(opcode);
    var bitSelect := OpMid3(opcode);
    var v := ReadReg8(m, code);
    var mask: bv8 := 1 << bitSelect;
    AddCycles(WriteReg8(m, code, v & !mask), PrefixCost(code))
  }

  /** SET b, r8: sets bit b and nothing else; F untouched. */
  function InstrSetB3R8(m: Machine, opcode: bv8): (r: Machine)
    ensures var b := OpMid3(opcode); var v := ReadReg8(m, OpLow3(opcode)); var w := ReadReg8(r, OpLow3(opcode));
      && (w >> b) & 1 == 1
      && w & !(1 << b) == v & !(1 << b)
    ensures F(r.ctx) == F(m.ctx)
    ensures Keeps8(m, r, OpLow3(opcode)) && r.ctx.pc == m.ctx.pc
    ensures r.ctx.cycles == m.ctx.cycles + PrefixCost(OpLow3(opcode))
  {
    var code := OpLow3(opcode);
    var bitSelect := OpMid3(opcode);
    var v := ReadReg8(m, code);
    var mask: bv8 := 1 << bitSelect;
    AddCycles(WriteReg8(m, code, v | mask), PrefixCost(code))
  }

  /** SET b after RES b on the same operand leaves the operand with bit b set
      and every other bit as it was; a set bit is thus restored. */
  lemma ResThenSet(m: Machine, op1: bv8, op2: bv8)
    requires OpLow3(op1) == OpLow3(op2) && OpMid3(op1) == OpMid3(op2)
    ensures ReadReg8(InstrSetB3R8(InstrResB3R8(m, op1), op2), OpLow3(op1))
         == ReadReg8(m, OpLow3(op1)) | (1 << OpMid3(op1))
  {
    var v := ReadReg8(m, OpLow3(op1));
    var mask: bv8 := 1 << OpMid3(op1);
    var m1 := InstrResB3R8(m, op1);
    ResWrites(m, op1);
    SetWrites(m1, op2);
    assert (v & !mask) | mask == v | mask;
  }

  /** RES b after SET b on the same operand leaves bit b clear and every other
      bit as it was; a clear bit is thus restored. */
  lemma SetThenRes(m: Machine, op1: bv8, op2: bv8)
    requires OpLow3(op1) == OpLow3(op2) && OpMid3(op1) == OpMid3(op2)
    ensures ReadReg8(InstrResB3R8(InstrSetB3R8(m, op1), op2), OpLow3(op1))
         == ReadReg8(m, OpLow3(op1)) & !(1 << OpMid3(op1))
  {
    var v := ReadReg8(m, OpLow3(op1));
    var mask: bv8 := 1 << OpMid3(op1);
    var m1 := InstrSetB3R8(m, op1);
    SetWrites(m, op1);
    ResWrites(m1, op2);
    assert (v | mask) & !mask == v & !mask;
  }

  /** The byte RES leaves in its operand. */
  lemma ResWrites(m: Machine, opcode: bv8)
    ensures ReadReg8(InstrResB3R8(m, opcode), OpLow3(opcode)) == ReadReg8(m, OpLow3(opcode)) & !(1 << OpMid3(opcode))
  {
  }

  /** The byte SET leaves in its operand. */
  lemma SetWrites(m: Machine, opcode: bv8)
    ensures ReadReg8(InstrSetB3R8(m, opcode), OpLow3(opcode)) == ReadReg8(m, OpLow3(opcode)) | (1 << OpMid3(opcode))
  {
  }
}

=== FILE: interrupts.dfy ===
/** The interrupt controller: the IE and IF registers, raising and acknowledging
    a source, choosing the source to service and the vector table. */
module Interrupts {

  const MaskVBlank: bv8 := 0x1
  const MaskTimer: bv8 := 0x2
  const MaskSerial: bv8 := 0x4
  const MaskJoypad: bv8 := 0x8

  /** `interrupt_type_t` below INTERRUPT_TYPE_COUNT, in enum order. */
  datatype InterruptType = VBlank | Stat | Timer | Serial | Joypad | Unknown | NoInterrupt

  /** INTERRUPT_TYPE_COUNT. */
  const TypeCount: nat := 7

  /** The enumerator's value. */
  function Ordinal(t: InterruptType): (n: nat)
    ensures n < TypeCount
  {
    match t
    case VBlank => 0
    case Stat => 1
    case Timer => 2
    case Serial => 3
    case Joypad => 4
    case Unknown => 5
    case NoInterrupt => 6
  }

  /** Only the four sources with a register bit; STAT has a vector but no bit. */
  predicate HasBitmask(t: InterruptType)
  {
    t.VBlank? || t.Timer? || t.Serial? || t.Joypad?
  }

  /** The source's bit in IE and IF. */
  function Bitmask(t: InterruptType): bv8
    requires HasBitmask(t)
  {
    match t
    case VBlank => MaskVBlank
    case Timer => MaskTimer
    case Serial => MaskSerial
    case Joypad => MaskJoypad
  }

  /** The four masks are single bits, and no two share a bit. */
  lemma MasksAreDistinctBits(t: InterruptType, u: InterruptType)
    requires HasBitmask(t) && HasBitmask(u)
    ensures Bitmask(t) != 0 && Bitmask(t) & (Bitmask(t) - 1) == 0
    ensures t != u ==> Bitmask(t) & Bitmask(u) == 0
    ensures Bitmask(t) & 0xF0 == 0
  {
  }

  /** `interrupt_context_t`. */
  datatype Controller = Controller(ie: bv8, iflag: bv8)

  /** The static context starts zeroed, and nothing in the controller ever
      writes IE. */
  const Initial: Controller := Controller(0, 0)

  /** Stands in for whatever will write the IE register; no code shown does. */
  function SetEnable(c: Controller, v: bv8): (r: Controller)
    ensures r.ie == v && r.iflag == c.iflag
  {
    c.(ie := v)
  }

  /** `interrupt_set_flag`: raises exactly the source's bit in IF; STAT, UNKNOWN
      and NONE fall to the default branch and change nothing. */
  function SetFlag(c: Controller, t: InterruptType): (r: Controller)
    ensures r.ie == c.ie
    ensures HasBitmask(t) ==>
      r.iflag & Bitmask(t) == Bitmask(t) && r.iflag & !Bitmask(t) == c.iflag & !Bitmask(t)
    ensures !HasBitmask(t) ==> r == c
  {
    // one switch arm per source with a bitmask, each OR-ing in that mask
    if HasBitmask(t) then c.(iflag := c.iflag | Bitmask(t)) else c
  }

  /** `interrupt_clear_flag`: lowers exactly the source's bit in IF; the other
      three types change nothing. */
  function ClearFlag(c: Controller, t: InterruptType): (r: Controller)
    ensures r.ie == c.ie
    ensures HasBitmask(t) ==>
      r.iflag & Bitmask(t) == 0 && r.iflag & !Bitmask(t) == c.iflag & !Bitmask(t)
    ensures !HasBitmask(t) ==> r == c
  {
    // one switch arm per source with a bitmask, each AND-ing out that mask
    if HasBitmask(t) then c.(iflag := c.iflag & !Bitmask(t)) else c
  }

  /** Raising then acknowledging a source is the same as acknowledging it: the
      bit ends low whatever it was. */
  lemma SetThenClear(c: Controller, t: InterruptType)
    ensures ClearFlag(SetFlag(c, t), t) == ClearFlag(c, t)
  {
    match t
    case VBlank =>
    case Timer =>
    case Serial =>
    case Joypad =>
    case _ =>
  }

  /** Acknowledging then raising a source is the same as raising it. */
  lemma ClearThenSet(c: Controller, t: InterruptType)
    ensures SetFlag(ClearFlag(c, t), t) == SetFlag(c, t)
  {
    match t
    case VBlank =>
    case Timer =>
    case Serial =>
    case Joypad =>
    case _ =>
  }

  /** Raising twice is raising once. */
  lemma SetIdempotent(c: Controller, t: InterruptType)
    ensures SetFlag(SetFlag(c, t), t) == SetFlag(c, t)
  {
    match t
    case VBlank =>
    case Timer =>
    case Serial =>
    case Joypad =>
    case _ =>
  }

  /** Acknowledging twice is acknowledging once. */
  lemma ClearIdempotent(c: Controller, t: InterruptType)
    ensures ClearFlag(ClearFlag(c, t), t) == ClearFlag(c, t)
  {
    match t
    case VBlank =>
    case Timer =>
    case Serial =>
    case Joypad =>
    case _ =>
  }

  /** IE & IF, or nothing when the master enable is zero. */
  function Pending(c: Controller, ime: bv8): bv8
  {
    if ime != 0 then c.ie & c.iflag else 0
  }

  /** `interrupt_get_top`: tests the pending bits from bit 0 upwards. */
  function GetTop(c: Controller, ime: bv8): (r: InterruptType)
    ensures r.NoInterrupt? || HasBitmask(r)
    ensures ime == 0 ==> r.NoInterrupt?
  {
    var vals := Pending(c, ime);
    if vals & MaskVBlank != 0 then VBlank
    else if vals & MaskTimer != 0 then Timer
    else if vals & MaskSerial != 0 then Serial
    else if vals & MaskJoypad != 0 then Joypad
    else NoInterrupt
  }

  /** The selected source is the lowest set bit of IE & IF & 0x0F: its bit is
      pending, every lower bit is not, and nothing is selected exactly when no
      bit of the low nibble is pending. */
  lemma GetTopIsLowestPending(c: Controller, ime: bv8)
    ensures var r := GetTop(c, ime);
      && (r.NoInterrupt? <==> Pending(c, ime) & 0x0F == 0)
      && (HasBitmask(r) ==>
            Pending(c, ime) & Bitmask(r) != 0 && Pending(c, ime) & (Bitmask(r) - 1) == 0)
  {
    var v := Pending(c, ime);
    if v & 1 != 0 {
    } else if v & 2 != 0 {
    } else if v & 4 != 0 {
    } else if v & 8 != 0 {
    } else {
      assert v & 0x0F == 0;
    }
  }

  /** STAT can never be chosen, even when IE and IF both hold its bit position. */
  lemma StatNeverSelected(c: Controller, ime: bv8)
    ensures GetTop(c, ime) != Stat && GetTop(c, ime) != Unknown
  {
  }

  /** With IE still at its initial zero, no source is ever chosen. */
  lemma NothingEnabledNothingSelected(c: Controller, ime: bv8)
    requires c.ie == 0
    ensures GetTop(c, ime).NoInterrupt?
  {
  }

  /** IE = IF = 0x05 selects VBLANK over SERIAL. */
  lemma GetTopExample()
    ensures GetTop(Controller(0x05, 0x05), 1) == VBlank
    ensures GetTop(Controller(0x04, 0x05), 1) == Serial
    ensures GetTop(Controller(0x05, 0x05), 0) == NoInterrupt
  {
  }

  /** `interrupt_vector_addrs`, indexed by the enumerator. */
  const VectorTable: seq<bv16> := [0x40, 0x48, 0x50, 0x58, 0x60, 0x0, 0x0]

  /** `interrupt_get_vector_addr`: every type below COUNT indexes the table. */
  function GetVectorAddr(t: InterruptType): (r: bv16)
    ensures r != 0 <==> Ordinal(t) < 5
    ensures r == 0 || (0x40 <= r <= 0x60 && r & 7 == 0)
  {
    VectorTable[Ordinal(t)]
  }

  /** The five real vectors start at 0x40 and are spaced 8 apart, in enum order;
      UNKNOWN and NONE map to 0. */
  lemma VectorLayout(t: InterruptType)
    ensures |VectorTable| == TypeCount
    ensures Ordinal(t) < 5 ==> GetVectorAddr(t) == 0x40 + 8 * Ordinal(t) as bv16
    ensures Ordinal(t) >= 5 ==> GetVectorAddr(t) == 0
  {
  }

  /** Distinct real sources have distinct, nonzero vectors. */
  lemma VectorsDistinct(t: InterruptType, u: InterruptType)
    requires Ordinal(t) < 5 && Ordinal(u) < 5 && t != u
    ensures GetVectorAddr(t) != GetVectorAddr(u) && GetVectorAddr(t) != 0
  {
  }
}

=== FILE: memory_map.dfy ===
/** The Game Boy address map: twelve inclusive [BASE, END] regions. */
module MemoryMap {

  /** An inclusive address range. */
  datatype Range = Range(base: nat, end: nat)
  {
    predicate Contains(a: nat) { base <= a <= end }
    function Size(): int { end - base + 1 }
  }

  const RomBank00: Range := Range(0x0000, 0x3FFF)
  const RomBanks: Range := Range(0x4000, 0x7FFF)
  const Vram: Range := Range(0x8000, 0x9FFF)
  const ExternalRam: Range := Range(0xA000, 0xBFFF)
  /** WRAM1 in the header; the memory code calls this bank wram0. */
  const Wram1: Range := Range(0xC000, 0xCFFF)
  /** WRAM2 in the header; the memory code calls this bank wram1. */
  const Wram2: Range := Range(0xD000, 0xDFFF)
  const EchoRam: Range := Range(0xE000, 0xFDFF)
  const Oam: Range := Range(0xFE00, 0xFE9F)
  const UnusedRam: Range := Range(0xFEA0, 0xFEFF)
  const IoRegs: Range := Range(0xFF00, 0xFF7F)
  const HighRam: Range := Range(0xFF80, 0xFFFE)
  const InterruptEnable: Range := Range(0xFFFF, 0xFFFF)

  /** The regions in address order. */
  const Regions: seq<Range> := [RomBank00, RomBanks, Vram, ExternalRam, Wram1, Wram2,
                                EchoRam, Oam, UnusedRam, IoRegs, HighRam, InterruptEnable]

  /** Each region is nonempty and ends one below the next region's base. */
  predicate Contiguous(rs: seq<Range>)
  {
    && (forall i :: 0 <= i < |rs| ==> rs[i].base <= rs[i].end)
    && (forall i :: 0 <= i < |rs| - 1 ==> rs[i].end + 1 == rs[i + 1].base)
  }

  /** The header's constants: BASE <= END everywhere, END + 1 = next BASE, from
      0x0000 to 0xFFFF. */
  lemma RegionsContiguous()
    ensures |Regions| == 12
    ensures Contiguous(Regions)
    ensures Regions[0].base == 0 && Regions[11].end == 0xFFFF
  {
  }

  /** In a contiguous list every address between the first base and the last
      end lies in exactly one range. */
  lemma {:induction false} ContiguousCovers(rs: seq<Range>, a: nat)
    requires |rs| > 0 && Contiguous(rs)
    requires rs[0].base <= a <= rs[|rs| - 1].end
    ensures exists i :: 0 <= i < |rs| && rs[i].Contains(a)
  {
    if |rs| == 1 {
      assert rs[0].Contains(a);
    } else if a <= rs[0].end {
      assert rs[0].Contains(a);
    } else {
      var tail := rs[1..];
      assert Contiguous(tail) by {
        forall i | 0 <= i < |tail| ensures tail[i].base <= tail[i].end {
          assert tail[i] == rs[i + 1];
        }
        forall i | 0 <= i < |tail| - 1 ensures tail[i].end + 1 == tail[i + 1].base {
          assert tail[i] == rs[i + 1] && tail[i + 1] == rs[i + 2];
        }
      }
      assert tail[0].base == rs[0].end + 1;
      ContiguousCovers(tail, a);
      var j :| 0 <= j < |tail| && tail[j].Contains(a);
      assert rs[j + 1].Contains(a);
    }
  }

  /** In a contiguous list the bases strictly increase, so no two ranges
      share an address. */
  lemma {:induction false} ContiguousDisjoint(rs: seq<Range>, i: nat, j: nat, a: nat)
    requires Contiguous(rs) && i < j < |rs|
    requires rs[i].Contains(a)
    ensures !rs[j].Contains(a)
    decreases j - i
  {
    if j == i + 1 {
    } else {
      assert rs[j - 1].base <= rs[j - 1].end;
      BasesIncrease(rs, i, j - 1);
    }
  }

  /** Every range after the i-th starts above its end. */
  lemma {:induction false} BasesIncrease(rs: seq<Range>, i: nat, j: nat)
    requires Contiguous(rs) && i < j < |rs|
    ensures rs[i].end < rs[j].base
    decreases j - i
  {
    if j > i + 1 {
      BasesIncrease(rs, i, j - 1);
      assert rs[j - 1].base <= rs[j - 1].end;
    }
  }

  /** The twelve regions partition the 16-bit address space. */
  lemma RegionsPartition(a: nat)
    requires a <= 0xFFFF
    ensures exists i :: 0 <= i < |Regions| && Regions[i].Contains(a)
    ensures forall i, j :: 0 <= i < j < |Regions| && Regions[i].Contains(a) ==> !Regions[j].Contains(a)
  {
    RegionsContiguous();
    ContiguousCovers(Regions, a);
    forall i, j | 0 <= i < j < |Regions| && Regions[i].Contains(a)
      ensures !Regions[j].Contains(a)
    {
      ContiguousDisjoint(Regions, i, j, a);
    }
  }

  /** Echo RAM spans 0x1E00 bytes, each WRAM bank 0x1000; high RAM stops at
      0xFFFE so that the interrupt-enable register is the single byte 0xFFFF. */
  lemma RegionSizes()
    ensures EchoRam.Size() == 0x1E00 && Wram1.Size() == 0x1000 && Wram2.Size() == 0x1000
    ensures HighRam.end == 0xFFFE && InterruptEnable.Size() == 1 && InterruptEnable.base == 0xFFFF
  {
  }
}

=== FILE: optable.dfy ===
/** The opcode-table generator: bit filters such as "00xx_0001" name the
    instruction for every opcode they match, where a character other than '0'
    or '1' is a wildcard and '_' is a separator. Filters are expanded into
    their binary strings, the strings read as numbers, and later filters
    overwrite earlier ones in a 256-entry table. */
module Optable {

  /** `replace('_', '')`. */
  function Strip(f: string): (r: string)
    ensures '_' !in r
    ensures forall c :: c != '_' ==> multiset(r)[c] == multiset(f)[c]
  {
    if |f| == 0 then ""
    else
      assert f == [f[0]] + f[1..];
      if f[0] == '_' then Strip(f[1..]) else [f[0]] + Strip(f[1..])
  }

  /** A string with no separator is left alone. */
  lemma {:induction false} StripWithoutSeparator(f: string)
    requires '_' !in f
    ensures Strip(f) == f
  {
    if |f| > 0 {
      assert '_' !in f[1..] by {
        assert forall c :: c in f[1..] ==> c in f;
      }
      StripWithoutSeparator(f[1..]);
    }
  }

  predicate IsLiteral(c: char) { c == '0' || c == '1' }

  /** A string of '0' and '1' only. */
  predicate IsBinary(w: string)
  {
    forall j :: 0 <= j < |w| ==> IsLiteral(w[j])
  }

  /** A binary string matches a stripped filter of its length when it agrees
      with the filter at every literal position. */
  predicate Matches(f: string, w: string)
  {
    |w| == |f| && IsBinary(w) && forall j :: 0 <= j < |w| ==> IsLiteral(f[j]) ==> w[j] == f[j]
  }

  /** `generate_expansion`: the Python version adds to a shared set; here the
      set is threaded through, the '0' branch first. */
  function GenerateExpansion(og: string, index: nat, generated: string, acc: set<string>): (r: set<string>)
    requires index <= |og|
    ensures acc <= r
    decreases |og| - index
  {
    if index == |og| then acc + {generated}
    else if !IsLiteral(og[index]) then
      GenerateExpansion(og, index + 1, generated + "1", GenerateExpansion(og, index + 1, generated + "0", acc))
    else GenerateExpansion(og, index + 1, generated + [og[index]], acc)
  }

  /** `generate_expansion` adds exactly the completions of `generated` by the
      strings that match the rest of the filter. */
  lemma {:induction false} GenerateExpansionAdds(og: string, index: nat, generated: string, acc: set<string>, w: string)
    requires index <= |og|
    ensures w in GenerateExpansion(og, index, generated, acc) <==>
      w in acc || (|generated| <= |w| && w[..|generated|] == generated && Matches(og[index..], w[|generated|..]))
    decreases |og| - index
  {
    var g := |generated|;
    if index == |og| {
      if |generated| <= |w| && w[..g] == generated && Matches(og[index..], w[g..]) {
        assert w == generated;
      }
    } else {
      var c := og[index];
      var rest := og[index + 1..];
      var tail := og[index..];
      assert tail == [c] + rest;
      if !IsLiteral(c) {
        var acc0 := GenerateExpansion(og, index + 1, generated + "0", acc);
        GenerateExpansionAdds(og, index + 1, generated + "1", acc0, w);
        GenerateExpansionAdds(og, index + 1, generated + "0", acc, w);
        ExtendMatch(tail, generated, c, w, '0');
        ExtendMatch(tail, generated, c, w, '1');
        if g <= |w| && w[..g] == generated && Matches(tail, w[g..]) {
          assert w[g] == '0' || w[g] == '1' by { assert w[g..][0] == w[g]; }
        }
      } else {
        GenerateExpansionAdds(og, index + 1, generated + [c], acc, w);
        ExtendMatch(tail, generated, c, w, c);
        if g <= |w| && w[..g] == generated && Matches(tail, w[g..]) {
          assert w[g..][0] == w[g];
        }
      }
    }
  }

  /** Matching `w` after `generated` against a filter that starts with `c`,
      once the first character is fixed to `d`. */
  lemma ExtendMatch(tail: string, generated: string, c: char, w: string, d: char)
    requires |tail| > 0 && tail[0] == c && IsLiteral(d) && (IsLiteral(c) ==> d == c)
    ensures var g := |generated|;
      (g + 1 <= |w| && w[..g + 1] == generated + [d] && Matches(tail[1..], w[g + 1..])) <==>
      (g <= |w| && w[..g] == generated && w[g..] != [] && w[g] == d && Matches(tail, w[g..]))
  {
    var g := |generated|;
    if g + 1 <= |w| && w[..g + 1] == generated + [d] && Matches(tail[1..], w[g + 1..]) {
      assert w[..g] == w[..g + 1][..g];
      assert w[g] == w[..g + 1][g];
      var s := w[g..];
      assert s == [w[g]] + w[g + 1..];
      forall j | 0 <= j < |s| ensures IsLiteral(s[j]) && (IsLiteral(tail[j]) ==> s[j] == tail[j]) {
        if j > 0 { assert s[j] == w[g + 1..][j - 1] && tail[j] == tail[1..][j - 1]; }
      }
    }
    if g <= |w| && w[..g] == generated && w[g..] != [] && w[g] == d && Matches(tail, w[g..]) {
      assert w[..g + 1] == w[..g] + [w[g]];
      var s := w[g + 1..];
      forall j | 0 <= j < |s| ensures IsLiteral(s[j]) && (IsLiteral(tail[1..][j]) ==> s[j] == tail[1..][j]) {
        assert s[j] == w[g..][j + 1];
      }
    }
  }

  /** `expand_bitfilter`. */
  function ExpandBitfilter(f: string): set<string>
  {
    GenerateExpansion(Strip(f), 0, "", {})
  }

  /** The expansion is exactly the set of binary strings that match the
      stripped filter. */
  lemma ExpandBitfilterMatches(f: string, w: string)
    ensures w in ExpandBitfilter(f) <==> Matches(Strip(f), w)
  {
    GenerateExpansionAdds(Strip(f), 0, "", {}, w);
    assert w[..0] == "" && w[0..] == w && Strip(f)[0..] == Strip(f);
  }

  /** The number of wildcard characters. */
  function Wildcards(f: string): nat
  {
    if |f| == 0 then 0 else (if IsLiteral(f[0]) then 0 else 1) + Wildcards(f[1..])
  }

  function Pow2(n: nat): nat
  {
    if n == 0 then 1 else 2 * Pow2(n - 1)
  }

  /** Every string of a set with one character put in front. */
  function Prepend(c: char, s: set<string>): set<string>
  {
    set w | w in s :: [c] + w
  }

  lemma {:induction false} PrependCard(c: char, s: set<string>)
    ensures |Prepend(c, s)| == |s|
    decreases |s|
  {
    if s != {} {
      var x :| x in s;
      var s' := s - {x};
      PrependCard(c, s');
      assert Prepend(c, s) == Prepend(c, s') + {[c] + x};
      forall y | y in s' ensures [c] + y != [c] + x {
        assert ([c] + y)[1..] == y && ([c] + x)[1..] == x;
      }
    }
  }

  /** The matches of a filter, built from its last position back: a reference
      definition whose size is easy to count. */
  function Completions(f: string): set<string>
  {
    if |f| == 0 then {""}
    else if IsLiteral(f[0]) then Prepend(f[0], Completions(f[1..]))
    else Prepend('0', Completions(f[1..])) + Prepend('1', Completions(f[1..]))
  }

  lemma {:induction false} CompletionsAreMatches(f: string, w: string)
    ensures w in Completions(f) <==> Matches(f, w)
    decreases |f|
  {
    if |f| > 0 {
      if |w| > 0 {
        CompletionsAreMatches(f[1..], w[1..]);
        assert w == [w[0]] + w[1..];
        if Matches(f[1..], w[1..]) && IsLiteral(w[0]) && (IsLiteral(f[0]) ==> w[0] == f[0]) {
          forall j | 0 <= j < |w| ensures IsLiteral(w[j]) && (IsLiteral(f[j]) ==> w[j] == f[j]) {
            if j > 0 { assert w[j] == w[1..][j - 1] && f[j] == f[1..][j - 1]; }
          }
        }
        if Matches(f, w) {
          assert IsLiteral(w[0]);
          forall j | 0 <= j < |w[1..]| ensures IsLiteral(w[1..][j]) && (IsLiteral(f[1..][j]) ==> w[1..][j] == f[1..][j]) {
            assert w[1..][j] == w[j + 1];
          }
        }
        if w in Completions(f) {
          var rest := Completions(f[1..]);
          assert exists v :: v in rest && w == [w[0]] + v;
          var v :| v in rest && w == [w[0]] + v;
          assert v == w[1..];
        }
      }
    } else {
      assert w in Completions(f) <==> w == "";
    }
  }

  lemma {:induction false} CompletionsCount(f: string)
    ensures |Completions(f)| == Pow2(Wildcards(f))
    decreases |f|
  {
    if |f| > 0 {
      var rest := Completions(f[1..]);
      CompletionsCount(f[1..]);
      if IsLiteral(f[0]) {
        PrependCard(f[0], rest);
      } else {
        PrependCard('0', rest);
        PrependCard('1', rest);
        assert Prepend('0', rest) !! Prepend('1', rest) by {
          forall w | w in Prepend('0', rest) ensures w[0] == '0' { }
          forall w | w in Prepend('1', rest) ensures w[0] == '1' { }
        }
      }
    }
  }

  /** A filter with k wildcards expands to 2^k distinct strings. */
  lemma ExpandBitfilterCount(f: string)
    ensures |ExpandBitfilter(f)| == Pow2(Wildcards(Strip(f)))
  {
    forall w ensures w in ExpandBitfilter(f) <==> w in Completions(Strip(f)) {
      ExpandBitfilterMatches(f, w);
      CompletionsAreMatches(Strip(f), w);
    }
    assert ExpandBitfilter(f) == Completions(Strip(f));
    CompletionsCount(Strip(f));
  }

  /** `int(s, 2)`, reading the most significant digit first. */
  function BinaryValue(w: string): nat
  {
    if |w| == 0 then 0 else 2 * BinaryValue(w[..|w| - 1]) + (if w[|w| - 1] == '1' then 1 else 0)
  }

  /** The n-digit binary spelling of k, most significant digit first. */
  function ToBinary(k: nat, n: nat): (w: string)
    ensures |w| == n && IsBinary(w)
  {
    if n == 0 then "" else ToBinary(k / 2, n - 1) + [if k % 2 == 1 then '1' else '0']
  }

  /** Spelling and reading back are inverse: an n-digit binary string reads as
      a number below 2^n, which spells the same string. */
  lemma {:induction false} BinaryRoundTrip(w: string)
    requires IsBinary(w)
    ensures BinaryValue(w) < Pow2(|w|)
    ensures ToBinary(BinaryValue(w), |w|) == w
    decreases |w|
  {
    if |w| > 0 {
      var init := w[..|w| - 1];
      assert IsBinary(init) by {
        forall j | 0 <= j < |init| ensures IsLiteral(init[j]) { assert init[j] == w[j]; }
      }
      BinaryRoundTrip(init);
      assert w == init + [w[|w| - 1]];
    }
  }

  lemma {:induction false} ToBinaryRoundTrip(k: nat, n: nat)
    requires k < Pow2(n)
    ensures BinaryValue(ToBinary(k, n)) == k
    decreases n
  {
    if n > 0 {
      ToBinaryRoundTrip(k / 2, n - 1);
      var w := ToBinary(k, n);
      assert w[..|w| - 1] == ToBinary(k / 2, n - 1);
    }
  }

  /** The numbers a filter's expansion spells. */
  function KeysOf(f: string): set<nat>
  {
    set w | w in ExpandBitfilter(f) :: BinaryValue(w)
  }

  /** An opcode is a key of a filter of eight significant characters exactly
      when its 8-digit spelling matches the filter; every key is below 256. */
  lemma KeyMatches(f: string, k: nat)
    requires |Strip(f)| == 8
    ensures k in KeysOf(f) <==> k < 256 && Matches(Strip(f), ToBinary(k, 8))
  {
    if k in KeysOf(f) {
      var w :| w in ExpandBitfilter(f) && BinaryValue(w) == k;
      ExpandBitfilterMatches(f, w);
      BinaryRoundTrip(w);
      assert Pow2(8) == 256;
    }
    if k < 256 && Matches(Strip(f), ToBinary(k, 8)) {
      assert Pow2(8) == 256;
      ToBinaryRoundTrip(k, 8);
      ExpandBitfilterMatches(f, ToBinary(k, 8));
    }
  }

  /** A filter and the instruction it names. */
  datatype Entry = Entry(filter: string, name: string)

  /** The instruction names a filter list mentions. */
  function Names(fs: seq<Entry>): set<string>
  {
    if |fs| == 0 then {} else Names(fs[..|fs| - 1]) + {fs[|fs| - 1].name}
  }

  /** `create_optable`: filters in listing order, each writing its name at
      every key it expands to. */
  function CreateOptable(fs: seq<Entry>): map<nat, string>
  {
    if |fs| == 0 then map[]
    else
      var last := fs[|fs| - 1];
      CreateOptable(fs[..|fs| - 1]) + map k | k in KeysOf(last.filter) :: last.name
  }

  /** A key is in the table exactly when some filter expands to it. */
  lemma {:induction false} CreateOptableDomain(fs: seq<Entry>, k: nat)
    ensures k in CreateOptable(fs) <==> exists i :: 0 <= i < |fs| && k in KeysOf(fs[i].filter)
    decreases |fs|
  {
    if |fs| > 0 {
      var init := fs[..|fs| - 1];
      CreateOptableDomain(init, k);
      if exists i :: 0 <= i < |fs| && k in KeysOf(fs[i].filter) {
        var i :| 0 <= i < |fs| && k in KeysOf(fs[i].filter);
        if i < |init| { assert init[i] == fs[i]; }
      }
      if exists i :: 0 <= i < |init| && k in KeysOf(init[i].filter) {
        var i :| 0 <= i < |init| && k in KeysOf(init[i].filter);
        assert init[i] == fs[i];
      }
    }
  }

  /** Every value in the table is the name of one of the filters. */
  lemma {:induction false} CreateOptableValues(fs: seq<Entry>, k: nat)
    requires k in CreateOptable(fs)
    ensures CreateOptable(fs)[k] in Names(fs)
    decreases |fs|
  {
    var last := fs[|fs| - 1];
    if k !in KeysOf(last.filter) {
      CreateOptableValues(fs[..|fs| - 1], k);
    }
  }

  /** A key's entry is the name of the last filter that expands to it. */
  lemma {:induction false} CreateOptableLastWins(fs: seq<Entry>, k: nat, i: nat)
    requires i < |fs| && k in KeysOf(fs[i].filter)
    requires forall j :: i < j < |fs| ==> k !in KeysOf(fs[j].filter)
    ensures k in CreateOptable(fs) && CreateOptable(fs)[k] == fs[i].name
    decreases |fs|
  {
    var init := fs[..|fs| - 1];
    if i < |init| {
      assert init[i] == fs[i];
      forall j | i < j < |init| ensures k !in KeysOf(init[j].filter) {
        assert init[j] == fs[j];
      }
      CreateOptableLastWins(init, k, i);
    }
  }

  const Unimplemented: string := "instr_unimplemented"

  /** The loop in `main`: 256 entries, the table's name where there is one and
      `instr_unimplemented` elsewhere. */
  function TableEntries(t: map<nat, string>): (r: seq<string>)
    ensures |r| == 256
    ensures forall k :: 0 <= k < 256 ==> (k in t ==> r[k] == t[k]) && (k !in t ==> r[k] == Unimplemented)
  {
    seq(256, k requires 0 <= k < 256 => if k in t then t[k] else Unimplemented)
  }

  /** No filter of the list matches the string. */
  predicate NoneMatch(fs: seq<Entry>, w: string)
  {
    forall i :: 0 <= i < |fs| ==> !Matches(Strip(fs[i].filter), w)
  }

  /** Reference reading of a filter list: scan from the end and take the first
      filter whose stripped form matches, or `instr_unimplemented`. */
  function LastMatchName(fs: seq<Entry>, w: string): string
  {
    if |fs| == 0 then Unimplemented
    else if Matches(Strip(fs[|fs| - 1].filter), w) then fs[|fs| - 1].name
    else LastMatchName(fs[..|fs| - 1], w)
  }

  /** The reference reading names the last matching filter, and falls back to
      `instr_unimplemented` exactly when nothing matches. */
  lemma {:induction false} LastMatchNameIs(fs: seq<Entry>, w: string, i: nat)
    requires i < |fs| && Matches(Strip(fs[i].filter), w)
    requires NoneMatch(fs[i + 1..], w)
    ensures LastMatchName(fs, w) == fs[i].name
    decreases |fs|
  {
    if i < |fs| - 1 {
      assert fs[|fs| - 1] == fs[i + 1..][|fs| - 1 - (i + 1)];
      var init := fs[..|fs| - 1];
      assert init[i] == fs[i];
      assert init[i + 1..] == fs[i + 1..][..|fs| - 1 - (i + 1)];
      LastMatchNameIs(init, w, i);
    }
  }

  lemma {:induction false} NoMatchIsUnimplemented(fs: seq<Entry>, w: string)
    requires NoneMatch(fs, w)
    ensures LastMatchName(fs, w) == Unimplemented
    decreases |fs|
  {
    if |fs| > 0 {
      var init := fs[..|fs| - 1];
      assert forall i :: 0 <= i < |init| ==> init[i] == fs[i];
      NoMatchIsUnimplemented(init, w);
    }
  }

  /** Filters appended after a list that match nothing leave its reading alone. */
  lemma {:induction false} LastMatchNameSkips(a: seq<Entry>, b: seq<Entry>, w: string)
    requires NoneMatch(b, w)
    ensures LastMatchName(a + b, w) == LastMatchName(a, w)
    decreases |b|
  {
    if |b| > 0 {
      var b' := b[..|b| - 1];
      assert (a + b)[|a + b| - 1] == b[|b| - 1];
      assert !Matches(Strip(b[|b| - 1].filter), w);
      assert (a + b)[..|a + b| - 1] == a + b';
      assert forall i :: 0 <= i < |b'| ==> b'[i] == b[i];
      LastMatchNameSkips(a, b', w);
      assert LastMatchName(a + b, w) == LastMatchName(a + b', w);
    } else {
      assert a + b == a;
    }
  }

  /** A list appended after another, one of whose filters matches, decides
      the reading on its own. */
  lemma {:induction false} LastMatchNameInSuffix(a: seq<Entry>, b: seq<Entry>, w: string)
    requires !NoneMatch(b, w)
    ensures LastMatchName(a + b, w) == LastMatchName(b, w)
    decreases |b|
  {
    var b' := b[..|b| - 1];
    assert (a + b)[|a + b| - 1] == b[|b| - 1];
    assert (a + b)[..|a + b| - 1] == a + b';
    if !Matches(Strip(b[|b| - 1].filter), w) {
      var i :| 0 <= i < |b| && Matches(Strip(b[i].filter), w);
      assert b'[i] == b[i];
      LastMatchNameInSuffix(a, b', w);
      assert LastMatchName(a + b, w) == LastMatchName(a + b', w);
    }
  }

  /** The generated entry for an opcode is the reference reading of the filter
      list at the opcode's 8-digit spelling. */
  lemma {:induction false} EntryIsLastMatch(fs: seq<Entry>, k: nat)
    requires k < 256
    requires forall i :: 0 <= i < |fs| ==> |Strip(fs[i].filter)| == 8
    ensures TableEntries(CreateOptable(fs))[k] == LastMatchName(fs, ToBinary(k, 8))
    decreases |fs|
  {
    if |fs| > 0 {
      var init := fs[..|fs| - 1];
      assert forall i :: 0 <= i < |init| ==> init[i] == fs[i];
      EntryIsLastMatch(init, k);
      KeyMatches(fs[|fs| - 1].filter, k);
    }
  }
}

=== FILE: optable_filters.dfy ===
/** The two filter tables of the opcode-table generator, grouped as the
    listing groups them, and what they produce at the opcodes the processor
    core depends on. */
module OpFilters {
  import opened Optable

  /** Block 0: nop and the 16-bit loads. */
  const Block0Loads: seq<Entry> := [
    Entry("0000_0000", "instr_nop"),
    Entry("00xx_0001", "instr_ld_r16_imm16"),
    Entry("00xx_0010", "instr_ld_r16mem_a"),
    Entry("00xx_1010", "instr_ld_a_r16mem"),
    Entry("0000_1000", "instr_ld_imm16mem_sp")
  ]

  /** Block 0: 16-bit and 8-bit increments, decrements and immediate loads. */
  const Block0Arith: seq<Entry> := [
    Entry("00xx_0011", "instr_inc_r16"),
    Entry("00xx_1011", "instr_dec_r16"),
    Entry("00xx_1001", "instr_add_hl_r16"),
    Entry("00xx_x100", "instr_inc_r8"),
    Entry("00xx_x101", "instr_dec_r8"),
    Entry("00xx_x110", "instr_ld_r8_imm8")
  ]

  /** Block 0: accumulator rotates and flag operations. */
  const Block0Rotates: seq<Entry> := [
    Entry("0000_0111", "instr_rlca"),
    Entry("0000_1111", "instr_rrca"),
    Entry("0001_0111", "instr_rla"),
    Entry("0001_1111", "instr_rra"),
    Entry("0010_0111", "instr_daa"),
    Entry("0010_1111", "instr_cpl"),
    Entry("0011_0111", "instr_scf"),
    Entry("0011_1111", "instr_ccf")
  ]

  /** Block 0: relative jumps and stop. */
  const Block0Jumps: seq<Entry> := [
    Entry("0001_1000", "instr_jr_imm8"),
    Entry("001x_x000", "instr_jr_cond_imm8"),
    Entry("0001_0000", "instr_stop")
  ]

  /** Block 1: register-to-register loads, then halt over the one slot it takes from them. */
  const Block1: seq<Entry> := [
    Entry("01xx_xyyy", "instr_ld_r8_r8"),
    Entry("0111_0110", "instr_halt")
  ]

  /** Block 2: 8-bit arithmetic on registers. */
  const Block2: seq<Entry> := [
    Entry("10xx_xyyy", "instr_alu_op_r8")
  ]

  /** Block 3: immediate arithmetic, returns, jumps, calls and restarts. */
  const Block3Control: seq<Entry> := [
    Entry("11xx_x110", "instr_alu_op_imm8"),
    Entry("110x_x000", "instr_ret_cond"),
    Entry("1100_1001", "instr_ret"),
    Entry("1101_1001", "instr_reti"),
    Entry("110x_x010", "instr_jp_cond"),
    Entry("1100_0011", "instr_jp_imm16"),
    Entry("1110_1001", "instr_jp_hl"),
    Entry("110x_x100", "instr_call_cond_imm16"),
    Entry("1100_1101", "instr_call_imm16"),
    Entry("11xx_x111", "instr_rst_tgt3")
  ]

  /** Block 3: pop and push. */
  const Block3Stack: seq<Entry> := [
    Entry("11xx_0001", "instr_pop_r16stk"),
    Entry("11xx_0101", "instr_push_r16stk")
  ]

  /** Block 3: the 0xCB prefix. */
  const Block3Prefix: seq<Entry> := [
    Entry("1100_1011", "instr_cb_prefix")
  ]

  /** Block 3: loads through the high page and absolute addresses. */
  const Block3High: seq<Entry> := [
    Entry("1110_0010", "instr_ldh_cmem_a"),
    Entry("1110_0000", "instr_ldh_imm8mem_a"),
    Entry("1110_1010", "instr_ld_imm16mem_a"),
    Entry("1111_0010", "instr_ldh_a_cmem"),
    Entry("1111_0000", "instr_ldh_a_imm8mem"),
    Entry("1111_1010", "instr_ld_a_imm16mem")
  ]

  /** Block 3: stack-pointer arithmetic. */
  const Block3Sp: seq<Entry> := [
    Entry("1110_1000", "instr_add_sp_imm8"),
    Entry("1111_1000", "instr_ld_hl_sp_imm8"),
    Entry("1111_1001", "instr_ld_sp_hl")
  ]

  /** Block 3: interrupt disable and enable. */
  const Block3Interrupts: seq<Entry> := [
    Entry("1111_0011", "instr_di"),
    Entry("1111_1011", "instr_ei")
  ]

  /** OPTABLE_FILTERS in listing order. */
  const OptableFilters: seq<Entry> := Block0 + Block1 + Block2 + Block3

  const Block0: seq<Entry> := Block0Loads + Block0Arith + Block0Rotates + Block0Jumps

  /** Block 3, with the groups listed after the 0xCB prefix kept together. */
  const Block3: seq<Entry> := Block3Control + Block3Stack + Block3Prefix + Block3AfterPrefix

  const Block3AfterPrefix: seq<Entry> := Block3High + Block3Sp + Block3Interrupts

  /** PREFIX_OPFILTERS: shifts and rotates on the low half... */
  const PrefixShifts: seq<Entry> := [
    Entry("0000_0xxx", "instr_rlc_r8"),
    Entry("0000_1xxx", "instr_rrc_r8"),
    Entry("0001_0xxx", "instr_rl_r8"),
    Entry("0001_1xxx", "instr_rr_r8"),
    Entry("0010_0xxx", "instr_sla_r8"),
    Entry("0010_1xxx", "instr_sra_r8"),
    Entry("0011_0xxx", "instr_swap_r8"),
    Entry("0011_1xxx", "instr_srl_r8")
  ]

  /** ... and the bit test, reset and set groups, whose separator sits one place later. */
  const PrefixBitOps: seq<Entry> := [
    Entry("01xxx_xxx", "instr_bit_b3_r8"),
    Entry("10xxx_xxx", "instr_res_b3_r8"),
    Entry("11xxx_xxx", "instr_set_b3_r8")
  ]

  const PrefixOpfilters: seq<Entry> := PrefixShifts + PrefixBitOps

  /** Nine characters with the one separator at position p. */
  predicate SeparatedAt(f: string, p: nat)
  {
    |f| == 9 && p < 9 && f[p] == '_' && forall j :: 0 <= j < 9 && j != p ==> f[j] != '_'
  }

  /** Every filter of the list has its separator at p and starts with `lead`. */
  predicate Shaped(fs: seq<Entry>, p: nat, lead: string)
  {
    forall i :: 0 <= i < |fs| ==> SeparatedAt(fs[i].filter, p) && lead <= fs[i].filter
  }

  lemma {:induction false} StripConcat(a: string, b: string)
    ensures Strip(a + b) == Strip(a) + Strip(b)
    decreases |a|
  {
    if |a| > 0 {
      assert (a + b)[1..] == a[1..] + b;
      StripConcat(a[1..], b);
      if a[0] != '_' {
        assert Strip(a + b) == [a[0]] + (Strip(a[1..]) + Strip(b));
      }
    } else {
      assert a + b == b;
    }
  }

  /** A separated filter strips to the characters around its separator. */
  lemma SeparatedStrip(f: string, p: nat)
    requires SeparatedAt(f, p)
    ensures Strip(f) == f[..p] + f[p + 1..]
  {
    var before, after := f[..p], f[p + 1..];
    assert '_' !in before by {
      forall j | 0 <= j < |before| ensures before[j] != '_' { assert before[j] == f[j]; }
    }
    assert '_' !in after by {
      forall j | 0 <= j < |after| ensures after[j] != '_' { assert after[j] == f[p + 1 + j]; }
    }
    assert f == before + ("_" + after);
    StripConcat(before, "_" + after);
    StripWithoutSeparator(before);
    assert ("_" + after)[1..] == after;
    StripWithoutSeparator(after);
  }

  lemma ShapedConcat(a: seq<Entry>, b: seq<Entry>, p: nat, lead: string)
    requires Shaped(a, p, lead) && Shaped(b, p, lead)
    ensures Shaped(a + b, p, lead)
  {
    forall i | 0 <= i < |a + b| ensures SeparatedAt((a + b)[i].filter, p) && lead <= (a + b)[i].filter {
      if i >= |a| { assert (a + b)[i] == b[i - |a|]; }
    }
  }

  lemma ShapedAnyLead(fs: seq<Entry>, p: nat, lead: string)
    requires Shaped(fs, p, lead)
    ensures Shaped(fs, p, "")
  {
  }

  /** Every filter of a shaped list has eight significant characters. */
  lemma ShapedEightBits(fs: seq<Entry>, p: nat, lead: string)
    requires Shaped(fs, p, lead)
    ensures forall i :: 0 <= i < |fs| ==> |Strip(fs[i].filter)| == 8
  {
    forall i | 0 <= i < |fs| ensures |Strip(fs[i].filter)| == 8 {
      SeparatedStrip(fs[i].filter, p);
    }
  }

  /** A string whose start differs from a shaped list's literal lead matches
      none of the list's filters. */
  lemma ShapedNoneMatch(fs: seq<Entry>, p: nat, lead: string, w: string)
    requires Shaped(fs, p, lead) && |lead| <= p && IsBinary(lead) && !(lead <= w)
    ensures NoneMatch(fs, w)
  {
    forall i | 0 <= i < |fs| ensures !Matches(Strip(fs[i].filter), w) {
      var f := fs[i].filter;
      SeparatedStrip(f, p);
      var s := Strip(f);
      assert forall j :: 0 <= j < |lead| ==> s[j] == f[j] == lead[j];
      if |w| == |s| && IsBinary(w) {
        assert exists j :: 0 <= j < |lead| && w[j] != lead[j];
      }
    }
  }

  lemma Block0LoadsShape()
    ensures Shaped(Block0Loads, 4, "00")
  {
  }

  lemma Block0ArithShape()
    ensures Shaped(Block0Arith, 4, "00")
  {
  }

  lemma Block0RotatesShape()
    ensures Shaped(Block0Rotates, 4, "00")
  {
  }

  lemma Block0JumpsShape()
    ensures Shaped(Block0Jumps, 4, "00")
  {
  }

  lemma Block1Shape()
    ensures Shaped(Block1, 4, "01")
  {
  }

  lemma Block2Shape()
    ensures Shaped(Block2, 4, "10")
  {
  }

  lemma Block3ControlShape()
    ensures Shaped(Block3Control, 4, "11")
  {
  }

  lemma Block3StackShape()
    ensures Shaped(Block3Stack, 4, "11")
  {
  }

  lemma Block3PrefixShape()
    ensures Shaped(Block3Prefix, 4, "11")
  {
  }

  lemma Block3HighShape()
    ensures Shaped(Block3High, 4, "111")
  {
  }

  lemma Block3SpShape()
    ensures Shaped(Block3Sp, 4, "111")
  {
  }

  lemma Block3InterruptsShape()
    ensures Shaped(Block3Interrupts, 4, "1111")
  {
  }

  lemma PrefixShiftsShape()
    ensures Shaped(PrefixShifts, 4, "00")
  {
  }

  lemma PrefixBitOpsShape()
    ensures Shaped(PrefixBitOps, 5, "")
  {
  }

  /** The whole main table is shaped with its separator at 4. */
  lemma ShapedShorterLead(fs: seq<Entry>, p: nat, lead: string, k: nat)
    requires Shaped(fs, p, lead) && k <= |lead|
    ensures Shaped(fs, p, lead[..k])
  {
    forall i | 0 <= i < |fs| ensures lead[..k] <= fs[i].filter {
      assert lead <= fs[i].filter;
    }
  }

  lemma Block0Shaped()
    ensures Shaped(Block0, 4, "00")
  {
    Block0LoadsShape(); Block0ArithShape(); Block0RotatesShape(); Block0JumpsShape();
    ShapedConcat(Block0Loads, Block0Arith, 4, "00");
    ShapedConcat(Block0Loads + Block0Arith, Block0Rotates, 4, "00");
    ShapedConcat(Block0Loads + Block0Arith + Block0Rotates, Block0Jumps, 4, "00");
  }

  lemma Block3AfterPrefixShaped()
    ensures Shaped(Block3AfterPrefix, 4, "111")
  {
    Block3HighShape(); Block3SpShape(); Block3InterruptsShape();
    ShapedShorterLead(Block3Interrupts, 4, "1111", 3);
    assert "1111"[..3] == "111";
    ShapedConcat(Block3High, Block3Sp, 4, "111");
    ShapedConcat(Block3High + Block3Sp, Block3Interrupts, 4, "111");
  }

  lemma Block3Shaped()
    ensures Shaped(Block3, 4, "11")
  {
    Block3ControlShape(); Block3StackShape(); Block3PrefixShape(); Block3AfterPrefixShaped();
    ShapedShorterLead(Block3AfterPrefix, 4, "111", 2);
    assert "111"[..2] == "11";
    ShapedConcat(Block3Control, Block3Stack, 4, "11");
    ShapedConcat(Block3Control + Block3Stack, Block3Prefix, 4, "11");
    ShapedConcat(Block3Control + Block3Stack + Block3Prefix, Block3AfterPrefix, 4, "11");
  }

  /** The whole main table is shaped with its separator at 4. */
  lemma OptableFiltersShaped()
    ensures Shaped(OptableFilters, 4, "")
  {
    Block0Shaped(); Block1Shape(); Block2Shape(); Block3Shaped();
    ShapedAnyLead(Block0, 4, "00");
    ShapedAnyLead(Block1, 4, "01");
    ShapedAnyLead(Block2, 4, "10");
    ShapedAnyLead(Block3, 4, "11");
    ShapedConcat(Block0, Block1, 4, "");
    ShapedConcat(Block0 + Block1, Block2, 4, "");
    ShapedConcat(Block0 + Block1 + Block2, Block3, 4, "");
  }

  /** Every filter of both tables has eight significant characters. */
  lemma FiltersHaveEightBits()
    ensures forall i :: 0 <= i < |OptableFilters| ==> |Strip(OptableFilters[i].filter)| == 8
    ensures forall i :: 0 <= i < |PrefixOpfilters| ==> |Strip(PrefixOpfilters[i].filter)| == 8
  {
    OptableFiltersShaped();
    ShapedEightBits(OptableFilters, 4, "");
    PrefixShiftsShape();
    PrefixBitOpsShape();
    ShapedEightBits(PrefixShifts, 4, "00");
    ShapedEightBits(PrefixBitOps, 5, "");
    forall i | 0 <= i < |PrefixOpfilters| ensures |Strip(PrefixOpfilters[i].filter)| == 8 {
      if i >= |PrefixShifts| { assert PrefixOpfilters[i] == PrefixBitOps[i - |PrefixShifts|]; }
    }
  }

  /** A separated filter matches an 8-character binary string that agrees
      with it at every literal position, read around the separator. */
  lemma MatchesSeparated(f: string, p: nat, w: string)
    requires SeparatedAt(f, p) && |w| == 8 && IsBinary(w)
    requires forall j :: 0 <= j < p ==> IsLiteral(f[j]) ==> w[j] == f[j]
    requires forall j :: p < j < 9 ==> IsLiteral(f[j]) ==> w[j - 1] == f[j]
    ensures Matches(Strip(f), w)
  {
    SeparatedStrip(f, p);
    var s := Strip(f);
    forall j | 0 <= j < 8 ensures IsLiteral(s[j]) ==> w[j] == s[j] {
      if j >= p { assert s[j] == f[j + 1]; } else { assert s[j] == f[j]; }
    }
  }

  /** Appending a shaped list whose lead the string departs from leaves the
      reading unchanged. */
  lemma Skip(a: seq<Entry>, b: seq<Entry>, lead: string, w: string, j: nat)
    requires Shaped(b, 4, lead) && |lead| <= 4 && IsBinary(lead) && |w| == 8
    requires j < |lead| && w[j] != lead[j]
    ensures LastMatchName(a + b, w) == LastMatchName(a, w)
  {
    ShapedNoneMatch(b, 4, lead, w);
    LastMatchNameSkips(a, b, w);
  }

  lemma Spell0x76()
    ensures ToBinary(0x76, 8) == "01110110"
  {
  }

  lemma Spell0xCB()
    ensures ToBinary(0xCB, 8) == "11001011"
  {
  }

  lemma LoadFilterMatches0x76()
    ensures Matches(Strip(Block1[0].filter), "01110110")
  {
    assert Block1[0].filter == "01xx_xyyy";
    MatchesSeparated(Block1[0].filter, 4, "01110110");
  }

  lemma HaltFilterMatches0x76()
    ensures Matches(Strip(Block1[1].filter), "01110110")
  {
    assert Block1[1].filter == "0111_0110";
    MatchesSeparated(Block1[1].filter, 4, "01110110");
  }

  /** Opcode 0x76 matches both the register-to-register load filter and the
      halt filter after it. */
  lemma HaltOverlapsLoad()
    ensures Matches(Strip(Block1[0].filter), ToBinary(0x76, 8))
    ensures Matches(Strip(Block1[1].filter), ToBinary(0x76, 8))
  {
    Spell0x76();
    LoadFilterMatches0x76();
    HaltFilterMatches0x76();
  }

  lemma Block3Skips0x76()
    ensures LastMatchName(OptableFilters, "01110110") == LastMatchName(Block0 + Block1 + Block2, "01110110")
  {
    Block3Shaped();
    Skip(Block0 + Block1 + Block2, Block3, "11", "01110110", 0);
  }

  lemma Block2Skips0x76()
    ensures LastMatchName(Block0 + Block1 + Block2, "01110110") == LastMatchName(Block0 + Block1, "01110110")
  {
    Block2Shape();
    Skip(Block0 + Block1, Block2, "10", "01110110", 0);
  }

  /** Blocks 2 and 3 start with '1', so they leave 0x76 alone. */
  lemma Blocks23Skip0x76()
    ensures LastMatchName(OptableFilters, "01110110") == LastMatchName(Block0 + Block1, "01110110")
  {
    Block3Skips0x76();
    Block2Skips0x76();
  }

  /** Reading the main table at 0x76 gives the halt filter's name. */
  lemma HaltIsLastMatch()
    ensures LastMatchName(OptableFilters, "01110110") == "instr_halt"
  {
    Blocks23Skip0x76();
    HaltFilterMatches0x76();
    assert (Block0 + Block1)[|Block0 + Block1| - 1] == Block1[1];
  }

  /** The later filter wins: opcode 0x76 is `instr_halt`. */
  lemma HaltWinsAt0x76()
    ensures TableEntries(CreateOptable(OptableFilters))[0x76] == "instr_halt"
  {
    FiltersHaveEightBits();
    EntryIsLastMatch(OptableFilters, 0x76);
    HaltIsLastMatch();
    Spell0x76();
  }

  /** No filter of the list matches `w` when all of them carry the same literal
      at raw position `k` (stripped position `j`) and `w` has the other bit there. */
  lemma NoneMatchAtColumn(fs: seq<Entry>, k: nat, w: string)
    requires 4 < k < 9 && |w| == 8 && IsLiteral(w[k - 1])
    requires forall i :: 0 <= i < |fs| ==> SeparatedAt(fs[i].filter, 4) && IsLiteral(fs[i].filter[k]) && fs[i].filter[k] != w[k - 1]
    ensures NoneMatch(fs, w)
  {
    forall i | 0 <= i < |fs| ensures !Matches(Strip(fs[i].filter), w) {
      var f := fs[i].filter;
      SeparatedStrip(f, 4);
      assert Strip(f)[k - 1] == f[k];
    }
  }

  lemma Spell0x06()
    ensures ToBinary(0x06, 8) == "00000110"
  {
  }

  lemma LdImmFilterMatches0x06()
    ensures Matches(Strip(Block0Arith[5].filter), "00000110")
  {
    assert Block0Arith[5].filter == "00xx_x110";
    MatchesSeparated(Block0Arith[5].filter, 4, "00000110");
  }

  lemma Block3Skips0x06()
    ensures LastMatchName(OptableFilters, "00000110") == LastMatchName(Block0 + Block1 + Block2, "00000110")
  {
    Block3Shaped();
    Skip(Block0 + Block1 + Block2, Block3, "11", "00000110", 0);
  }

  lemma Block2Skips0x06()
    ensures LastMatchName(Block0 + Block1 + Block2, "00000110") == LastMatchName(Block0 + Block1, "00000110")
  {
    Block2Shape();
    Skip(Block0 + Block1, Block2, "10", "00000110", 0);
  }

  lemma Block1Skips0x06()
    ensures LastMatchName(Block0 + Block1, "00000110") == LastMatchName(Block0, "00000110")
  {
    Block1Shape();
    Skip(Block0, Block1, "01", "00000110", 1);
  }

  /** The jump group has a 0 in bit column 5, where 0x06 has a 1. */
  lemma JumpsSkip0x06()
    ensures LastMatchName(Block0, "00000110") == LastMatchName(Block0Loads + Block0Arith + Block0Rotates, "00000110")
  {
    Block0JumpsShape();
    NoneMatchAtColumn(Block0Jumps, 6, "00000110");
    LastMatchNameSkips(Block0Loads + Block0Arith + Block0Rotates, Block0Jumps, "00000110");
  }

  /** The flag group has a 1 in bit column 7, where 0x06 has a 0. */
  lemma RotatesSkip0x06()
    ensures LastMatchName(Block0Loads + Block0Arith + Block0Rotates, "00000110") == LastMatchName(Block0Loads + Block0Arith, "00000110")
  {
    Block0RotatesShape();
    NoneMatchAtColumn(Block0Rotates, 8, "00000110");
    LastMatchNameSkips(Block0Loads + Block0Arith, Block0Rotates, "00000110");
  }

  lemma ArithEndsWithLdImm0x06()
    ensures LastMatchName(Block0Loads + Block0Arith, "00000110") == "instr_ld_r8_imm8"
  {
    LdImmFilterMatches0x06();
    assert (Block0Loads + Block0Arith)[|Block0Loads + Block0Arith| - 1] == Block0Arith[5];
  }

  /** Reading the main table at 0x06 gives the immediate load's name. */
  lemma LdImmIsLastMatch()
    ensures LastMatchName(OptableFilters, "00000110") == "instr_ld_r8_imm8"
  {
    Block3Skips0x06();
    Block2Skips0x06();
    Block1Skips0x06();
    JumpsSkip0x06();
    RotatesSkip0x06();
    ArithEndsWithLdImm0x06();
  }

  /** Opcode 0x06 (LD B, imm8) is `instr_ld_r8_imm8`. */
  lemma LdImmAt0x06()
    ensures TableEntries(CreateOptable(OptableFilters))[0x06] == "instr_ld_r8_imm8"
  {
    FiltersHaveEightBits();
    EntryIsLastMatch(OptableFilters, 0x06);
    LdImmIsLastMatch();
    Spell0x06();
  }

  lemma CbFilterMatches0xCB()
    ensures Matches(Strip(Block3Prefix[0].filter), "11001011")
  {
    assert Block3Prefix[0].filter == "1100_1011";
    MatchesSeparated(Block3Prefix[0].filter, 4, "11001011");
  }

  /** Reading block 3 at 0xCB gives the prefix filter's name: the groups
      after it all start with "111". */
  lemma CbPrefixInBlock3()
    ensures LastMatchName(Block3, "11001011") == "instr_cb_prefix"
  {
    Block3AfterPrefixShaped();
    Skip(Block3Control + Block3Stack + Block3Prefix, Block3AfterPrefix, "111", "11001011", 2);
    CbFilterMatches0xCB();
    assert (Block3Control + Block3Stack + Block3Prefix)[|Block3Control + Block3Stack + Block3Prefix| - 1] == Block3Prefix[0];
  }

  /** Opcode 0xCB is `instr_cb_prefix`. */
  lemma CbPrefixAt0xCB()
    ensures TableEntries(CreateOptable(OptableFilters))[0xCB] == "instr_cb_prefix"
  {
    FiltersHaveEightBits();
    EntryIsLastMatch(OptableFilters, 0xCB);
    CbPrefixIsLastMatch();
    Spell0xCB();
  }

  /** Reading the main table at 0xCB gives the prefix filter's name. */
  lemma CbPrefixIsLastMatch()
    ensures LastMatchName(OptableFilters, "11001011") == "instr_cb_prefix"
  {
    CbPrefixInBlock3();
    CbFilterMatches0xCB();
    assert Block3[|Block3Control + Block3Stack|] == Block3Prefix[0];
    LastMatchNameInSuffix(Block0 + Block1 + Block2, Block3, "11001011");
  }

  /** The inverse direction of MatchesSeparated: a match agrees with the
      filter at every literal position, read around the separator. */
  lemma MatchedSeparated(f: string, p: nat, w: string)
    requires SeparatedAt(f, p) && Matches(Strip(f), w)
    ensures |w| == 8 && IsBinary(w)
    ensures forall j :: 0 <= j < p ==> IsLiteral(f[j]) ==> w[j] == f[j]
    ensures forall j :: p < j < 9 ==> IsLiteral(f[j]) ==> w[j - 1] == f[j]
  {
    SeparatedStrip(f, p);
    var s := Strip(f);
    forall j | 0 <= j < p ensures s[j] == f[j] { }
    forall j | p < j < 9 ensures s[j - 1] == f[j] { }
  }

  function Digit(b: int): char
  {
    if b == 1 then '1' else '0'
  }

  function Bit(c: char): nat
  {
    if c == '1' then 1 else 0
  }

  /** Which prefix filter an opcode's spelling falls under: the shift group
      selected by bits 2..4 when it starts "00", else the bit-operation group
      selected by its first two bits. */
  function PrefixIndex(w: string): (i: nat)
    requires |w| == 8
    ensures i < |PrefixOpfilters|
  {
    if w[0] == '0' && w[1] == '0' then 4 * Bit(w[2]) + 2 * Bit(w[3]) + Bit(w[4])
    else 7 + 2 * Bit(w[0]) + Bit(w[1])
  }

  /** Shift filter i is "00" and the 3-bit spelling of i around the separator,
      then three wildcards. */
  lemma PrefixShiftChars(i: nat)
    requires i < 8
    ensures var f := PrefixShifts[i].filter;
      && SeparatedAt(f, 4) && f[0] == '0' && f[1] == '0'
      && f[2] == Digit(i / 4) && f[3] == Digit(i / 2 % 2) && f[5] == Digit(i % 2)
      && !IsLiteral(f[6]) && !IsLiteral(f[7]) && !IsLiteral(f[8])
  {
    PrefixShiftsShape();
  }

  /** Bit-operation filter i is the 2-bit spelling of i + 1, then wildcards. */
  lemma PrefixBitOpChars(i: nat)
    requires i < 3
    ensures var f := PrefixBitOps[i].filter;
      && SeparatedAt(f, 5) && f[0] == Digit((i + 1) / 2) && f[1] == Digit((i + 1) % 2)
      && forall j :: 2 <= j < 9 && j != 5 ==> !IsLiteral(f[j])
  {
    PrefixBitOpsShape();
  }

  /** Every 8-digit binary string matches the prefix filter PrefixIndex picks. */
  lemma PrefixIndexMatches(w: string)
    requires |w| == 8 && IsBinary(w)
    ensures Matches(Strip(PrefixOpfilters[PrefixIndex(w)].filter), w)
  {
    var i := PrefixIndex(w);
    assert IsLiteral(w[0]) && IsLiteral(w[1]) && IsLiteral(w[2]) && IsLiteral(w[3]) && IsLiteral(w[4]);
    if i < 8 {
      PrefixShiftChars(i);
      assert PrefixOpfilters[i] == PrefixShifts[i];
      MatchesSeparated(PrefixShifts[i].filter, 4, w);
    } else {
      PrefixBitOpChars(i - 8);
      assert PrefixOpfilters[i] == PrefixBitOps[i - 8];
      MatchesSeparated(PrefixBitOps[i - 8].filter, 5, w);
    }
  }

  lemma ShiftMatchIsIndex(w: string, i: nat)
    requires i < 8 && Matches(Strip(PrefixShifts[i].filter), w)
    ensures |w| == 8 && i == PrefixIndex(w)
  {
    PrefixShiftChars(i);
    MatchedSeparated(PrefixShifts[i].filter, 4, w);
    assert w[0] == '0' && w[1] == '0';
    assert w[2] == Digit(i / 4) && w[3] == Digit(i / 2 % 2) && w[4] == Digit(i % 2);
    ThreeBits(i);
  }

  /** A number below 8 is the sum of its three binary digits' weights. */
  lemma ThreeBits(i: nat)
    requires i < 8
    ensures Bit(Digit(i / 4)) == i / 4 && Bit(Digit(i / 2 % 2)) == i / 2 % 2 && Bit(Digit(i % 2)) == i % 2
    ensures 4 * (i / 4) + 2 * (i / 2 % 2) + i % 2 == i
  {
  }

  lemma BitOpMatchIsIndex(w: string, i: nat)
    requires i < 3 && Matches(Strip(PrefixBitOps[i].filter), w)
    ensures |w| == 8 && i + 8 == PrefixIndex(w)
  {
    PrefixBitOpChars(i);
    MatchedSeparated(PrefixBitOps[i].filter, 5, w);
    assert w[0] == Digit((i + 1) / 2) && w[1] == Digit((i + 1) % 2);
    assert Bit(w[0]) == (i + 1) / 2 && Bit(w[1]) == (i + 1) % 2;
  }

  /** No 8-digit binary string matches any other prefix filter. */
  lemma PrefixMatchIsIndex(w: string, i: nat)
    requires i < |PrefixOpfilters| && Matches(Strip(PrefixOpfilters[i].filter), w)
    ensures |w| == 8 && i == PrefixIndex(w)
  {
    if i < 8 {
      assert PrefixOpfilters[i] == PrefixShifts[i];
      ShiftMatchIsIndex(w, i);
    } else {
      assert PrefixOpfilters[i] == PrefixBitOps[i - 8];
      BitOpMatchIsIndex(w, i - 8);
    }
  }

  /** The reference reading of the prefix filters at any 8-digit binary
      string is the name of the one filter that covers it. */
  lemma PrefixReading(w: string)
    requires |w| == 8 && IsBinary(w)
    ensures LastMatchName(PrefixOpfilters, w) == PrefixOpfilters[PrefixIndex(w)].name
  {
    var i := PrefixIndex(w);
    PrefixIndexMatches(w);
    var later := PrefixOpfilters[i + 1..];
    forall j | 0 <= j < |later| ensures !Matches(Strip(later[j].filter), w) {
      if Matches(Strip(later[j].filter), w) {
        PrefixMatchIsIndex(w, i + 1 + j);
      }
    }
    LastMatchNameIs(PrefixOpfilters, w, i);
  }

  /** Every opcode of the prefixed table gets the name of the one filter that
      covers it; none is left as `instr_unimplemented`. */
  lemma PrefixTableIsTotal(k: nat)
    requires k < 256
    ensures var e := TableEntries(CreateOptable(PrefixOpfilters))[k];
      e == PrefixOpfilters[PrefixIndex(ToBinary(k, 8))].name && e != Unimplemented
  {
    FiltersHaveEightBits();
    EntryIsLastMatch(PrefixOpfilters, k);
    PrefixReading(ToBinary(k, 8));
    PrefixNamesImplemented();
  }

  lemma PrefixNamesImplemented()
    ensures forall i :: 0 <= i < |PrefixOpfilters| ==> PrefixOpfilters[i].name != Unimplemented
  {
  }
}

=== FILE: pqueue.dfy ===
/** The fixed-capacity priority queue: a binary heap in an array, ordered by a
    caller-supplied comparator. `cmp(a, b)` means "a ranks below b", and the
    element that ranks highest sits at the front. */
module PQueue {
  import opened Errors

  /** `spqueue_t`: `data` is the live prefix `data[0..len)` of the buffer. */
  datatype Queue<!T> = Queue(maxLen: nat, data: seq<T>, cmp: (T, T) -> bool)
  {
    predicate Valid() { |data| <= maxLen }
  }

  /** `spqueue_create`. */
  function Create<T>(maxSize: nat, cmp: (T, T) -> bool): (q: Queue<T>)
    ensures q.maxLen == maxSize && |q.data| == 0 && q.cmp == cmp && q.Valid()
  {
    Queue(maxSize, [], cmp)
  }

  predicate IsEmpty<T>(q: Queue<T>) { |q.data| == 0 }

  predicate IsFull<T>(q: Queue<T>) { |q.data| == q.maxLen }

  /** A valid queue that is not full has room for one more element, and only
      a queue of capacity zero is empty and full at once. */
  lemma Capacity<T>(q: Queue<T>)
    requires q.Valid()
    ensures !IsFull(q) ==> |q.data| + 1 <= q.maxLen
    ensures IsEmpty(q) && IsFull(q) <==> q.maxLen == 0
  {
  }

  /** The parent slot of a non-root slot. */
  function Parent(i: nat): nat
    requires i > 0
  {
    (i - 1) / 2
  }

  /** The heap invariant the comparator's comment describes: no element ranks
      below one of its children. */
  predicate IsHeap<T>(d: seq<T>, cmp: (T, T) -> bool)
  {
    forall i :: 0 < i < |d| ==> !cmp(d[Parent(i)], d[i])
  }

  /** The comparator orders elements by an integer rank: `cmp(a, b)` exactly
      when a's rank is below b's. Both comparators in the program are of this
      form. */
  ghost predicate RankedBy<T(!new)>(cmp: (T, T) -> bool, rank: T -> int)
  {
    forall a, b :: cmp(a, b) == (rank(a) < rank(b))
  }

  /** Exchanges two slots. */
  function Swap<T>(d: seq<T>, i: nat, j: nat): (r: seq<T>)
    requires i < |d| && j < |d|
    ensures |r| == |d| && r[i] == d[j] && r[j] == d[i]
    ensures forall k :: 0 <= k < |d| && k != i && k != j ==> r[k] == d[k]
    ensures multiset(r) == multiset(d)
  {
    d[i := d[j]][j := d[i]]
  }

  /** The sift-up loop of `spqueue_push` as written: it swaps while the child
      ranks below its parent, which moves low-ranked elements up. */
  function SiftUpAsWritten<T>(d: seq<T>, cur: nat, cmp: (T, T) -> bool): (r: seq<T>)
    requires cur < |d|
    ensures |r| == |d| && multiset(r) == multiset(d)
    decreases cur
  {
    if cur > 0 && cmp(d[cur], d[Parent(cur)]) then SiftUpAsWritten(Swap(d, cur, Parent(cur)), Parent(cur), cmp)
    else d
  }

  /** The sift-up the comment above that loop asks for: swap while the parent
      ranks below the child. */
  function SiftUp<T>(d: seq<T>, cur: nat, cmp: (T, T) -> bool): (r: seq<T>)
    requires cur < |d|
    ensures |r| == |d| && multiset(r) == multiset(d)
    decreases cur
  {
    if cur > 0 && cmp(d[Parent(cur)], d[cur]) then SiftUp(Swap(d, cur, Parent(cur)), Parent(cur), cmp)
    else d
  }

  /** `spqueue_push` as written: fails on a full queue, otherwise appends and
      sifts up. */
  function PushAsWritten<T>(q: Queue<T>, e: T): (r: Result<Queue<T>>)
    requires q.Valid()
    ensures r.Fail? <==> IsFull(q)
    ensures r.Fail? ==> r.code == FullContainer
    ensures r.Ok? ==>
      && r.value.maxLen == q.maxLen && r.value.cmp == q.cmp && r.value.Valid()
      && |r.value.data| == |q.data| + 1
      && multiset(r.value.data) == multiset(q.data) + multiset{e}
  {
    if |q.data| == q.maxLen then Fail(FullContainer)
    else
      var d := q.data + [e];
      if |d| == 1 then Ok(q.(data := d))
      else Ok(q.(data := SiftUpAsWritten(d, |d| - 1, q.cmp)))
  }

  /** `spqueue_push` with the sift-up its comment describes. */
  function Push<T>(q: Queue<T>, e: T): (r: Result<Queue<T>>)
    requires q.Valid()
    ensures r.Fail? <==> IsFull(q)
    ensures r.Fail? ==> r.code == FullContainer
    ensures r.Ok? ==>
      && r.value.maxLen == q.maxLen && r.value.cmp == q.cmp && r.value.Valid()
      && |r.value.data| == |q.data| + 1
      && multiset(r.value.data) == multiset(q.data) + multiset{e}
  {
    if |q.data| == q.maxLen then Fail(FullContainer)
    else
      var d := q.data + [e];
      if |d| == 1 then Ok(q.(data := d))
      else Ok(q.(data := SiftUp(d, |d| - 1, q.cmp)))
  }

  /** `spqueue_front`. */
  function Front<T>(q: Queue<T>): (r: Result<T>)
    ensures r.Fail? <==> IsEmpty(q)
    ensures r.Fail? ==> r.code == EmptyContainer
    ensures r.Ok? ==> r.value == q.data[0]
  {
    if |q.data| == 0 then Fail(EmptyContainer) else Ok(q.data[0])
  }

  /** `pick_priority`: of a slot and its two children that lie inside the
      heap, the one that no other ranks above, preferring the slot itself,
      then the left child. */
  function PickPriority<T>(d: seq<T>, root: nat, cmp: (T, T) -> bool): (r: nat)
    requires root < |d|
    ensures r < |d| && (r == root || r == 2 * root + 1 || r == 2 * root + 2)
  {
    var left := 2 * root + 1;
    var right := left + 1;
    var p1 := if left < |d| && cmp(d[root], d[left]) then left else root;
    if right < |d| && cmp(d[p1], d[right]) then right else p1
  }

  /** Under a ranked comparator the picked slot ranks at least as high as the
      slot and each child present. */
  lemma PickPriorityIsTop<T(!new)>(d: seq<T>, root: nat, cmp: (T, T) -> bool, rank: T -> int)
    requires root < |d| && RankedBy(cmp, rank)
    ensures var p := PickPriority(d, root, cmp);
      && rank(d[p]) >= rank(d[root])
      && (2 * root + 1 < |d| ==> rank(d[p]) >= rank(d[2 * root + 1]))
      && (2 * root + 2 < |d| ==> rank(d[p]) >= rank(d[2 * root + 2]))
      && (p != root ==> rank(d[p]) > rank(d[root]))
  {
    var left := 2 * root + 1;
    var right := left + 1;
    if left < |d| { assert cmp(d[root], d[left]) == (rank(d[root]) < rank(d[left])); }
    var p1 := if left < |d| && cmp(d[root], d[left]) then left else root;
    if right < |d| { assert cmp(d[p1], d[right]) == (rank(d[p1]) < rank(d[right])); }
  }

  /** The sift-down loop of `spqueue_pop`. */
  function SiftDown<T>(d: seq<T>, cur: nat, cmp: (T, T) -> bool): (r: seq<T>)
    requires cur < |d|
    ensures |r| == |d| && multiset(r) == multiset(d)
    decreases |d| - cur
  {
    var p := PickPriority(d, cur, cmp);
    if p == cur then d else SiftDown(Swap(d, cur, p), p, cmp)
  }

  /** `spqueue_pop`: fails on an empty queue; otherwise returns the front, moves
      the last element to the root and sifts it down. */
  function Pop<T>(q: Queue<T>): (r: Result<(T, Queue<T>)>)
    requires q.Valid()
    ensures r.Fail? <==> IsEmpty(q)
    ensures r.Fail? ==> r.code == EmptyContainer
    ensures r.Ok? ==>
      && r.value.0 == q.data[0]
      && r.value.1.maxLen == q.maxLen && r.value.1.cmp == q.cmp && r.value.1.Valid()
      && |r.value.1.data| == |q.data| - 1
      && multiset(r.value.1.data) == multiset(q.data) - multiset{q.data[0]}
  {
    if |q.data| == 0 then Fail(EmptyContainer)
    else
      var front := q.data[0];
      if |q.data| == 1 then Ok((front, q.(data := [])))
      else
        var n := |q.data| - 1;
        var d := [q.data[n]] + q.data[1..n];
        assert q.data == [front] + q.data[1..n] + [q.data[n]];
        Ok((front, q.(data := SiftDown(d, 0, q.cmp))))
  }

  /** The rank of every slot whose parent is not `skip` is at most its parent's. */
  ghost predicate HeapBelow<T>(d: seq<T>, rank: T -> int, skip: nat)
  {
    forall i :: 0 < i < |d| && Parent(i) != skip ==> rank(d[Parent(i)]) >= rank(d[i])
  }

  /** The sift-down invariant: ordered everywhere except between `cur` and its
      children, and `cur`'s parent outranks `cur`'s children. */
  ghost predicate SiftDownInvariant<T>(d: seq<T>, rank: T -> int, cur: nat)
  {
    && HeapBelow(d, rank, cur)
    && (cur > 0 && cur < |d| ==>
          forall c :: 0 < c < |d| && Parent(c) == cur ==> rank(d[Parent(cur)]) >= rank(d[c]))
  }

  /** Under a ranked comparator the heap invariant is rank order along every
      parent link. */
  lemma IsHeapByRank<T(!new)>(d: seq<T>, cmp: (T, T) -> bool, rank: T -> int)
    requires RankedBy(cmp, rank)
    ensures IsHeap(d, cmp) <==> forall i :: 0 < i < |d| ==> rank(d[Parent(i)]) >= rank(d[i])
  {
  }

  /** The children of a slot are the slots 2i + 1 and 2i + 2. */
  lemma ChildSlots(c: nat, cur: nat)
    requires c > 0
    ensures Parent(c) == cur <==> c == 2 * cur + 1 || c == 2 * cur + 2
  {
  }

  /** Swapping `cur` with its highest-ranked child moves the sift-down
      invariant to that child. */
  lemma SiftDownStep<T(!new)>(d: seq<T>, cur: nat, p: nat, rank: T -> int)
    requires cur < p < |d| && Parent(p) == cur && SiftDownInvariant(d, rank, cur)
    requires rank(d[p]) > rank(d[cur])
    requires forall c :: 0 < c < |d| && Parent(c) == cur ==> rank(d[p]) >= rank(d[c])
    ensures SiftDownInvariant(Swap(d, cur, p), rank, p)
  {
    var d2 := Swap(d, cur, p);
    forall i | 0 < i < |d2| && Parent(i) != p ensures rank(d2[Parent(i)]) >= rank(d2[i]) {
      if i == p {
      } else if Parent(i) == cur {
      } else if i == cur {
      } else {
        assert d2[Parent(i)] == d[Parent(i)];
      }
    }
    forall c | 0 < c < |d2| && Parent(c) == p ensures rank(d2[Parent(p)]) >= rank(d2[c]) {
      assert c != cur && c != p && d2[c] == d[c];
    }
  }

  /** When `cur` outranks its children the sift-down invariant is the heap
      order. */
  lemma SiftDownDone<T(!new)>(d: seq<T>, cur: nat, rank: T -> int)
    requires cur < |d| && SiftDownInvariant(d, rank, cur)
    requires forall c :: 0 < c < |d| && Parent(c) == cur ==> rank(d[cur]) >= rank(d[c])
    ensures forall i :: 0 < i < |d| ==> rank(d[Parent(i)]) >= rank(d[i])
  {
  }

  /** Sifting down from a slot that satisfies the invariant yields a heap. */
  lemma {:induction false} SiftDownRestoresHeap<T(!new)>(d: seq<T>, cur: nat, cmp: (T, T) -> bool, rank: T -> int)
    requires cur < |d| && RankedBy(cmp, rank) && SiftDownInvariant(d, rank, cur)
    ensures IsHeap(SiftDown(d, cur, cmp), cmp)
    decreases |d| - cur
  {
    var p := PickPriority(d, cur, cmp);
    PickPriorityIsTop(d, cur, cmp, rank);
    forall c | 0 < c < |d| && Parent(c) == cur ensures rank(d[p]) >= rank(d[c]) {
      ChildSlots(c, cur);
    }
    if p == cur {
      SiftDownDone(d, cur, rank);
      IsHeapByRank(d, cmp, rank);
    } else {
      ChildSlots(p, cur);
      SiftDownStep(d, cur, p, rank);
      SiftDownRestoresHeap(Swap(d, cur, p), p, cmp, rank);
    }
  }

  /** `pop` keeps the heap invariant. */
  lemma PopKeepsHeap<T(!new)>(q: Queue<T>, rank: T -> int)
    requires q.Valid() && RankedBy(q.cmp, rank) && IsHeap(q.data, q.cmp) && !IsEmpty(q)
    ensures IsHeap(Pop(q).value.1.data, q.cmp)
  {
    if |q.data| > 1 {
      var n := |q.data| - 1;
      var d := [q.data[n]] + q.data[1..n];
      PopSiftsMovedLast(q);
      MovedLastHeapBelowRoot(q.data, q.cmp, rank);
      SiftDownRestoresHeap(d, 0, q.cmp, rank);
    }
  }

  /** Pop on two or more elements sifts down from the root after moving the
      last element there. */
  lemma PopSiftsMovedLast<T>(q: Queue<T>)
    requires q.Valid() && |q.data| > 1
    ensures Pop(q).value.1.data == SiftDown([q.data[|q.data| - 1]] + q.data[1..|q.data| - 1], 0, q.cmp)
  {
  }

  /** Replacing the root of a heap by its last element and dropping that slot
      leaves every slot below the root in order. */
  lemma MovedLastHeapBelowRoot<T(!new)>(data: seq<T>, cmp: (T, T) -> bool, rank: T -> int)
    requires RankedBy(cmp, rank) && IsHeap(data, cmp) && |data| > 1
    ensures HeapBelow([data[|data| - 1]] + data[1..|data| - 1], rank, 0)
  {
    IsHeapByRank(data, cmp, rank);
    var n := |data| - 1;
    var d := [data[n]] + data[1..n];
    forall i | 0 < i < |d| && Parent(i) != 0 ensures rank(d[Parent(i)]) >= rank(d[i]) {
      assert d[i] == data[i] && d[Parent(i)] == data[Parent(i)];
    }
  }

  /** The sift-up invariant: ordered along every link except the one into
      `cur`, and `cur`'s parent outranks `cur`'s children. */
  ghost predicate SiftUpInvariant<T>(d: seq<T>, rank: T -> int, cur: nat)
  {
    && (forall i :: 0 < i < |d| && i != cur ==> rank(d[Parent(i)]) >= rank(d[i]))
    && (cur > 0 && cur < |d| ==>
          forall c :: 0 < c < |d| && Parent(c) == cur ==> rank(d[Parent(cur)]) >= rank(d[c]))
  }

  /** Sifting up, in the comment's direction, from a slot that satisfies the
      invariant yields a heap. */
  lemma {:induction false} SiftUpRestoresHeap<T(!new)>(d: seq<T>, cur: nat, cmp: (T, T) -> bool, rank: T -> int)
    requires cur < |d| && RankedBy(cmp, rank) && SiftUpInvariant(d, rank, cur)
    ensures IsHeap(SiftUp(d, cur, cmp), cmp)
    decreases cur
  {
    if cur > 0 && cmp(d[Parent(cur)], d[cur]) {
      var par := Parent(cur);
      var d2 := Swap(d, cur, par);
      assert rank(d[par]) < rank(d[cur]);
      forall i | 0 < i < |d2| && i != par ensures rank(d2[Parent(i)]) >= rank(d2[i]) {
        if i == cur {
        } else if Parent(i) == par {
          assert d2[i] == d[i];
        } else if Parent(i) == cur {
          assert d2[i] == d[i];
        } else {
          assert d2[i] == d[i] && d2[Parent(i)] == d[Parent(i)];
        }
      }
      if par > 0 {
        forall c | 0 < c < |d2| && Parent(c) == par ensures rank(d2[Parent(par)]) >= rank(d2[c]) {
          assert d2[Parent(par)] == d[Parent(par)];
          if c != cur {
            assert d2[c] == d[c];
          }
        }
      }
      SiftUpRestoresHeap(d2, par, cmp, rank);
    } else {
      if cur > 0 {
        assert !cmp(d[Parent(cur)], d[cur]);
      }
      IsHeapByRank(d, cmp, rank);
    }
  }

  /** `push`, with the comment's sift-up, keeps the heap invariant. */
  lemma PushKeepsHeap<T(!new)>(q: Queue<T>, e: T, rank: T -> int)
    requires q.Valid() && RankedBy(q.cmp, rank) && IsHeap(q.data, q.cmp) && !IsFull(q)
    ensures IsHeap(Push(q, e).value.data, q.cmp)
  {
    IsHeapByRank(q.data, q.cmp, rank);
    var d := q.data + [e];
    if |d| > 1 {
      forall i | 0 < i < |d| && i != |d| - 1 ensures rank(d[Parent(i)]) >= rank(d[i]) {
        assert d[i] == q.data[i] && d[Parent(i)] == q.data[Parent(i)];
      }
      SiftUpRestoresHeap(d, |d| - 1, q.cmp, rank);
    }
  }

  /** In a heap the front ranks at least as high as every element. */
  lemma {:induction false} FrontIsTop<T(!new)>(d: seq<T>, cmp: (T, T) -> bool, rank: T -> int, i: nat)
    requires RankedBy(cmp, rank) && IsHeap(d, cmp) && i < |d|
    ensures rank(d[0]) >= rank(d[i])
    decreases i
  {
    if i > 0 {
      IsHeapByRank(d, cmp, rank);
      FrontIsTop(d, cmp, rank, Parent(i));
    }
  }

  /** Under a ranked comparator, `pop` on a heap returns an element that ranks
      at least as high as every element queued, so successive pops come out in
      comparator order. */
  lemma PopReturnsTop<T(!new)>(q: Queue<T>, rank: T -> int)
    requires q.Valid() && RankedBy(q.cmp, rank) && IsHeap(q.data, q.cmp) && !IsEmpty(q)
    ensures forall i :: 0 <= i < |q.data| ==> rank(Pop(q).value.0) >= rank(q.data[i])
  {
    forall i | 0 <= i < |q.data| ensures rank(q.data[0]) >= rank(q.data[i]) {
      FrontIsTop(q.data, q.cmp, rank, i);
    }
  }

  /** The comparator the queue's tests use: `e1 > e2`, so the smallest integer
      ranks highest. */
  function MinComparator(): (T: (int, int) -> bool)
  {
    (e1: int, e2: int) => e1 > e2
  }

  /** As written, pushing 5 then 2 under the min comparator leaves 5 at the
      front and breaks the heap invariant. */
  lemma PushAsWrittenCounterexample()
    ensures var q0 := Create(5, MinComparator());
      && PushAsWritten(q0, 5).Ok?
      && PushAsWritten(PushAsWritten(q0, 5).value, 2).Ok?
      && var q2 := PushAsWritten(PushAsWritten(q0, 5).value, 2).value;
      && q2.data == [5, 2]
      && Front(q2) == Ok(5)
      && !IsHeap(q2.data, q2.cmp)
  {
    var q0 := Create(5, MinComparator());
    var q1 := PushAsWritten(q0, 5).value;
    assert q1.data == [5];
    var d := q1.data + [2];
    assert !MinComparator()(d[1], d[Parent(1)]);
    assert SiftUpAsWritten(d, 1, q1.cmp) == d;
    assert MinComparator()(5, 2);
  }

  /** With the comment's sift-up, the same pushes leave 2 at the front. */
  lemma PushCorrectedExample()
    ensures var q0 := Create(5, MinComparator());
      && Push(q0, 5).Ok?
      && Push(Push(q0, 5).value, 2).Ok?
      && Push(Push(q0, 5).value, 2).value.data == [2, 5]
  {
    var q0 := Create(5, MinComparator());
    var q1 := Push(q0, 5).value;
    assert q1.data == [5];
    var d := q1.data + [2];
    assert MinComparator()(d[Parent(1)], d[1]);
    var d2 := Swap(d, 1, 0);
    assert d2 == [2, 5];
    assert SiftUp(d, 1, q1.cmp) == SiftUp(d2, 0, q1.cmp) == d2;
  }
}

=== FILE: scheduler.dfy ===
/** The device-event scheduler: a priority queue of events ordered so that the
    earliest timestamp is at the front, with a rebase that shifts every
    timestamp down once a new one passes a threshold. */
module Scheduler {
  import opened Errors
  import opened PQueue

  const Two64: int := 0x1_0000_0000_0000_0000

  /** `uint64_t`. */
  type U64 = x: int | 0 <= x < 0x1_0000_0000_0000_0000

  /** Unsigned 64-bit subtraction, wrapping below zero. */
  function Sub64(a: U64, b: U64): U64
  {
    (a - b) % Two64
  }

  /** `device_event`: the callback pointer becomes an identifier of the
      callback the event runs. */
  datatype Event = Event(timestamp: U64, callback: nat)

  /** `dev_event_comp`: an event "ranks below" a later one, so the queue keeps
      the earliest event at the front. */
  function EventComp(): (T: (Event, Event) -> bool)
  {
    (e1: Event, e2: Event) => e1.timestamp > e2.timestamp
  }

  /** The comparator ranks an event by its negated timestamp. */
  function EventRank(e: Event): int { 0 - e.timestamp as int }

  lemma EventCompRanked()
    ensures RankedBy(EventComp(), EventRank)
  {
  }

  /** TIMESTAMP_LOOPBACK. */
  const Loopback: U64 := 0x0FFF_FFFF_FFFF_FFFF

  /** An event moved `m` ticks earlier, in 64-bit arithmetic. */
  function Shifted(e: Event, m: U64): Event
  {
    e.(timestamp := Sub64(e.timestamp, m))
  }

  /** The loop in `schedule_next_event` that subtracts `m` from every queued
      timestamp. Differences between timestamps survive (modulo 2^64); when
      `m` is at most every timestamp nothing wraps, each timestamp drops by
      exactly `m`, and their order is kept. */
  method Rebase(data: seq<Event>, m: U64) returns (r: seq<Event>)
    ensures |r| == |data|
    ensures forall i :: 0 <= i < |data| ==> r[i] == Shifted(data[i], m)
    ensures forall i, j :: 0 <= i < |data| && 0 <= j < |data| ==>
      Sub64(r[i].timestamp, r[j].timestamp) == Sub64(data[i].timestamp, data[j].timestamp)
    ensures (forall i :: 0 <= i < |data| ==> m <= data[i].timestamp) ==>
      && (forall i :: 0 <= i < |data| ==> r[i].timestamp == data[i].timestamp - m)
      && (forall i, j :: 0 <= i < |data| && 0 <= j < |data| ==>
            (r[i].timestamp <= r[j].timestamp <==> data[i].timestamp <= data[j].timestamp))
  {
    r := data;
    var k := 0;
    while k < |r|
      invariant 0 <= k <= |r| == |data|
      invariant forall i :: 0 <= i < k ==> r[i] == Shifted(data[i], m)
      invariant forall i :: k <= i < |r| ==> r[i] == data[i]
    {
      r := r[k := Shifted(r[k], m)];
      k := k + 1;
    }
    forall i, j | 0 <= i < |data| && 0 <= j < |data|
      ensures Sub64(r[i].timestamp, r[j].timestamp) == Sub64(data[i].timestamp, data[j].timestamp)
    {
      SubShiftedDifference(data[i].timestamp, data[j].timestamp, m);
    }
  }

  /** Shifting two timestamps by the same amount keeps their wrapped
      difference. */
  lemma SubShiftedDifference(a: U64, b: U64, m: U64)
    ensures Sub64(Sub64(a, m), Sub64(b, m)) == Sub64(a, b)
  {
    var x := a - m;
    var y := b - m;
    assert (x % Two64 - y % Two64) % Two64 == (x - y) % Two64 by {
      ModSubCongruence(x, y);
    }
  }

  /** Reducing both operands modulo 2^64 does not change their difference
      modulo 2^64. */
  lemma ModSubCongruence(x: int, y: int)
    ensures (x % Two64 - y % Two64) % Two64 == (x - y) % Two64
  {
    var qx := x / Two64;
    var qy := y / Two64;
    assert x == qx * Two64 + x % Two64;
    assert y == qy * Two64 + y % Two64;
    assert x - y == (qx - qy) * Two64 + (x % Two64 - y % Two64);
    ModAddMultiple(x % Two64 - y % Two64, qx - qy);
  }

  /** Adding a multiple of 2^64 does not change a value modulo 2^64. */
  lemma ModAddMultiple(v: int, k: int)
    ensures (k * Two64 + v) % Two64 == v % Two64
  {
    var r := v % Two64;
    var q := v / Two64;
    assert v == q * Two64 + r;
    assert k * Two64 + v == (k + q) * Two64 + r;
  }

  /** The part of `schedule_next_event` before the push: fails on a full queue
      before anything else; past the threshold, rebases the queue and the new
      event on the front timestamp, failing if the queue is empty. */
  method PrepareSchedule(q: Queue<Event>, e: Event) returns (r: Result<(Queue<Event>, Event)>)
    requires q.Valid() && q.cmp == EventComp()
    ensures IsFull(q) ==> r == Fail(FullContainer)
    ensures !IsFull(q) && e.timestamp <= Loopback ==> r == Ok((q, e))
    ensures !IsFull(q) && e.timestamp > Loopback && IsEmpty(q) ==> r == Fail(EmptyContainer)
    ensures !IsFull(q) && e.timestamp > Loopback && !IsEmpty(q) ==>
      && r.Ok?
      && r.value.1 == Shifted(e, q.data[0].timestamp)
      && r.value.0.data == seq(|q.data|, i requires 0 <= i < |q.data| => Shifted(q.data[i], q.data[0].timestamp))
    ensures r.Ok? ==> && !IsFull(r.value.0) && r.value.0.Valid()
                      && r.value.0.cmp == q.cmp && r.value.0.maxLen == q.maxLen
                      && |r.value.0.data| == |q.data|
    ensures r.Ok? && IsHeap(q.data, q.cmp) ==> IsHeap(r.value.0.data, q.cmp)
  {
    if IsFull(q) {
      return Fail(FullContainer);
    }
    if e.timestamp <= Loopback {
      return Ok((q, e));
    }
    var front := Front(q);
    if front.Fail? {
      return Fail(front.code);
    }
    var minTime := front.value.timestamp;
    var data := Rebase(q.data, minTime);
    assert data == seq(|q.data|, i requires 0 <= i < |q.data| => Shifted(q.data[i], minTime));
    if IsHeap(q.data, q.cmp) {
      RebaseOnFrontKeepsHeap(q.data, data, minTime);
    }
    r := Ok((q.(data := data), Shifted(e, minTime)));
  }

  /** `schedule_next_event` with the corrected push: the same failures and the
      same rebase, then the new event joins the queue and the earliest event
      stays at the front. */
  method ScheduleNextEvent(q: Queue<Event>, e: Event) returns (r: Result<Queue<Event>>)
    requires q.Valid() && q.cmp == EventComp()
    ensures IsFull(q) ==> r == Fail(FullContainer)
    ensures !IsFull(q) && e.timestamp <= Loopback ==> r == Push(q, e)
    ensures !IsFull(q) && e.timestamp > Loopback && IsEmpty(q) ==> r == Fail(EmptyContainer)
    ensures !IsFull(q) && e.timestamp > Loopback && !IsEmpty(q) ==>
      && r.Ok?
      && multiset(r.value.data)
         == multiset(seq(|q.data|, i requires 0 <= i < |q.data| => Shifted(q.data[i], q.data[0].timestamp)))
            + multiset{Shifted(e, q.data[0].timestamp)}
    ensures r.Ok? ==> |r.value.data| == |q.data| + 1 && r.value.Valid() && r.value.cmp == q.cmp
    ensures r.Ok? && IsHeap(q.data, q.cmp) ==> IsHeap(r.value.data, q.cmp)
  {
    var prepared := PrepareSchedule(q, e);
    if prepared.Fail? {
      return Fail(prepared.code);
    }
    var (queue, event) := prepared.value;
    r := Push(queue, event);
    if IsHeap(queue.data, q.cmp) {
      EventCompRanked();
      PushKeepsHeap(queue, event, EventRank);
    }
  }

  /** `schedule_next_event` as written: the same failures and rebase, then the
      push of the queue header, whose sift-up compares the wrong way round, so
      the front need not stay the earliest event. */
  method ScheduleNextEventAsWritten(q: Queue<Event>, e: Event) returns (r: Result<Queue<Event>>)
    requires q.Valid() && q.cmp == EventComp()
    ensures IsFull(q) ==> r == Fail(FullContainer)
    ensures !IsFull(q) && e.timestamp <= Loopback ==> r == PushAsWritten(q, e)
    ensures !IsFull(q) && e.timestamp > Loopback && IsEmpty(q) ==> r == Fail(EmptyContainer)
    ensures !IsFull(q) && e.timestamp > Loopback && !IsEmpty(q) ==>
      && r.Ok?
      && multiset(r.value.data)
         == multiset(seq(|q.data|, i requires 0 <= i < |q.data| => Shifted(q.data[i], q.data[0].timestamp)))
            + multiset{Shifted(e, q.data[0].timestamp)}
    ensures r.Ok? ==> |r.value.data| == |q.data| + 1 && r.value.Valid() && r.value.cmp == q.cmp
  {
    var prepared := PrepareSchedule(q, e);
    if prepared.Fail? {
      return Fail(prepared.code);
    }
    var (queue, event) := prepared.value;
    r := PushAsWritten(queue, event);
  }

  /** As written, scheduling an event at time 2 behind one at time 5 keeps the
      later event at the front, so it would be executed first. */
  lemma ScheduleAsWrittenRunsLaterFirst()
    ensures var q := Queue(4, [Event(5, 0)], EventComp());
      && PushAsWritten(q, Event(2, 1)) == Ok(q.(data := [Event(5, 0), Event(2, 1)]))
      && !IsHeap([Event(5, 0), Event(2, 1)], EventComp())
  {
    var q := Queue(4, [Event(5, 0)], EventComp());
    var d := q.data + [Event(2, 1)];
    assert d == [Event(5, 0), Event(2, 1)];
    assert !EventComp()(d[1], d[Parent(1)]);
    assert SiftUpAsWritten(d, 1, q.cmp) == d;
    assert EventComp()(d[Parent(1)], d[1]);
  }

  /** Rebasing a heap on its front timestamp, the smallest, keeps it a heap. */
  lemma RebaseOnFrontKeepsHeap(data: seq<Event>, r: seq<Event>, m: U64)
    requires |data| > 0 && m == data[0].timestamp && IsHeap(data, EventComp())
    requires |r| == |data| && forall i :: 0 <= i < |data| ==> r[i] == Shifted(data[i], m)
    ensures IsHeap(r, EventComp())
  {
    EventCompRanked();
    forall i | 0 <= i < |data| ensures m <= data[i].timestamp {
      FrontIsTop(data, EventComp(), EventRank, i);
    }
    forall i | 0 < i < |r| ensures !EventComp()(r[Parent(i)], r[i]) {
      assert !EventComp()(data[Parent(i)], data[i]);
    }
  }

  /** `execute_next_event`: pops the front event and runs its callback once;
      the result names that callback. An empty queue fails. */
  function ExecuteNextEvent(q: Queue<Event>): (r: Result<(nat, Queue<Event>)>)
    requires q.Valid()
    ensures r.Fail? <==> IsEmpty(q)
    ensures r.Fail? ==> r.code == EmptyContainer
    ensures r.Ok? ==>
      && r.value.0 == q.data[0].callback
      && |r.value.1.data| == |q.data| - 1
      && multiset(r.value.1.data) == multiset(q.data) - multiset{q.data[0]}
  {
    match Pop(q)
    case Fail(code) => Fail(code)
    case Ok((front, rest)) => Ok((front.callback, rest))
  }

  /** Among the queued events, the one executed next has the earliest
      timestamp. */
  lemma ExecutesEarliest(q: Queue<Event>)
    requires q.Valid() && q.cmp == EventComp() && IsHeap(q.data, q.cmp) && !IsEmpty(q)
    ensures forall i :: 0 <= i < |q.data| ==> q.data[0].timestamp <= q.data[i].timestamp
  {
    EventCompRanked();
    forall i | 0 <= i < |q.data| ensures q.data[0].timestamp <= q.data[i].timestamp {
      FrontIsTop(q.data, q.cmp, EventRank, i);
    }
  }
}
